=== FILE: README.md ===
# Provisioning scripts of an Azure GPT-RAG deployment, modelled in Dafny

This project models the decision logic of the Python provisioning scripts that
prepare an Azure AI landing zone after its infrastructure is deployed:

- **AI Foundry connection setup** (`config/aifoundry/aifoundry_setup.py`). The
  `cfg` lookup reads the App Configuration store under label `infra`.
  - `interpolate` is a single `{\w+}` substitution pass.
  - `resolve_resource_id` handles the whole-string `{OUTER.INNER}` form.
  - The API Management subscription is chosen by display name.
  - Per-category validation turns each declarative connection entry into one
    `create_or_update`, a skip, or an exit of the process.
- **Azure AI Search assets** (`scripts/search/setup.py`). The script builds a
  plan of REST requests:
  - a datasource;
  - the index, deleted then put;
  - the skillset, deleted then put;
  - the indexer.

  This chain is built for the RAG index and then for the `queries`, `tables`
  and `measures` NL2SQL indexes. The plan is sent to a search service that
  answers with HTTP statuses. The first status that `raise_for_status` raises
  for, 400 to 599, ends the run; any other status lets it carry on.
- **Configuration seeding**:
  - `scripts/appconfig/appconfig.py` copies the `appConfigKVs` deployment output
    into the store.
  - `scripts/appconfig/seedconfig.py` upper-cases the output names, stores
    PROVISION_CONFIG as one JSON document, then stores each APP_SETTINGS member.
- **The fixed connection set** (`scripts/aifoundry/create_connections.py`):
  Azure OpenAI through the gateway, AI Services and AI Search, in that order.
- **Responsible AI policies** (`scripts/rai/raipolicies.py`): two policy
  assignments on the chat deployment.

Every remote service is a value:

- the configuration store is a `map<(key, label), value>`;
- the search service is a `map<(collection, name), Body>`;
- API Management is a map from (resource group, service) to its subscriptions;
- the search service's answers come from a responder function;
- JSON decoding and `int()` are parser functions passed in.

A run is a pure function. It returns an `Outcome`: the remote writes issued, in
order, and how the run ended (`Completed`, or `Exited(reason)`, which is exit
status 1).

Modules, one per file:

- `Common`: Option, Result, Reason, Outcome, environment checks.
- `JsonModel`: Python's `in`, subscript, truth value, `str()` and `json.dumps` on decoded JSON.
- `ConfigStore`: `cfg`, and the effect of store writes.
- `Template`: `interpolate` and `resolve_resource_id`.
- `Connections`: the connection entities and API Management subscriptions.
- `FoundrySetup`: the connection-registration loop.
- `ArmIds`: Azure Resource Manager ids for subscriptions, resource groups and
  Cognitive Services accounts.
- `SearchAssets`: search asset names, bodies and URLs.
- `SearchSetup`: the search plan and its execution.
- `AppConfigSeed`, `SeedConfig`, `CreateConnections` and `RaiPolicies`: the
  smaller scripts.

## Model

| member | source | states |
|---|---|---|
| Common.ExitCode | scripts/search/setup.py:43-48 | the process exits with 0 exactly after a completed run and with 1 after any exit |
| Common.EnvGet | scripts/search/setup.py:191-192 | `os.environ.get(name, default)`: the default only when the variable is absent; a present variable wins even when empty |
| Common.Missing | scripts/search/setup.py:42 | the names reported missing are exactly the required names that are unset or empty, never more than were required |
| Common.CheckEnv | scripts/search/setup.py:37-48 | the check passes iff every required variable is set and non-empty; otherwise it exits listing the missing names, at least one |
| JsonModel.Contains | scripts/appconfig/appconfig.py:54 | Python `in` on a dict tests its keys; it raises (None) exactly on null, booleans and numbers |
| JsonModel.Subscript | scripts/aifoundry/create_connections.py:40-42 | `d[key]` succeeds iff `d` is a dict holding `key`, and returns the value `d.get(key)` returns |
| JsonModel.Member | scripts/appconfig/appconfig.py:54-57 | the guarded lookup succeeds iff the key is present in a dict, exits with the given reason when a dict lacks it, and returns the member |
| JsonModel.OutputValue | scripts/appconfig/seedconfig.py:64-68 | `outputs[name]["value"]` is found iff the output exists and is an object holding `value`; a missing output exits with `MissingOutput` |
| JsonModel.Str | scripts/appconfig/appconfig.py:77 | `str()` of a JSON string is the string itself |
| ConfigStore.Cfg | config/aifoundry/aifoundry_setup.py:44-58 | a required lookup succeeds iff the key exists under the label with a non-empty value; an optional one always succeeds, giving "" for an absent key; the value is the stored one; the exit reason tells an absent key from an empty one |
| ConfigStore.LastWriteWins | scripts/appconfig/appconfig.py:74-78 | after a sequence of writes, a write no later write overwrites is what the store holds |
| ConfigStore.UntouchedSlot | scripts/appconfig/appconfig.py:74-78 | a (key, label) no write touches keeps its previous contents, present or absent |
| ConfigStore.Writes | scripts/appconfig/appconfig.py:75-78 | one write per member, in order, under the null label, with the member's key and `str()` of its value |
| ConfigStore.SeededValues | scripts/appconfig/appconfig.py:74-78 | after seeding, each member whose key no later member repeats is stored under the null label with its `str()` |
| ConfigStore.UnlabelledWritesInvisible | config/aifoundry/aifoundry_setup.py:44-49 | writes under the null label never change what a `cfg` lookup under label `infra` returns |
| Template.Leading | config/aifoundry/aifoundry_setup.py:67 | a `\{(\w+)\}` match starts the text iff one is found here, and the key found is a `\w+` run that the text opens with between braces |
| Template.Interpolate | config/aifoundry/aifoundry_setup.py:61-67 | interpolation succeeds iff every key it looks up is present and non-empty under `infra`; an exit names one such unresolvable key; non-empty text gives non-empty text |
| Template.NoPlaceholderIffNoLookups | config/aifoundry/aifoundry_setup.py:61-67 | a template holds no `{\w+}` match exactly when interpolation looks nothing up |
| Template.IdentityWithoutPlaceholders | config/aifoundry/aifoundry_setup.py:61-67 | a template without placeholders comes back unchanged, whatever the store holds |
| Template.InterpolateAppend | config/aifoundry/aifoundry_setup.py:61-67 | placeholder-free literal text is copied through, and the scan of what follows is unaffected by it, whenever no `{\w+}` match straddles the join (the text does not end in a word character or `{`, or what follows opens with `{`) |
| Template.PlaceholderAfterLiteral | config/aifoundry/aifoundry_setup.py:61-67 | placeholder-free text before `{KEY}` is kept whatever it ends with (`v1{K}` included), and KEY's value follows it, or KEY's lookup failure ends the resolution |
| Template.LeadingPlaceholder | config/aifoundry/aifoundry_setup.py:65-67 | a template opening with `{KEY}` gives the required `infra` value of KEY followed by the rest resolved, or exits as `cfg` does |
| Template.NoRescan | config/aifoundry/aifoundry_setup.py:67 | the substituted value is not scanned again: `{K}` yields K's value verbatim even when it looks like a placeholder |
| Template.DottedIsLiteral | config/aifoundry/aifoundry_setup.py:67 | `{A.B}` holds no `\{(\w+)\}` match |
| Template.EmbeddedDottedVerbatim | config/aifoundry/aifoundry_setup.py:61-67 | an embedded `{A.B}` after any placeholder-free text (`id{A.B}` included) is left verbatim and causes no lookup |
| Template.SubscriptionScenario | config/aifoundry/aifoundry_setup.py:61-67 | `/subscriptions/{AZURE_SUBSCRIPTION_ID}/rg` with subscription `sub-1` resolves to `/subscriptions/sub-1/rg` |
| Template.DottedPair | config/aifoundry/aifoundry_setup.py:75 | a recognised string is exactly `{OUTER.INNER}` with two `\w+` keys |
| Template.DottedPairComplete | config/aifoundry/aifoundry_setup.py:75-77 | every `{OUTER.INNER}` string is recognised, with its two keys |
| Template.ResolveResourceId | config/aifoundry/aifoundry_setup.py:70-88 | a string that is not `{OUTER.INNER}` resolves iff it interpolates, to the interpolated text |
| Template.ResolveDotted | config/aifoundry/aifoundry_setup.py:75-87 | `{OUTER.INNER}` exits like `cfg` on OUTER, exits on text that is not JSON, exits when INNER is absent, and otherwise yields INNER's value |
| Template.FooBarScenario | config/aifoundry/aifoundry_setup.py:70-88 | `{FOO.bar}` against `FOO = {"bar": "baz"}` yields `baz`; `{FOO.qux}` exits with a missing attribute |
| Connections.GatewayHost | scripts/aifoundry/create_connections.py:55 | the gateway URL is `https://`, the service name, then `.azure-api.net`, so the service name can be read back from it |
| FoundrySetup.FirstByDisplayName | config/aifoundry/aifoundry_setup.py:147 | the position found is the first subscription with the display name; none iff no subscription has it |
| FoundrySetup.SelectSubscription | config/aifoundry/aifoundry_setup.py:146-150 | the first subscription with the display name wins; failing that, the only one when there is exactly one; it exits iff neither exists, listing the display names |
| FoundrySetup.ListSubscriptions | config/aifoundry/aifoundry_setup.py:146 | listing succeeds iff the service exists in the resource group, and returns its subscriptions |
| FoundrySetup.InterpolateIfPresent | config/aifoundry/aifoundry_setup.py:127 | an absent or empty template gives None; a present one gives Some of its interpolation, failing iff interpolation fails |
| FoundrySetup.ResolveFields | config/aifoundry/aifoundry_setup.py:125-135 | a credential exists iff `api_key` is given; a resource id exists iff `resource_id` is given |
| FoundrySetup.Required | config/aifoundry/aifoundry_setup.py:139-140 | `cfg_item[member]` succeeds iff the member is present, with its value |
| FoundrySetup.ApplyGateway | config/aifoundry/aifoundry_setup.py:137-155 | without `use_apim` the resolved fields pass through unchanged; with it the api path and resource id are kept and a credential is always supplied |
| FoundrySetup.ToConnection | config/aifoundry/aifoundry_setup.py:157-193 | an unknown category is skipped and only then; an exit happens exactly on a violated category rule; the entity carries the entry's name, sharing, endpoint and credential per category; AzureOpenAI always builds, with the defaulted api version |
| FoundrySetup.BuildEntry | config/aifoundry/aifoundry_setup.py:119-193 | an entry that builds yields no entity exactly when its category is unknown |
| FoundrySetup.GatewayOverridesTarget | config/aifoundry/aifoundry_setup.py:138-155 | with `use_apim` the connection points at `https://{apim}.azure-api.net/{api_path}` and authenticates with the selected subscription's primary key, whatever `api_key` says |
| FoundrySetup.GatewaySuppliesCredential | config/aifoundry/aifoundry_setup.py:154-190 | through the gateway no category rule except CognitiveServices' resource-id rule can fail |
| FoundrySetup.CategoryRules | config/aifoundry/aifoundry_setup.py:157-193 | AIInference without a key exits; CognitiveServices without a resource id exits; CognitiveSearch uses the target with a key, otherwise the resource id, otherwise exits; AzureOpenAI defaults its api version; an unknown category is skipped |
| FoundrySetup.KnownOnly | config/aifoundry/aifoundry_setup.py:191-193 | the entries kept are exactly those of a known category |
| FoundrySetup.RegisterAll | config/aifoundry/aifoundry_setup.py:119-196 | when every entry builds, the run completes with exactly one `create_or_update` per entry of a known category, in file order, each the entry's entity |
| FoundrySetup.RegisterStopsAtFailure | config/aifoundry/aifoundry_setup.py:119-196 | the first failing entry ends the whole run: the requests are those of the entries before it, and nothing later is registered |
| FoundrySetup.CfgAll | config/aifoundry/aifoundry_setup.py:100-106 | the core settings are read iff each is resolvable, and each value is its `cfg` lookup |
| FoundrySetup.SetupPreconditions | config/aifoundry/aifoundry_setup.py:91-119 | nothing is registered without the store endpoint or with a core setting missing; otherwise the loop runs with the store's resource group and OpenAI api version |
| SearchAssets.DerivedNamesInjective | scripts/search/setup.py:82-160 | the datasource, skillset and indexer names each determine the index they belong to |
| ArmIds.SubscriptionId | scripts/rai/raipolicies.py:47 | the id is `/subscriptions/` followed by the subscription, which reads back after it |
| ArmIds.SubscriptionIdInjective | scripts/rai/raipolicies.py:47 | equal subscription ids name the same subscription |
| ArmIds.ResourceGroupId | scripts/rai/raipolicies.py:47-48 | the id is the subscription's id, `/resourceGroups/` and the group, each readable back at its offset |
| ArmIds.ResourceGroupIdInjective | scripts/rai/raipolicies.py:47-48 | with group names free of `/`, equal resource group ids name the same subscription and group |
| ArmIds.AccountId | scripts/aifoundry/create_connections.py:62-66 | a Cognitive Services account id (the Azure OpenAI and AI Services resource ids of create_connections.py:62-66 and 76-80, and the account part of raipolicies.py:46-50) is the resource group's id, `/providers/`, `Microsoft.CognitiveServices`, `/accounts/` and the account name, each readable back at its offset |
| ArmIds.AccountIdInjective | scripts/aifoundry/create_connections.py:62-66 | with resource group and account names free of `/`, equal account ids name the same subscription, group and account |
| SearchAssets.Url | scripts/search/setup.py:57 | the request URL holds service, collection, asset name and API version at fixed offsets, behind `https://`, `.search.windows.net/`, `/` and `?api-version=` |
| SearchAssets.StorageResourceId | scripts/search/setup.py:84-88 | the identity id is `/subscriptions/{sub}/resourceGroups/{storage_rg}/providers/Microsoft.Storage/storageAccounts/{account}`, each value readable back at its offset |
| SearchAssets.StorageResourceIdInjective | scripts/search/setup.py:84-88 | with resource group and account names free of `/`, equal ids name the same subscription, group and account |
| SearchAssets.DatasourceRequest | scripts/search/setup.py:82-96 | one put of `{index}-datasource` whose body names that asset, is of type `azureblob`, reads the given container and uses the storage account's identity id |
| SearchAssets.IndexRequests | scripts/search/setup.py:98-102 | a bodiless delete of the index, then a put of the index with exactly the given fields |
| SearchAssets.SkillsetRequests | scripts/search/setup.py:104-123 | a bodiless delete of the skillset, then a put holding exactly the one skill |
| SearchAssets.ChunkingSkill | scripts/search/setup.py:106-117 | a Web API skill POSTing each document's storage path, one per batch, to `https://{fqdn}/document-chunking` |
| SearchAssets.EmbeddingSkillFor | scripts/search/setup.py:125-149 | an Azure OpenAI embedding skill whose URI is the gateway without trailing slashes, one `/`, the API path and `?api-version=`; key, deployment, model and size as given; output to `contentVector` |
| SearchAssets.IndexerRequest | scripts/search/setup.py:151-160 | one put of `{index}-indexer` whose body names that asset and wires the given datasource, skillset, target index and interval |
| SearchAssets.RagFields | scripts/search/setup.py:196-201 | `id` is the only key, `content` is analysed with the analyzer, `contentVector` has the embedding size; names are distinct |
| SearchAssets.Nl2SqlFields | scripts/search/setup.py:213-229 | `id` is the only key, the text field is analysed, `contentVector` has the embedding size; names are distinct iff the text field is neither `id` nor `contentVector` |
| SearchAssets.EmbeddingFillsVectorField | scripts/search/setup.py:125-149 | the embedding skill's output lands in a field of the NL2SQL index declared with the skill's vector size |
| SearchAssets.UrlDeterminesAsset | scripts/search/setup.py:57 | within one service and API version, distinct assets have distinct request URLs, provided collections hold no `/` and names no `?` |
| SearchAssets.RStripSlash | scripts/search/setup.py:127 | `rstrip("/")` yields a prefix that does not end in `/`, and only slashes are removed |
| SearchSetup.Execute | scripts/search/setup.py:50-68 | requests are sent in order, each to the state the earlier ones left and answered by the service; every exchange but the last got a status `raise_for_status` accepts; a failure is the last exchange's status, from 400 to 599; without one all requests were sent and applied |
| SearchSetup.StatusAboveServerErrorsContinues | scripts/search/setup.py:59-61 | a status of 600 or more is logged but not raised, so a service answering 600 to everything is sent the whole plan |
| SearchSetup.ReadSettings | scripts/search/setup.py:170-193 | the analyzer defaults to `standard.lucene` and the interval to `PT2H`; the base index is non-empty |
| SearchSetup.EmbedKey | scripts/search/setup.py:127-129 | the gateway key is the vault secret named by AZURE_APIM_SUBSCRIPTION_SECRET_NAME; exits when the variable or the secret is missing |
| SearchSetup.MakePlan | scripts/search/setup.py:195-241 | a plan stops early iff the gateway key is unavailable, then after 9 requests with that reason; otherwise it has the 24 requests of the four chains |
| SearchSetup.ContainerHost | scripts/search/setup.py:70-80 | the container host is found iff the FQDN is present and non-empty; otherwise exits naming the container |
| SearchSetup.VectorSize | scripts/search/setup.py:193 | the vector size is read iff the text is an integer, otherwise exits with that text |
| SearchSetup.Prepare | scripts/search/setup.py:162-193 | the run reaches its first request iff the environment is complete, the host is known and the vector size parses; each failure has its reason; the plan is the one built from the settings |
| SearchSetup.RunPlan | scripts/search/setup.py:195-243 | the exchanges are those the service answered, in plan order; the run stops at the first failing status with that HTTP error, and otherwise sends every request and ends for the plan's own reason |
| SearchSetup.EndFacts | scripts/search/setup.py:59-68 | the end status chosen from the first failing status is an HTTP error exactly when the last answer failed, and otherwise completion or the plan's stop reason |
| SearchSetup.Run | scripts/search/setup.py:162-243 | no request is sent when a required variable is missing or preparation exits; otherwise the exchanges follow the plan and stop at the first failure |
| SearchSetup.ChainShape | scripts/search/setup.py:202-210 | a chain is datasource put, index delete then put, skillset delete then put, then the indexer naming all three |
| SearchSetup.RagChainFirst | scripts/search/setup.py:202-210 | the RAG index's chain comes first, with the chunking skillset |
| SearchSetup.Nl2SqlChainShape | scripts/search/setup.py:231-241 | each NL2SQL chain creates `{base}-{name}` with its embedding skillset in chain order |
| SearchSetup.Nl2SqlChainsFollow | scripts/search/setup.py:212-241 | with the gateway key, the queries, tables and measures chains follow at positions 6, 12 and 18 |
| SearchSetup.KeyFailurePlan | scripts/search/setup.py:231-235 | without the gateway key, requests 7 to 9 of the plan are the queries datasource put, then its index delete and put |
| SearchSetup.PlanOrder | scripts/search/setup.py:195-241 | the order of all assets of a plan, with and without the gateway key |
| SearchSetup.ChainDependencies | scripts/search/setup.py:151-160 | within a chain the indexer is put only after its datasource, index and skillset exist |
| SearchSetup.DependenciesConcat | scripts/search/setup.py:195-241 | running one plan after another keeps every indexer after its dependencies |
| SearchSetup.PlanDependenciesFirst | scripts/search/setup.py:195-241 | whatever the service held before, each indexer of a plan is put after its datasource, target index and skillset |
| SearchSetup.IndexersFindDependencies | scripts/search/setup.py:162-243 | in every run, an indexer put reaches the service only when the service holds what it names |
| SearchSetup.ChainConsistent | scripts/search/setup.py:82-160 | every body of a chain names its asset, reads the configured storage container, sizes vectors as configured and calls the gateway with the vault key |
| SearchSetup.PlanConsistent | scripts/search/setup.py:195-241 | every request of a plan is consistent in that sense |
| SearchSetup.MissingIndexStopsChain | scripts/search/setup.py:99-103 | a plan opening with a chain for an index the service lacks stops at the index delete with 404, after two requests |
| SearchSetup.FreshServiceStopsAtIndexDelete | scripts/search/setup.py:202-203 | against a service without the base index the run creates the datasource, gets 404 on the index delete, and stops |
| SearchSetup.SecretNameUnchecked | scripts/search/setup.py:18-35 | AZURE_APIM_SUBSCRIPTION_SECRET_NAME is not among the variables checked up front |
| SearchSetup.AcceptedPlanRunsToEnd | scripts/search/setup.py:50-68 | when every request is accepted, the whole plan is sent and the run ends for the plan's own reason |
| SearchSetup.AcceptedRunKeepsLastPuts | scripts/search/setup.py:99-103 | after a run with no failing status, the service holds the body last put for every asset no later request touched |
| SearchSetup.KeyFailureStopsAfterQueriesIndex | scripts/search/setup.py:231-235 | without the gateway key a fully accepted run stops with status 1 after nine requests, the last the queries index put |
| AppConfigSeed.Suffix | scripts/appconfig/appconfig.py:60-68 | `AzureUSGovernment` gives `azconfig.azure.us`, `AzureChinaCloud` gives `azconfig.cn`, any other cloud `azconfig.io` |
| AppConfigSeed.Endpoint | scripts/appconfig/appconfig.py:70 | the endpoint is `https://`, the store name, a dot and the suffix, each readable back |
| AppConfigSeed.EndpointInjective | scripts/appconfig/appconfig.py:70 | within one cloud, store names with the same endpoint are the same name |
| AppConfigSeed.Settings | scripts/appconfig/appconfig.py:54-57 | the writes exist iff `appConfigKVs.value` exists and is a dict, and are then its members; a missing output exits |
| AppConfigSeed.Seed | scripts/appconfig/appconfig.py:37-80 | a missing variable exits before any write; the run completes iff the variables are set and the settings exist, then writing exactly those settings (the count reported) |
| AppConfigSeed.SeedingInvisibleToInfraLookups | scripts/appconfig/appconfig.py:77 | the seeded settings never change what `infra`-labelled `cfg` lookups see |
| SeedConfig.Upper | scripts/appconfig/seedconfig.py:57 | upper-casing keeps the length, replaces each lower-case letter by its capital (code point 32 lower) and changes nothing else |
| SeedConfig.UpperFixes | scripts/appconfig/seedconfig.py:57 | an upper-cased name has no lower-case letter, and a name is unchanged iff it has none |
| SeedConfig.UpperIdempotent | scripts/appconfig/seedconfig.py:57 | upper-casing twice is upper-casing once |
| SeedConfig.Insert | scripts/appconfig/seedconfig.py:57 | dict assignment keeps an existing key in place and appends a new key last |
| SeedConfig.InsertGet | scripts/appconfig/seedconfig.py:57 | after `d[key] = v`, `d.get(key)` is `v` and every other lookup is unchanged |
| SeedConfig.InsertUnique | scripts/appconfig/seedconfig.py:57 | assignment keeps the keys distinct |
| SeedConfig.Normalise | scripts/appconfig/seedconfig.py:57 | the comprehension's keys are distinct |
| SeedConfig.NormaliseLookup | scripts/appconfig/seedconfig.py:57 | a name's value is that of the last output whose upper-cased name it is; inner values are untouched |
| SeedConfig.NormaliseFinds | scripts/appconfig/seedconfig.py:57 | every output is found under its upper-cased name |
| SeedConfig.NormaliseIdentity | scripts/appconfig/seedconfig.py:57 | outputs with distinct upper-case names pass through unchanged |
| SeedConfig.Upload | scripts/appconfig/seedconfig.py:62-92 | a missing PROVISION_CONFIG exits with no writes; PROVISION_CONFIG is written first as its JSON dump; a missing APP_SETTINGS exits after exactly that write; completion writes then each app setting as `str()` |
| SeedConfig.Normalised | scripts/appconfig/seedconfig.py:54-57 | the normalised outputs are a dict with distinct names |
| SeedConfig.Seed | scripts/appconfig/seedconfig.py:35-92 | a missing variable exits before any write; otherwise the upload runs on the outputs looked up after upper-casing |
| SeedConfig.ProvisionConfigStored | scripts/appconfig/seedconfig.py:69-74 | after a completed upload the store holds PROVISION_CONFIG as the JSON dump, unless an app setting of that name overwrote it |
| SeedConfig.LastWithFinds | scripts/appconfig/seedconfig.py:57 | the last-wins reading finds a value exactly when some output upper-cases to the name |
| SeedConfig.LastWithIsLast | scripts/appconfig/seedconfig.py:57 | the value it finds is that of the last output that upper-cases to the name |
| SeedConfig.OutputsMatchedIgnoringCase | scripts/appconfig/seedconfig.py:57-64 | a name in any letter case is found iff some output's name upper-cases to the same text, and the value found is that of the last such output |
| CreateConnections.LoadConfig | scripts/aifoundry/create_connections.py:36-37 | the document loads iff PROVISION_CONFIG is stored and parses, and is the parsed value; otherwise the fetch or the parse raises |
| CreateConnections.PrimaryKey | scripts/aifoundry/create_connections.py:49-52 | the key is found iff the service exists and has a subscription with that id, and is that subscription's primary key |
| CreateConnections.ReadGateway | scripts/aifoundry/create_connections.py:40-52 | steps 3-5 succeed iff the five members are present and the subscription key is found; they yield those values |
| CreateConnections.OpenAI | scripts/aifoundry/create_connections.py:58-68 | the OpenAI connection is built iff its three members exist: the gateway endpoint, the primary key, the `AZURE_AOAI_RESOURCE_GROUP` account id, not shared |
| CreateConnections.AIServices | scripts/aifoundry/create_connections.py:72-82 | the AI Services connection is built iff its three members exist: `https://` + endpoint, no credential, an account id in `AZURE_RESOURCE_GROUP`, not shared |
| CreateConnections.AISearch | scripts/aifoundry/create_connections.py:86-91 | the AI Search connection is built iff its two members exist: the endpoint as stored, no key, not shared |
| CreateConnections.Stages | scripts/aifoundry/create_connections.py:58-92 | each connection is created before the next one's members are read; the run completes iff all three build, creating them in order |
| CreateConnections.Connect | scripts/aifoundry/create_connections.py:40-92 | a failing lookup in steps 3-5 creates nothing; otherwise the three stages run |
| CreateConnections.CreateAll | scripts/aifoundry/create_connections.py:23-92 | without AZURE_APP_CONFIG_ENDPOINT, or when the document cannot be fetched or parsed, nothing is created and the run exits for that reason; otherwise the run is steps 3 to 8 on the parsed document |
| CreateConnections.OpenAIThroughGateway | scripts/aifoundry/create_connections.py:45-68 | the first connection is OpenAI at the named service's gateway, with the primary key of the named subscription of that service |
| CreateConnections.IdentityAfterGateway | scripts/aifoundry/create_connections.py:58-92 | the stages create at most three connections: OpenAI first and only first, the rest without credentials, none shared |
| CreateConnections.ConnectionsOfARun | scripts/aifoundry/create_connections.py:58-92 | every run's connections have that shape |
| CreateConnections.StopsAfterCreated | scripts/aifoundry/create_connections.py:69-74 | a missing AI Services endpoint stops the run after the OpenAI connection was created |
| CreateConnections.SeededConfigReachesConnections | scripts/aifoundry/create_connections.py:36-37 | the document the seeding script uploads is the one this script loads, given a decoder that reads back `json.dumps` |
| RaiPolicies.Scope | scripts/rai/raipolicies.py:46-52 | the scope is `/subscriptions/{sub_id}/resourceGroups/{rg}/providers/Microsoft.CognitiveServices/accounts/{ai_service}/deployments/{chat_dep}`, each value readable back at its offset |
| RaiPolicies.ScopeInjective | scripts/rai/raipolicies.py:46-52 | with resource group, account and deployment names free of `/`, equal scopes name the same subscription, group, account and deployment |
| RaiPolicies.DefinitionId | scripts/rai/raipolicies.py:59-63 | the definition id is `/subscriptions/{sub_id}/providers/Microsoft.Authorization/policyDefinitions/{policy}`, each value readable back at its offset |
| RaiPolicies.DefinitionIdInjective | scripts/rai/raipolicies.py:59-63 | with policy names free of `/`, equal definition ids name the same subscription and policy |
| RaiPolicies.AssignmentName | scripts/rai/raipolicies.py:58 | the assignment name is the policy name followed by `-assignment`, so the policy can be read back from it |
| RaiPolicies.AssignAll | scripts/rai/raipolicies.py:37-70 | a missing variable exits with no assignment; otherwise exactly two assignments, MainRAIpolicy then MainBlockListPolicy, each at the deployment scope with its name and definition |
| RaiPolicies.AssignmentsDistinct | scripts/rai/raipolicies.py:57-70 | the two assignments share the scope and differ in name and definition |
| RaiPolicies.AssignmentNameInjective | scripts/rai/raipolicies.py:58 | an assignment name determines its policy |

## Error handling as written

- A 404 answer to the delete that precedes an index or skillset put ends the
  search run: `raise_for_status` raises, and the handler exits with status 1.
- A broken category rule in the connection loop exits the whole process, not
  only the handling of that resource.
- Any search request answered with a status from 400 to 599 ends the run; no
  failure is logged and skipped.

## Left out

- scripts/appconfig/loadconfig.py is not part of this model. It runs `azd env
  set` once per key and has no logic beyond a success count.
- Credential construction and token acquisition (`ChainedTokenCredential`,
  `DefaultAzureCredential`) are not modelled: they are an opaque provider.
- SDK clients and `requests` are not modelled. They become maps, oracles and
  call traces.
- Failures of remote writes (`create_or_update`, `set_configuration_setting`,
  policy `create`) are not modelled. In the model every write succeeds.
- Network exceptions from `requests` are folded into statuses from 400 to 599
  of the responder. A transport error and an HTTP error therefore end the run the same
  way, with status 1.
- What a search service does on a status of 600 or more is not modelled. The
  script carries on after one, and the model takes the request to have had its
  effect.
- The App Configuration client's endpoint (`AppConfigSeed.Endpoint`) is not
  part of the outcome of `AppConfigSeed.Seed`: the model writes to the one store
  it is given, and `Endpoint` states only how the script addresses that store.
- `get_container_fqdn` and Key Vault `get_secret` are taken as inputs: an
  optional host name, and a map of secrets.
- Sleeps, logging and `load_dotenv` are not modelled: they have no checkable
  behaviour.
- JSON is modelled with integer numbers only. Floats are not modelled.
- `json.dumps` and `repr()` do not escape characters inside strings.
- `json.loads` and `int()` are parser functions passed in. Their text formats
  are not modelled.
- `\w` is ASCII letters, digits and underscore, and `str.upper()` maps only
  ASCII letters. Non-ASCII word characters and case mappings are not modelled.
- Reading `config/aifoundry/connections.json` is not modelled. Its entries are
  the input of `FoundrySetup.Register`.
- The `MLClient` and API Management client construction in the connection
  scripts is not modelled.
- Entries of connections.json hold `use_apim` and `is_shared` as booleans and
  the optional members as strings. The script tests them with Python
  truthiness on whatever JSON value the file holds; other JSON values there
  are not modelled.
- An entry missing `name` or `category` in connections.json is not modelled:
  each entry always has both. The script fails with a KeyError there.
- FoundrySetup.Setup has no contract of its own. Its behaviour is stated by
  `FoundrySetup.SetupPreconditions` together with the lemmas about `Register`.
- SeedConfig.Seed looks up APP_SETTINGS eagerly, in a pure function. The order
  of writes and exits is the script's.
- CreateConnections.CreateAll takes `str()` of each document member where the
  script passes the raw value to an f-string or a constructor. For string
  members, which the document holds, the two agree.
- SearchSetup.ReadSettings does not re-read AZURE_APIM_GATEWAY_URL and the
  embedding variables inside `create_embedding_skillset`. It reads them once,
  which gives the same values.

=== FILE: appconfig.dfy ===
/** scripts/appconfig/appconfig.py: copy the `appConfigKVs` output of an ARM
    deployment into Azure App Configuration, one setting per member, each
    written under the null label with the member's `str()` as its value. */
module AppConfigSeed {
  import opened Common
  import opened JsonModel
  import opened ConfigStore

  const RequiredVars: seq<string> := [
    "AZURE_CLOUD", "AZURE_SUBSCRIPTION_ID", "AZURE_RESOURCE_GROUP", "AZURE_DEPLOYMENT_NAME",
    "AZURE_APP_CONFIG_NAME"]

  /** The App Configuration DNS suffix of each Azure cloud; any other cloud name means the public cloud. */
  function Suffix(cloud: string): (suffix: string)
    ensures cloud == "AzureUSGovernment" ==> suffix == "azconfig.azure.us"
    ensures cloud == "AzureChinaCloud" ==> suffix == "azconfig.cn"
    ensures cloud != "AzureUSGovernment" && cloud != "AzureChinaCloud" ==> suffix == "azconfig.io"
  {
    if cloud == "AzureUSGovernment" then "azconfig.azure.us"
    else if cloud == "AzureChinaCloud" then "azconfig.cn"
    else "azconfig.io"
  }

  /** `https://{name}.{suffix}`: the store name and the cloud's suffix can be read back from it. */
  function Endpoint(name: string, cloud: string): (url: string)
    ensures |url| == 9 + |name| + |Suffix(cloud)|
    ensures url[..8] == "https://"
    ensures url[8..8 + |name|] == name && url[8 + |name|] == '.'
    ensures url[9 + |name|..] == Suffix(cloud)
  {
    "https://" + name + "." + Suffix(cloud)
  }

  /** Within one cloud, the endpoint determines the store name. */
  lemma EndpointInjective(a: string, b: string, cloud: string)
    requires Endpoint(a, cloud) == Endpoint(b, cloud)
    ensures a == b
  {
    assert |a| == |b|;
    assert a == Endpoint(a, cloud)[8..8 + |a|];
  }

  /** The settings to write: the members of the `appConfigKVs` output's value,
      which must be a dict (anything else fails at `items()`). */
  function Settings(outputs: Json): (r: Result<seq<Setting>>)
    ensures r.Ok? <==> OutputValue(outputs, "appConfigKVs").Ok? && OutputValue(outputs, "appConfigKVs").value.JObject?
    ensures r.Ok? ==> r.value == Writes(OutputValue(outputs, "appConfigKVs").value.members)
    ensures OutputValue(outputs, "appConfigKVs").Exit? ==> r == Exit(OutputValue(outputs, "appConfigKVs").reason)
  {
    var kvs :- OutputValue(outputs, "appConfigKVs");
    if !kvs.JObject? then Exit(TypeError("items")) else Ok(Writes(kvs.members))
  }

  /** `main`: the environment check, the outputs check, then the writes. The
      number of entries it reports is the number of writes. */
  function Seed(env: Env, outputs: Json): (o: Outcome<Setting>)
    ensures !(forall v :: v in RequiredVars ==> IsSet(env, v)) ==>
              o == Outcome([], Exited(MissingEnv(Missing(RequiredVars, env))))
    ensures o.status.Completed? <==> (forall v :: v in RequiredVars ==> IsSet(env, v)) && Settings(outputs).Ok?
    ensures o.status.Completed? ==> o.calls == Settings(outputs).value
    ensures o.status.Exited? ==> o.calls == []
  {
    match CheckEnv(RequiredVars, env)
    case Exit(reason) => Outcome([], Exited(reason))
    case Ok(_) =>
      match Settings(outputs)
      case Exit(reason) => Outcome([], Exited(reason))
      case Ok(ws) => Outcome(ws, Completed)
  }

  /** The seeded settings carry no label, so the `infra`-labelled lookups of the
      connection setup never see them. */
  lemma SeedingInvisibleToInfraLookups(store: Store, env: Env, outputs: Json, key: string, required: bool)
    ensures Cfg(ApplyWrites(store, Seed(env, outputs).calls), key, Infra, required) == Cfg(store, key, Infra, required)
  {
    UnlabelledWritesInvisible(store, Seed(env, outputs).calls, key, required);
  }
}

=== FILE: arm_ids.dfy ===
/** Azure Resource Manager ids as the scripts compose them with f-strings: a
    subscription id, a resource group beneath it, and provider resources
    beneath those. Each id is its parent's id followed by literal segments and
    one value, and the value can be read back at the end. */
module ArmIds {
  import opened Common

  /** `/subscriptions/{subscription}`. */
  function SubscriptionId(subscription: string): (id: string)
    ensures |id| == |subscription| + 15
    ensures id[..15] == "/subscriptions/" && id[15..] == subscription
  {
    "/subscriptions/" + subscription
  }

  /** `/subscriptions/{subscription}/resourceGroups/{group}`. */
  function ResourceGroupId(subscription: string, group: string): (id: string)
    ensures var p := SubscriptionId(subscription);
            && |id| == |p| + 16 + |group|
            && id[..|p|] == p && id[|p|..|p| + 16] == "/resourceGroups/" && id[|p| + 16..] == group
  {
    SubscriptionId(subscription) + "/resourceGroups/" + group
  }

  /** Two ids that each end in a `/` followed by a value free of `/` split there
      alike: the parts before and the values are equal. */
  lemma PeelLast(p: string, x: string, q: string, y: string)
    requires Avoids(x, '/') && Avoids(y, '/')
    requires p != [] && p[|p| - 1] == '/' && q != [] && q[|q| - 1] == '/'
    requires p + x == q + y
    ensures p == q && x == y
  {
    var u := p + x;
    assert forall k :: |p| <= k < |u| ==> u[k] == x[k - |p|];
    assert forall k :: |q| <= k < |u| ==> u[k] == y[k - |q|];
    assert u[|p| - 1] == '/' && u[|q| - 1] == '/';
    assert |p| == |q|;
    assert p == u[..|p|] && q == u[..|q|];
  }

  /** Equal ids with a common literal tail have equal heads. */
  lemma HeadBefore(a: string, b: string, t: string)
    requires a + t == b + t
    ensures a == b
  {
    assert |a| == |b|;
    assert a == (a + t)[..|a|] && b == (b + t)[..|b|];
  }

  /** A subscription id names one subscription. */
  lemma SubscriptionIdInjective(sub: string, sub': string)
    requires SubscriptionId(sub) == SubscriptionId(sub')
    ensures sub == sub'
  {
    assert sub == SubscriptionId(sub)[15..];
  }

  /** With group names free of `/`, a resource group id names one group of one subscription. */
  lemma ResourceGroupIdInjective(sub: string, group: string, sub': string, group': string)
    requires Avoids(group, '/') && Avoids(group', '/')
    requires ResourceGroupId(sub, group) == ResourceGroupId(sub', group')
    ensures sub == sub' && group == group'
  {
    var p, p' := SubscriptionId(sub) + "/resourceGroups/", SubscriptionId(sub') + "/resourceGroups/";
    PeelLast(p, group, p', group');
    HeadBefore(SubscriptionId(sub), SubscriptionId(sub'), "/resourceGroups/");
    SubscriptionIdInjective(sub, sub');
  }

  /** The ARM id of a Cognitive Services (AI Services or Azure OpenAI) account:
      beneath the resource group, the account, whose name can be read back at the end. */
  function AccountId(subscription: string, resourceGroup: string, account: string): (id: string)
    ensures var g := ResourceGroupId(subscription, resourceGroup);
            && |id| == |g| + 48 + |account|
            && id[..|g|] == g
            && id[|g|..|g| + 11] == "/providers/" && id[|g| + 11..|g| + 38] == "Microsoft.CognitiveServices"
            && id[|g| + 38..|g| + 48] == "/accounts/" && id[|g| + 48..] == account
  {
    ResourceGroupId(subscription, resourceGroup) + "/providers/" + "Microsoft.CognitiveServices" + "/accounts/" + account
  }

  /** With group and account names free of `/`, equal account ids name the same
      subscription, resource group and account. */
  lemma AccountIdInjective(sub: string, rg: string, acct: string, sub': string, rg': string, acct': string)
    requires Avoids(rg, '/') && Avoids(acct, '/') && Avoids(rg', '/') && Avoids(acct', '/')
    requires AccountId(sub, rg, acct) == AccountId(sub', rg', acct')
    ensures sub == sub' && rg == rg' && acct == acct'
  {
    var g, g' := ResourceGroupId(sub, rg), ResourceGroupId(sub', rg');
    PeelLast(g + "/providers/" + "Microsoft.CognitiveServices" + "/accounts/", acct,
             g' + "/providers/" + "Microsoft.CognitiveServices" + "/accounts/", acct');
    HeadBefore(g + "/providers/" + "Microsoft.CognitiveServices",
               g' + "/providers/" + "Microsoft.CognitiveServices", "/accounts/");
    HeadBefore(g + "/providers/", g' + "/providers/", "Microsoft.CognitiveServices");
    HeadBefore(g, g', "/providers/");
    ResourceGroupIdInjective(sub, rg, sub', rg');
  }
}

=== FILE: common.dfy ===
/** Vocabulary shared by every provisioning script: optional values, the
    reasons a script stops with exit status 1, a failure-compatible result,
    the trace of remote calls a run issues, and environment-variable checks. */
module Common {

  datatype Option<+T> = None | Some(value: T) {
    function GetOr(default: T): T {
      match this
      case Some(v) => v
      case None => default
    }
  }

  /** Why a script stopped. Every reason ends the process with status 1,
      whether the script calls `sys.exit(1)` or an exception escapes `main`. */
  datatype Reason =
    | MissingEnv(names: seq<string>)            // required environment variables unset or empty
    | ConfigUnavailable(key: string)            // the configuration store fetch raised
    | ConfigEmpty(key: string)                  // a required configuration value is empty
    | InvalidJson(key: string)                  // a stored value does not parse as JSON
    | MissingAttribute(key: string, attribute: string)
    | MissingOutput(name: string)               // a deployment output or its `value` is absent
    | MissingField(field: string)               // a dictionary lookup raised KeyError
    | TypeError(detail: string)                 // an operation on a JSON value of the wrong kind
    | SubscriptionNotFound(displayName: string, available: seq<string>)
    | ServiceNotFound(name: string)             // a management-API lookup raised
    | Invalid(connection: string, category: string)  // a category rule was violated
    | NoFqdn(container: string)                 // the ingest container has no host name
    | SecretNotFound(name: string)
    | HttpError(status: int)                    // a search REST call answered with a 4xx or 5xx status
    | NotAnInteger(text: string)                // `int(text)` raised ValueError
    | NoSuchSubscription(name: string)          // `list_secrets` on an unknown API Management subscription

  /** The value a step computes, or the reason the process exits. */
  datatype Result<+T> = Ok(value: T) | Exit(reason: Reason) {
    predicate IsFailure() {
      Exit?
    }

    function PropagateFailure<U>(): Result<U>
      requires Exit?
    {
      Exit(reason)
    }

    function Extract(): T
      requires Ok?
    {
      value
    }
  }

  /** How a run ended. */
  datatype Status = Completed | Exited(reason: Reason)

  /** The remote writes a run issued, in order, and how it ended. */
  datatype Outcome<+C> = Outcome(calls: seq<C>, status: Status)

  /** The process exit status: 0 after a completed run, 1 after any exit. */
  function ExitCode(s: Status): (code: int)
    ensures code == 0 <==> s.Completed?
    ensures code == 0 || code == 1
  {
    match s
    case Completed => 0
    case Exited(_) => 1
  }

  /** Prepends the calls issued before a step to the outcome of the rest of the run. */
  function Then<C>(first: seq<C>, rest: Outcome<C>): (o: Outcome<C>)
    ensures o.calls == first + rest.calls && o.status == rest.status
  {
    Outcome(first + rest.calls, rest.status)
  }

  // ---------------------------------------------------------------- environment

  type Env = map<string, string>

  /** `os.environ.get(name)` is truthy: the variable exists and is not empty. */
  predicate IsSet(env: Env, name: string) {
    name in env && env[name] != ""
  }

  /** `os.environ.get(name, default)`: a present variable wins even when empty. */
  function EnvGet(env: Env, name: string, default: string): (v: string)
    ensures name !in env ==> v == default
    ensures name in env ==> v == env[name]
  {
    if name in env then env[name] else default
  }

  /** The required variables that are unset or empty, in the order they are listed. */
  function Missing(required: seq<string>, env: Env): (missing: seq<string>)
    ensures forall v :: v in missing <==> v in required && !IsSet(env, v)
    ensures |missing| <= |required|
  {
    if required == [] then []
    else (if IsSet(env, required[0]) then [] else [required[0]]) + Missing(required[1..], env)
  }

  /** The `check_env_vars` step: exit listing the missing names, or continue. */
  function CheckEnv(required: seq<string>, env: Env): (r: Result<()>)
    ensures r.Ok? <==> forall v :: v in required ==> IsSet(env, v)
    ensures r.Exit? ==> r.reason == MissingEnv(Missing(required, env)) && |r.reason.names| > 0
  {
    var missing := Missing(required, env);
    if missing == [] then Ok(())
    else
      assert missing[0] in missing;
      Exit(MissingEnv(missing))
  }

  // ---------------------------------------------------------------- splitting text

  /** `s` does not contain the character `c`. */
  predicate Avoids(s: string, c: char) {
    forall i :: 0 <= i < |s| ==> s[i] != c
  }

  /** Two segments free of `c` that both start at offset `o` of `s` and are
      both followed there by a `c` are the same segment. */
  lemma SegmentAt(s: string, o: nat, c: char, x: string, y: string)
    requires Avoids(x, c) && Avoids(y, c)
    requires o + |x| < |s| && s[o..o + |x|] == x && s[o + |x|] == c
    requires o + |y| < |s| && s[o..o + |y|] == y && s[o + |y|] == c
    ensures x == y
  {
    AvoidsAt(s, o, c, x);
    AvoidsAt(s, o, c, y);
    assert |x| == |y|;
  }

  /** A segment free of `c` at offset `o` puts no `c` in the positions it covers. */
  lemma AvoidsAt(s: string, o: nat, c: char, x: string)
    requires Avoids(x, c) && o + |x| <= |s| && s[o..o + |x|] == x
    ensures forall k :: o <= k < o + |x| ==> s[k] != c
  {
    assert forall k :: o <= k < o + |x| ==> s[k] == x[k - o];
  }
}

=== FILE: config_store.dfy ===
/** The remote key-value configuration store (Azure App Configuration) as a
    map from (key, label) to value, the `cfg` lookup of
    config/aifoundry/aifoundry_setup.py, and the effect of a sequence of
    `set_configuration_setting` writes. */
module ConfigStore {
  import opened Common
  import opened JsonModel

  /** A setting's label; None is the null label a write without `label=` gets. */
  type Label = Option<string>

  type Store = map<(string, Label), string>

  /** The label every lookup of the connection-setup script uses. */
  const Infra: Label := Some("infra")

  /** One `set_configuration_setting` call. */
  datatype Setting = Setting(key: string, lbl: Label, value: string) {
    function Slot(): (string, Label) {
      (key, lbl)
    }
  }

  /** `cfg(app_conf, key, lbl, required)`: a failed fetch (the key is absent
      under that label) exits when required and yields "" otherwise; an empty
      value exits when required; otherwise the stored value is returned. */
  function Cfg(store: Store, key: string, lbl: Label, required: bool): (r: Result<string>)
    ensures !required ==> r.Ok?
    ensures required ==> (r.Ok? <==> (key, lbl) in store && store[(key, lbl)] != "")
    ensures r.Ok? && (key, lbl) in store ==> r.value == store[(key, lbl)]
    ensures r.Ok? && (key, lbl) !in store ==> r.value == ""
    ensures required && r.Ok? ==> r.value != ""
    ensures r.Exit? ==> r.reason == (if (key, lbl) in store then ConfigEmpty(key) else ConfigUnavailable(key))
  {
    if (key, lbl) !in store then
      if required then Exit(ConfigUnavailable(key)) else Ok("")
    else if required && store[(key, lbl)] == "" then Exit(ConfigEmpty(key))
    else Ok(store[(key, lbl)])
  }

  /** The store after the writes, applied in order. */
  function ApplyWrites(store: Store, writes: seq<Setting>): Store
    decreases |writes|
  {
    if writes == [] then store
    else
      var w := writes[|writes| - 1];
      ApplyWrites(store, writes[..|writes| - 1])[w.Slot() := w.value]
  }

  /** A write that no later write overwrites is what the store holds afterwards. */
  lemma {:induction false} LastWriteWins(store: Store, writes: seq<Setting>, i: nat)
    requires i < |writes|
    requires forall j :: i < j < |writes| ==> writes[j].Slot() != writes[i].Slot()
    ensures writes[i].Slot() in ApplyWrites(store, writes)
    ensures ApplyWrites(store, writes)[writes[i].Slot()] == writes[i].value
    decreases |writes|
  {
    if i < |writes| - 1 {
      var prefix := writes[..|writes| - 1];
      LastWriteWins(store, prefix, i);
    }
  }

  /** A slot no write touches keeps its previous contents. */
  lemma {:induction false} UntouchedSlot(store: Store, writes: seq<Setting>, slot: (string, Label))
    requires forall j :: 0 <= j < |writes| ==> writes[j].Slot() != slot
    ensures slot in ApplyWrites(store, writes) <==> slot in store
    ensures slot in store ==> ApplyWrites(store, writes)[slot] == store[slot]
    decreases |writes|
  {
    if writes != [] {
      UntouchedSlot(store, writes[..|writes| - 1], slot);
    }
  }

  /** One `set_configuration_setting(key=k, value=str(v))` per member of a
      dict, in order, under the null label. */
  function Writes(kvs: seq<(string, Json)>): (ws: seq<Setting>)
    ensures |ws| == |kvs|
    ensures forall i :: 0 <= i < |kvs| ==> ws[i].key == kvs[i].0 && ws[i].lbl.None?
    ensures forall i :: 0 <= i < |kvs| ==> ws[i].value == Str(kvs[i].1)
  {
    seq(|kvs|, i requires 0 <= i < |kvs| => Setting(kvs[i].0, None, Str(kvs[i].1)))
  }

  /** After the writes, each member is in the store under the null label with
      its `str()`, provided no later member repeats its key. */
  lemma SeededValues(store: Store, kvs: seq<(string, Json)>, i: nat)
    requires i < |kvs| && forall j :: i < j < |kvs| ==> kvs[j].0 != kvs[i].0
    ensures (kvs[i].0, None) in ApplyWrites(store, Writes(kvs))
    ensures ApplyWrites(store, Writes(kvs))[(kvs[i].0, None)] == Str(kvs[i].1)
  {
    LastWriteWins(store, Writes(kvs), i);
  }

  /** Writes under the null label never change what a labelled `Cfg` lookup sees. */
  lemma UnlabelledWritesInvisible(store: Store, writes: seq<Setting>, key: string, required: bool)
    requires forall j :: 0 <= j < |writes| ==> writes[j].lbl.None?
    ensures Cfg(ApplyWrites(store, writes), key, Infra, required) == Cfg(store, key, Infra, required)
  {
    UntouchedSlot(store, writes, (key, Infra));
  }
}

=== FILE: connections.dfy ===
/** The entities both connection scripts hand to the AI Foundry project's
    `connections.create_or_update`, and the API Management service they take
    gateway keys from. */
module Connections {
  import opened Common
  import opened JsonModel

  /** `ApiKeyConfiguration(key=...)`. */
  datatype Credential = ApiKey(key: string)

  /** One connection entity, with the arguments the scripts pass to its constructor.
      An AI Search connection registered by identity uses its resource id as the
      endpoint, and that id may be any JSON value, hence its `Json` endpoint. */
  datatype Connection =
    | AzureOpenAIConnection(name: string, endpoint: string, credentials: Option<Credential>,
                            apiVersion: Option<string>, resourceId: Option<Json>, isShared: bool)
    | ServerlessConnection(name: string, endpoint: string, apiKey: string)
    | AIServicesConnection(name: string, endpoint: string, credentials: Option<Credential>,
                           resourceId: Option<Json>, isShared: bool)
    | AISearchConnection(name: string, searchEndpoint: Json, credentials: Option<Credential>, isShared: bool)

  /** An API Management subscription and the primary key `list_secrets` returns for it. */
  datatype Subscription = Subscription(name: string, displayName: string, primaryKey: string)

  /** `subscription.list(resource_group, service)`: the subscriptions of each
      existing API Management service, keyed by (resource group, service name). */
  type Apim = map<(string, string), seq<Subscription>>

  /** The default gateway host of an API Management service. */
  function GatewayHost(service: string): (url: string)
    ensures |url| == |service| + 22
    ensures url[..8] == "https://"
    ensures url[|url| - 14..] == ".azure-api.net"
    ensures url[8..|url| - 14] == service
  {
    "https://" + service + ".azure-api.net"
  }
}

=== FILE: create_connections.dfy ===
/** scripts/aifoundry/create_connections.py: read the PROVISION_CONFIG document
    from the configuration store, take the primary key of an API Management
    subscription, and register three connections with the AI Foundry project:
    Azure OpenAI through the gateway, AI Services and AI Search. */
module CreateConnections {
  import opened Common
  import opened JsonModel
  import opened ConfigStore
  import opened Template
  import opened Connections
  import opened ArmIds
  import SeedConfig

  const EndpointVar := "AZURE_APP_CONFIG_ENDPOINT"

  /** The key the whole document is stored under, with the null label. */
  const ConfigKey := "PROVISION_CONFIG"

  /** `get_configuration_setting(key="PROVISION_CONFIG")` then `json.loads`:
      a missing setting raises, and so does a value that is not JSON. */
  function LoadConfig(store: Store, parse: Parser): (r: Result<Json>)
    ensures (ConfigKey, None) !in store ==> r == Exit(ConfigUnavailable(ConfigKey))
    ensures r.Ok? <==> (ConfigKey, None) in store && parse(store[(ConfigKey, None)]).Some?
    ensures r.Ok? ==> Some(r.value) == parse(store[(ConfigKey, None)])
    ensures (ConfigKey, None) in store && r.Exit? ==> r.reason == InvalidJson(ConfigKey)
  {
    if (ConfigKey, None) !in store then Exit(ConfigUnavailable(ConfigKey))
    else match parse(store[(ConfigKey, None)])
      case None => Exit(InvalidJson(ConfigKey))
      case Some(cfg) => Ok(cfg)
  }

  /** The position of the API Management subscription with the given id. */
  function FindSubscription(subs: seq<Subscription>, name: string): (r: Option<nat>)
    ensures r.Some? ==> r.value < |subs| && subs[r.value].name == name
    ensures r.None? <==> forall j :: 0 <= j < |subs| ==> subs[j].name != name
    decreases |subs|
  {
    if subs == [] then None
    else if subs[0].name == name then Some(0)
    else
      match FindSubscription(subs[1..], name)
      case Some(i) => Some(i + 1)
      case None => None
  }

  /** `subscription.list_secrets(resource_group, service, name).primary_key`:
      raises for an unknown service or an unknown subscription. */
  function PrimaryKey(apim: Apim, resourceGroup: string, service: string, name: string): (r: Result<string>)
    ensures (resourceGroup, service) !in apim ==> r == Exit(ServiceNotFound(service))
    ensures r.Ok? <==> (resourceGroup, service) in apim &&
                       exists j :: 0 <= j < |apim[(resourceGroup, service)]| && apim[(resourceGroup, service)][j].name == name
    ensures r.Ok? ==> exists j :: 0 <= j < |apim[(resourceGroup, service)]| &&
                                  apim[(resourceGroup, service)][j] == Subscription(name, apim[(resourceGroup, service)][j].displayName, r.value)
    ensures (resourceGroup, service) in apim && r.Exit? ==> r.reason == NoSuchSubscription(name)
  {
    if (resourceGroup, service) !in apim then Exit(ServiceNotFound(service))
    else
      var subs := apim[(resourceGroup, service)];
      match FindSubscription(subs, name)
      case None => Exit(NoSuchSubscription(name))
      case Some(i) => Ok(subs[i].primaryKey)
  }

  /** What steps 3 to 5 take from the document and the gateway. */
  datatype Gateway = Gateway(subscription: string, resourceGroup: string, service: string, primaryKey: string)

  /** `str()` of a member the document is known to hold. */
  function Text(cfg: Json, key: string): string
    requires Holds(cfg, key)
  {
    Str(Get(cfg.members, key).value)
  }

  /** `cfg[key]` does not raise. */
  predicate Holds(cfg: Json, key: string) {
    cfg.JObject? && key in Keys(cfg.members)
  }

  /** Steps 3 to 5: five lookups in source order, then the subscription key,
      which `list_secrets` finds by the subscription's id. */
  function ReadGateway(cfg: Json, apim: Apim): (r: Result<Gateway>)
    ensures r.Ok? <==> && Holds(cfg, "AZURE_SUBSCRIPTION_ID") && Holds(cfg, "AZURE_RESOURCE_GROUP")
                       && Holds(cfg, "AZURE_AI_FOUNDRY_PROJECT_NAME") && Holds(cfg, "AZURE_APIM_SERVICE_NAME")
                       && Holds(cfg, "AZURE_APIM_OPENAI_SUBSCRIPTION_NAME")
                       && PrimaryKey(apim, Text(cfg, "AZURE_RESOURCE_GROUP"), Text(cfg, "AZURE_APIM_SERVICE_NAME"),
                                     Text(cfg, "AZURE_APIM_OPENAI_SUBSCRIPTION_NAME")).Ok?
    ensures r.Ok? ==> && r.value.subscription == Text(cfg, "AZURE_SUBSCRIPTION_ID")
                      && r.value.resourceGroup == Text(cfg, "AZURE_RESOURCE_GROUP")
                      && r.value.service == Text(cfg, "AZURE_APIM_SERVICE_NAME")
                      && r.value.primaryKey == PrimaryKey(apim, r.value.resourceGroup, r.value.service,
                                                           Text(cfg, "AZURE_APIM_OPENAI_SUBSCRIPTION_NAME")).value
  {
    var sub :- Subscript(cfg, "AZURE_SUBSCRIPTION_ID");
    var rg :- Subscript(cfg, "AZURE_RESOURCE_GROUP");
    var _ :- Subscript(cfg, "AZURE_AI_FOUNDRY_PROJECT_NAME");
    var service :- Subscript(cfg, "AZURE_APIM_SERVICE_NAME");
    var subName :- Subscript(cfg, "AZURE_APIM_OPENAI_SUBSCRIPTION_NAME");
    var key :- PrimaryKey(apim, Str(rg), Str(service), Str(subName));
    Ok(Gateway(Str(sub), Str(rg), Str(service), key))
  }

  // ---------------------------------------------------------------- the three connections

  /** Step 6: Azure OpenAI reached through the gateway with the subscription key. */
  function OpenAI(cfg: Json, g: Gateway): (r: Result<Connection>)
    ensures r.Ok? ==> r.value.AzureOpenAIConnection? && r.value.credentials == Some(ApiKey(g.primaryKey))
                      && !r.value.isShared
    ensures r.Ok? <==> Holds(cfg, "AZURE_AI_FOUNDRY_PROJECT_AOAI_CONN_NAME") && Holds(cfg, "AZURE_AOAI_RESOURCE_GROUP")
                       && Holds(cfg, "AZURE_OPENAI_SERVICE_NAME")
    ensures r.Ok? ==> r.value == AzureOpenAIConnection(
              Text(cfg, "AZURE_AI_FOUNDRY_PROJECT_AOAI_CONN_NAME"), GatewayHost(g.service),
              Some(ApiKey(g.primaryKey)), None,
              Some(JString(AccountId(g.subscription, Text(cfg, "AZURE_AOAI_RESOURCE_GROUP"),
                                     Text(cfg, "AZURE_OPENAI_SERVICE_NAME")))), false)
  {
    var name :- Subscript(cfg, "AZURE_AI_FOUNDRY_PROJECT_AOAI_CONN_NAME");
    var rg :- Subscript(cfg, "AZURE_AOAI_RESOURCE_GROUP");
    var account :- Subscript(cfg, "AZURE_OPENAI_SERVICE_NAME");
    Ok(AzureOpenAIConnection(Str(name), GatewayHost(g.service), Some(ApiKey(g.primaryKey)), None,
                             Some(JString(AccountId(g.subscription, Str(rg), Str(account)))), false))
  }

  /** Step 7: AI Services by identity, in the project's own resource group. */
  function AIServices(cfg: Json, g: Gateway): (r: Result<Connection>)
    ensures r.Ok? ==> r.value.AIServicesConnection? && r.value.credentials.None? && !r.value.isShared
    ensures r.Ok? <==> Holds(cfg, "AZURE_AI_FOUNDRY_PROJECT_AISERVICES_CONN_NAME")
                       && Holds(cfg, "AZURE_AI_SERVICES_ENDPOINT") && Holds(cfg, "AZURE_AI_SERVICES_NAME")
    ensures r.Ok? ==> r.value == AIServicesConnection(
              Text(cfg, "AZURE_AI_FOUNDRY_PROJECT_AISERVICES_CONN_NAME"),
              "https://" + Text(cfg, "AZURE_AI_SERVICES_ENDPOINT"), None,
              Some(JString(AccountId(g.subscription, g.resourceGroup, Text(cfg, "AZURE_AI_SERVICES_NAME")))), false)
  {
    var name :- Subscript(cfg, "AZURE_AI_FOUNDRY_PROJECT_AISERVICES_CONN_NAME");
    var endpoint :- Subscript(cfg, "AZURE_AI_SERVICES_ENDPOINT");
    var account :- Subscript(cfg, "AZURE_AI_SERVICES_NAME");
    Ok(AIServicesConnection(Str(name), "https://" + Str(endpoint), None,
                            Some(JString(AccountId(g.subscription, g.resourceGroup, Str(account)))), false))
  }

  /** Step 8: AI Search by identity; the endpoint is the document's value as it is. */
  function AISearch(cfg: Json): (r: Result<Connection>)
    ensures r.Ok? ==> r.value.AISearchConnection? && r.value.credentials.None? && !r.value.isShared
    ensures r.Ok? <==> Holds(cfg, "AZURE_AI_FOUNDRY_PROJECT_AISEARCH_CONN_NAME") && Holds(cfg, "AZURE_SEARCH_ENDPOINT")
    ensures r.Ok? ==> r.value == AISearchConnection(
              Text(cfg, "AZURE_AI_FOUNDRY_PROJECT_AISEARCH_CONN_NAME"),
              Get(cfg.members, "AZURE_SEARCH_ENDPOINT").value, None, false)
  {
    var name :- Subscript(cfg, "AZURE_AI_FOUNDRY_PROJECT_AISEARCH_CONN_NAME");
    var endpoint :- Subscript(cfg, "AZURE_SEARCH_ENDPOINT");
    Ok(AISearchConnection(Str(name), endpoint, None, false))
  }

  // ---------------------------------------------------------------- the run

  /** Steps 6 to 8 given what each connection's lookups produced. Each
      connection is created before the next one's members are read, so a
      missing member keeps the connections already created. */
  function Stages(a: Result<Connection>, b: Result<Connection>, c: Result<Connection>): (o: Outcome<Connection>)
    ensures a.Exit? ==> o == Outcome([], Exited(a.reason))
    ensures a.Ok? && b.Exit? ==> o == Outcome([a.value], Exited(b.reason))
    ensures a.Ok? && b.Ok? && c.Exit? ==> o == Outcome([a.value, b.value], Exited(c.reason))
    ensures o.status.Completed? <==> a.Ok? && b.Ok? && c.Ok?
    ensures o.status.Completed? ==> o.calls == [a.value, b.value, c.value]
  {
    match a
    case Exit(reason) => Outcome([], Exited(reason))
    case Ok(aoai) =>
      match b
      case Exit(reason) => Outcome([aoai], Exited(reason))
      case Ok(services) =>
        match c
        case Exit(reason) => Outcome([aoai, services], Exited(reason))
        case Ok(search) => Outcome([aoai, services, search], Completed)
  }

  /** Steps 3 to 8 on the parsed document. */
  function Connect(cfg: Json, apim: Apim): (o: Outcome<Connection>)
    ensures ReadGateway(cfg, apim).Exit? ==> o == Outcome([], Exited(ReadGateway(cfg, apim).reason))
    ensures ReadGateway(cfg, apim).Ok? ==>
              var g := ReadGateway(cfg, apim).value;
              o == Stages(OpenAI(cfg, g), AIServices(cfg, g), AISearch(cfg))
  {
    match ReadGateway(cfg, apim)
    case Exit(reason) => Outcome([], Exited(reason))
    case Ok(g) => Stages(OpenAI(cfg, g), AIServices(cfg, g), AISearch(cfg))
  }

  /** `create_connections`: the endpoint check, the document, then the connections. */
  function CreateAll(env: Env, store: Store, parse: Parser, apim: Apim): (o: Outcome<Connection>)
    ensures !IsSet(env, EndpointVar) ==> o == Outcome([], Exited(MissingEnv([EndpointVar])))
    ensures IsSet(env, EndpointVar) && LoadConfig(store, parse).Exit? ==>
              o == Outcome([], Exited(LoadConfig(store, parse).reason))
    ensures IsSet(env, EndpointVar) && LoadConfig(store, parse).Ok? ==>
              o == Connect(LoadConfig(store, parse).value, apim)
  {
    if !IsSet(env, EndpointVar) then Outcome([], Exited(MissingEnv([EndpointVar])))
    else match LoadConfig(store, parse)
      case Exit(reason) => Outcome([], Exited(reason))
      case Ok(cfg) => Connect(cfg, apim)
  }

  // ---------------------------------------------------------------- properties

  /** The OpenAI connection goes to the gateway of the service the document
      names, and carries the primary key of the subscription it names in that
      service's resource group. */
  lemma OpenAIThroughGateway(env: Env, store: Store, parse: Parser, apim: Apim)
    requires CreateAll(env, store, parse, apim).calls != []
    ensures var cfg := LoadConfig(store, parse).value;
            var c := CreateAll(env, store, parse, apim).calls[0];
            var rg := Text(cfg, "AZURE_RESOURCE_GROUP");
            var service := Text(cfg, "AZURE_APIM_SERVICE_NAME");
            && c.AzureOpenAIConnection?
            && c.endpoint == "https://" + service + ".azure-api.net"
            && c.credentials.Some?
            && (rg, service) in apim
            && exists j :: 0 <= j < |apim[(rg, service)]| &&
                 apim[(rg, service)][j].name == Text(cfg, "AZURE_APIM_OPENAI_SUBSCRIPTION_NAME") &&
                 apim[(rg, service)][j].primaryKey == c.credentials.value.key
  {
    var o := CreateAll(env, store, parse, apim);
    var cfg := LoadConfig(store, parse).value;
    assert o == Connect(cfg, apim);
    var g := ReadGateway(cfg, apim).value;
    assert OpenAI(cfg, g) == Ok(o.calls[0]);
  }

  /** At most the three connections: the gateway one first, then only ones
      that rely on the project's identity, none of them shared. */
  predicate GatewayThenIdentity(calls: seq<Connection>) {
    && |calls| <= 3
    && (forall i :: 0 <= i < |calls| ==> (calls[i].AzureOpenAIConnection? <==> i == 0))
    && (forall i :: 1 <= i < |calls| ==> !calls[i].ServerlessConnection? && calls[i].credentials.None?)
    && (forall i :: 0 <= i < |calls| ==> !calls[i].ServerlessConnection? && !calls[i].isShared)
  }

  /** Only the OpenAI connection carries a credential; the other two rely on
      the project's identity, and none is shared. */
  lemma IdentityAfterGateway(a: Result<Connection>, b: Result<Connection>, c: Result<Connection>)
    requires a.Ok? ==> a.value.AzureOpenAIConnection? && !a.value.isShared
    requires b.Ok? ==> b.value.AIServicesConnection? && b.value.credentials.None? && !b.value.isShared
    requires c.Ok? ==> c.value.AISearchConnection? && c.value.credentials.None? && !c.value.isShared
    ensures GatewayThenIdentity(Stages(a, b, c).calls)
  {
  }

  /** Every run's connections have that shape. */
  lemma ConnectionsOfARun(cfg: Json, apim: Apim)
    ensures GatewayThenIdentity(Connect(cfg, apim).calls)
  {
    if ReadGateway(cfg, apim).Ok? {
      var g := ReadGateway(cfg, apim).value;
      var a, b, c := OpenAI(cfg, g), AIServices(cfg, g), AISearch(cfg);
      assert Connect(cfg, apim) == Stages(a, b, c);
      IdentityAfterGateway(a, b, c);
    } else {
      assert Connect(cfg, apim).calls == [];
    }
  }

  /** A run that stops after some connections names the member whose lookup
      failed first: the connections created before it stay. */
  lemma StopsAfterCreated(cfg: Json, apim: Apim)
    requires ReadGateway(cfg, apim).Ok? && OpenAI(cfg, ReadGateway(cfg, apim).value).Ok?
    requires Holds(cfg, "AZURE_AI_FOUNDRY_PROJECT_AISERVICES_CONN_NAME") && !Holds(cfg, "AZURE_AI_SERVICES_ENDPOINT")
    ensures Connect(cfg, apim).calls == [OpenAI(cfg, ReadGateway(cfg, apim).value).value]
    ensures Connect(cfg, apim).status == Exited(MissingField("AZURE_AI_SERVICES_ENDPOINT"))
  {
  }

  /** The document seedconfig.py uploads is the one this script loads, provided
      the decoder reads back what `json.dumps` wrote and no app setting is
      itself called PROVISION_CONFIG. */
  lemma SeededConfigReachesConnections(store: Store, parse: Parser, pc: Result<Json>, app: Result<Json>)
    requires SeedConfig.Upload(pc, app).status.Completed?
    requires ConfigKey !in Keys(app.value.members)
    requires parse(Dumps(pc.value)) == Some(pc.value)
    ensures LoadConfig(ApplyWrites(store, SeedConfig.Upload(pc, app).calls), parse) == Ok(pc.value)
  {
    SeedConfig.ProvisionConfigStored(store, pc, app);
  }
}

=== FILE: foundry_setup.dfy ===
/** The connection-registration loop of config/aifoundry/aifoundry_setup.py:
    each declarative entry of connections.json is resolved against the
    configuration store, optionally routed through an API Management gateway,
    validated by its category, and registered with one `create_or_update`. */
module FoundrySetup {
  import opened Common
  import opened JsonModel
  import opened ConfigStore
  import opened Template
  import opened Connections

  /** One entry of connections.json; an absent optional member is None. */
  datatype Entry = Entry(
    name: string,
    category: string,
    useApim: bool,
    target: Option<string>,
    apiPath: Option<string>,
    resourceId: Option<string>,
    isShared: bool,
    apiKey: Option<string>,
    apimServiceName: Option<string>,
    apimSubscriptionDisplayName: Option<string>,
    apiVersion: Option<string>)

  /** What the loop consults: the configuration store, the JSON decoder, the
      API Management service, and two settings read before the loop. */
  datatype Context = Context(store: Store, parse: Parser, apim: Apim,
                             resourceGroup: string, aoaiApiVersion: string)

  /** The fields of an entry once its templates are resolved. */
  datatype Resolved = Resolved(target: string, apiPath: Option<string>,
                               resourceId: Option<Json>, credentials: Option<Credential>)

  /** `cfg_item.get(member)` is truthy. */
  predicate Present(o: Option<string>) {
    o.Some? && o.value != ""
  }

  // ---------------------------------------------------------------- gateway subscription

  /** The position of the first subscription with the given display name. */
  function FirstByDisplayName(subs: seq<Subscription>, wanted: string): (r: Option<nat>)
    ensures r.Some? ==> r.value < |subs| && subs[r.value].displayName == wanted
    ensures r.Some? ==> forall j :: 0 <= j < r.value ==> subs[j].displayName != wanted
    ensures r.None? <==> forall j :: 0 <= j < |subs| ==> subs[j].displayName != wanted
    decreases |subs|
  {
    if subs == [] then None
    else if subs[0].displayName == wanted then Some(0)
    else
      match FirstByDisplayName(subs[1..], wanted)
      case Some(i) => Some(i + 1)
      case None => None
  }

  function DisplayNames(subs: seq<Subscription>): (names: seq<string>)
    ensures |names| == |subs|
    ensures forall i :: 0 <= i < |subs| ==> names[i] == subs[i].displayName
  {
    seq(|subs|, i requires 0 <= i < |subs| => subs[i].displayName)
  }

  /** The gateway subscription: the first one with the requested display name;
      failing that, the only subscription when there is exactly one; otherwise exit. */
  function SelectSubscription(subs: seq<Subscription>, wanted: string): (r: Result<Subscription>)
    ensures forall i :: (0 <= i < |subs| && subs[i].displayName == wanted &&
                         forall j :: 0 <= j < i ==> subs[j].displayName != wanted) ==> r == Ok(subs[i])
    ensures (forall i :: 0 <= i < |subs| ==> subs[i].displayName != wanted) && |subs| == 1 ==> r == Ok(subs[0])
    ensures r.Exit? <==> (forall i :: 0 <= i < |subs| ==> subs[i].displayName != wanted) && |subs| != 1
    ensures r.Exit? ==> r.reason == SubscriptionNotFound(wanted, DisplayNames(subs))
  {
    match FirstByDisplayName(subs, wanted)
    case Some(i) => Ok(subs[i])
    case None =>
      if |subs| == 1 then Ok(subs[0])
      else Exit(SubscriptionNotFound(wanted, DisplayNames(subs)))
  }

  /** Listing the subscriptions of a service that does not exist raises. */
  function ListSubscriptions(apim: Apim, resourceGroup: string, service: string): (r: Result<seq<Subscription>>)
    ensures r.Ok? <==> (resourceGroup, service) in apim
    ensures r.Ok? ==> r.value == apim[(resourceGroup, service)]
  {
    if (resourceGroup, service) in apim then Ok(apim[(resourceGroup, service)])
    else Exit(ServiceNotFound(service))
  }

  // ---------------------------------------------------------------- resolving an entry

  /** Interpolates an optional template when it is present and non-empty. */
  function InterpolateIfPresent(store: Store, o: Option<string>): (r: Result<Option<string>>)
    ensures !Present(o) ==> r == Ok(None)
    ensures Present(o) ==> (r.Ok? <==> Interpolate(store, o.value).Ok?)
    ensures Present(o) && r.Ok? ==> r.value == Some(Interpolate(store, o.value).value) && r.value.value != ""
  {
    if Present(o) then
      var v :- Interpolate(store, o.value);
      Ok(Some(v))
    else Ok(None)
  }

  /** Steps common to every category, in the order the script performs them:
      target, api path, resource id, api-key credential. */
  function ResolveFields(ctx: Context, e: Entry): (r: Result<Resolved>)
    ensures r.Ok? ==> (r.value.credentials.Some? <==> Present(e.apiKey))
    ensures r.Ok? ==> (r.value.resourceId.Some? <==> Present(e.resourceId))
    ensures r.Ok? && Present(e.resourceId) ==> Truthy(r.value.resourceId.value) || DottedPair(e.resourceId.value).Some?
  {
    var target :- Interpolate(ctx.store, e.target.GetOr(""));
    var apiPath :- InterpolateIfPresent(ctx.store, e.apiPath);
    var resourceId :- if Present(e.resourceId) then
                        (var id :- ResolveResourceId(ctx.store, ctx.parse, e.resourceId.value); Ok(Some(id)))
                      else Ok(None);
    var key :- InterpolateIfPresent(ctx.store, e.apiKey);
    Ok(Resolved(target, apiPath, resourceId, if key.Some? then Some(ApiKey(key.value)) else None))
  }

  /** A member the script reads with `cfg_item[member]` raises KeyError when absent. */
  function Required(o: Option<string>, member: string): (r: Result<string>)
    ensures r.Ok? <==> o.Some?
    ensures r.Ok? ==> r.value == o.value
  {
    if o.Some? then Ok(o.value) else Exit(MissingField(member))
  }

  /** Python's f-string rendering of an optional path: None becomes "None". */
  function PathText(p: Option<string>): string {
    if p.Some? then p.value else "None"
  }

  /** With `use_apim`, the target becomes the gateway URL with the api path appended
      and the credential becomes the selected subscription's primary key. */
  function ApplyGateway(ctx: Context, e: Entry, r: Resolved): (g: Result<Resolved>)
    ensures !e.useApim ==> g == Ok(r)
    ensures g.Ok? ==> g.value.apiPath == r.apiPath && g.value.resourceId == r.resourceId
    ensures e.useApim && g.Ok? ==> g.value.credentials.Some?
  {
    if !e.useApim then Ok(r)
    else
      var serviceTemplate :- Required(e.apimServiceName, "apim_service_name");
      var service :- Interpolate(ctx.store, serviceTemplate);
      var wantedTemplate :- Required(e.apimSubscriptionDisplayName, "apim_subscription_display_name");
      var wanted :- Interpolate(ctx.store, wantedTemplate);
      var subs :- ListSubscriptions(ctx.apim, ctx.resourceGroup, service);
      var sub :- SelectSubscription(subs, wanted);
      Ok(r.(target := GatewayHost(service) + "/" + PathText(r.apiPath),
            credentials := Some(ApiKey(sub.primaryKey))))
  }

  // ---------------------------------------------------------------- category rules

  const KnownCategories: set<string> := {"AzureOpenAI", "AIInference", "CognitiveServices", "CognitiveSearch"}

  /** `if not res_id` is false. */
  predicate IdGiven(id: Option<Json>) {
    id.Some? && Truthy(id.value)
  }

  /** A category rule the entry breaks. */
  predicate Violates(category: string, r: Resolved) {
    || (category == "AIInference" && r.credentials.None?)
    || (category == "CognitiveServices" && !IdGiven(r.resourceId))
    || (category == "CognitiveSearch" && r.credentials.None? && !IdGiven(r.resourceId))
  }

  /** The entity for an entry's category: None for an unknown category (skipped),
      an exit for a broken rule. */
  function ToConnection(e: Entry, r: Resolved, aoaiApiVersion: string): (c: Result<Option<Connection>>)
    ensures c == Ok(None) <==> e.category !in KnownCategories
    ensures c.Exit? <==> Violates(e.category, r)
    ensures c.Exit? ==> c.reason == Invalid(e.name, e.category)
    ensures c.Ok? && c.value.Some? ==> c.value.value.name == e.name
    ensures c.Ok? && c.value.Some? && !c.value.value.ServerlessConnection? ==> c.value.value.isShared == e.isShared
    ensures c.Ok? && c.value.Some? && !c.value.value.AISearchConnection? ==> c.value.value.endpoint == r.target
    ensures c.Ok? && c.value.Some? && c.value.value.AISearchConnection? && r.credentials.Some? ==>
              c.value.value.searchEndpoint == JString(r.target)
    ensures c.Ok? && c.value.Some? && c.value.value.AISearchConnection? && r.credentials.None? ==>
              r.resourceId.Some? && c.value.value.searchEndpoint == r.resourceId.value
    ensures c.Ok? && c.value.Some? && !c.value.value.ServerlessConnection? ==> c.value.value.credentials == r.credentials
    ensures c.Ok? && c.value.Some? && c.value.value.ServerlessConnection? ==> Some(ApiKey(c.value.value.apiKey)) == r.credentials
    ensures e.category == "AzureOpenAI" ==>
              (&& c.Ok? && c.value.Some? && c.value.value.AzureOpenAIConnection?
               && c.value.value.apiVersion == Some(e.apiVersion.GetOr(aoaiApiVersion))
               && c.value.value.resourceId == r.resourceId)
  {
    if e.category == "AzureOpenAI" then
      Ok(Some(AzureOpenAIConnection(e.name, r.target, r.credentials, Some(e.apiVersion.GetOr(aoaiApiVersion)),
                                    r.resourceId, e.isShared)))
    else if e.category == "AIInference" then
      if r.credentials.None? then Exit(Invalid(e.name, e.category))
      else Ok(Some(ServerlessConnection(e.name, r.target, r.credentials.value.key)))
    else if e.category == "CognitiveServices" then
      if !IdGiven(r.resourceId) then Exit(Invalid(e.name, e.category))
      else Ok(Some(AIServicesConnection(e.name, r.target, r.credentials, r.resourceId, e.isShared)))
    else if e.category == "CognitiveSearch" then
      if r.credentials.Some? then Ok(Some(AISearchConnection(e.name, JString(r.target), r.credentials, e.isShared)))
      else if !IdGiven(r.resourceId) then Exit(Invalid(e.name, e.category))
      else Ok(Some(AISearchConnection(e.name, r.resourceId.value, None, e.isShared)))
    else Ok(None)
  }

  /** One iteration of the loop: the entity to register, None to skip, or an exit. */
  function BuildEntry(ctx: Context, e: Entry): (b: Result<Option<Connection>>)
    ensures b.Ok? ==> (b.value.None? <==> e.category !in KnownCategories)
  {
    var fields :- ResolveFields(ctx, e);
    var routed :- ApplyGateway(ctx, e, fields);
    ToConnection(e, routed, ctx.aoaiApiVersion)
  }

  /** With `use_apim`, a registered connection points at
      `https://{apim_name}.azure-api.net/{api_path}` and authenticates with the selected
      subscription's primary key, whatever `api_key` the entry names. A missing
      `api_path` renders as the text "None". */
  lemma GatewayOverridesTarget(ctx: Context, e: Entry, c: Connection)
    requires e.useApim && BuildEntry(ctx, e) == Ok(Some(c))
    ensures var fields := ResolveFields(ctx, e).value;
            var service := Interpolate(ctx.store, e.apimServiceName.value).value;
            var wanted := Interpolate(ctx.store, e.apimSubscriptionDisplayName.value).value;
            var sub := SelectSubscription(ctx.apim[(ctx.resourceGroup, service)], wanted).value;
            var gateway := "https://" + service + ".azure-api.net/" + PathText(fields.apiPath);
            && (c.AISearchConnection? ==> c.searchEndpoint == JString(gateway))
            && (!c.AISearchConnection? ==> c.endpoint == gateway)
            && (c.ServerlessConnection? ==> c.apiKey == sub.primaryKey)
            && (!c.ServerlessConnection? ==> c.credentials == Some(ApiKey(sub.primaryKey)))
  {
    var fields := ResolveFields(ctx, e).value;
    var service := Interpolate(ctx.store, e.apimServiceName.value).value;
    assert GatewayHost(service) + "/" + PathText(fields.apiPath)
        == "https://" + service + ".azure-api.net/" + PathText(fields.apiPath);
  }

  /** Through the gateway only the resource-id rule of CognitiveServices can fail:
      the gateway key always supplies a credential. */
  lemma GatewaySuppliesCredential(ctx: Context, e: Entry)
    requires e.useApim && e.category != "CognitiveServices"
    ensures BuildEntry(ctx, e).Exit? ==> !BuildEntry(ctx, e).reason.Invalid?
  {
  }

  /** The category rules on a resolved entry without a gateway. */
  lemma CategoryRules(ctx: Context, e: Entry)
    requires !e.useApim && ResolveFields(ctx, e).Ok?
    ensures var f := ResolveFields(ctx, e).value;
            var b := BuildEntry(ctx, e);
            && (e.category == "AIInference" && !Present(e.apiKey) ==> b == Exit(Invalid(e.name, e.category)))
            && (e.category == "CognitiveServices" && !IdGiven(f.resourceId) ==> b == Exit(Invalid(e.name, e.category)))
            && (e.category == "CognitiveSearch" && Present(e.apiKey) ==>
                  b.Ok? && b.value.Some? && b.value.value.searchEndpoint == JString(f.target))
            && (e.category == "CognitiveSearch" && !Present(e.apiKey) ==>
                  if IdGiven(f.resourceId) then b.Ok? && b.value.Some? && b.value.value.searchEndpoint == f.resourceId.value
                  else b == Exit(Invalid(e.name, e.category)))
            && (e.category == "AzureOpenAI" && e.apiVersion.None? ==>
                  b.Ok? && b.value.Some? && b.value.value.apiVersion == Some(ctx.aoaiApiVersion))
            && (e.category !in KnownCategories ==> b == Ok(None))
  {
  }

  // ---------------------------------------------------------------- the loop

  /** The entries whose category is registered at all, in file order. */
  function KnownOnly(entries: seq<Entry>): (known: seq<Entry>)
    ensures forall e :: e in known <==> e in entries && e.category in KnownCategories
    ensures |known| <= |entries|
  {
    if entries == [] then []
    else (if entries[0].category in KnownCategories then [entries[0]] else []) + KnownOnly(entries[1..])
  }

  /** The loop over connections.json: one `create_or_update` per built entity,
      nothing for a skipped entry, and the first exit ends the process. */
  function Register(ctx: Context, entries: seq<Entry>): Outcome<Connection>
    decreases |entries|
  {
    if entries == [] then Outcome([], Completed)
    else
      var b := BuildEntry(ctx, entries[0]);
      if b.Exit? then Outcome([], Exited(b.reason))
      else if b.value.None? then Register(ctx, entries[1..])
      else Then([b.value.value], Register(ctx, entries[1..]))
  }

  /** The requests are the built entities of the known entries, one each, in order. */
  predicate OnePerKnown(ctx: Context, known: seq<Entry>, calls: seq<Connection>) {
    |calls| == |known| && forall j :: 0 <= j < |calls| ==> BuildEntry(ctx, known[j]) == Ok(Some(calls[j]))
  }

  /** An entry that builds an entity adds its request in front of the rest. */
  lemma OnePerKnownCons(ctx: Context, e: Entry, c: Connection, known: seq<Entry>, calls: seq<Connection>)
    requires BuildEntry(ctx, e) == Ok(Some(c)) && OnePerKnown(ctx, known, calls)
    ensures OnePerKnown(ctx, [e] + known, [c] + calls)
  {
    var k, cs := [e] + known, [c] + calls;
    forall j | 0 <= j < |cs|
      ensures BuildEntry(ctx, k[j]) == Ok(Some(cs[j]))
    {
      if j > 0 {
        assert k[j] == known[j - 1] && cs[j] == calls[j - 1];
      }
    }
  }

  /** When every entry builds, the run completes with exactly one request per entry
      of a known category, in file order. */
  lemma {:induction false} RegisterAll(ctx: Context, entries: seq<Entry>)
    requires forall i :: 0 <= i < |entries| ==> BuildEntry(ctx, entries[i]).Ok?
    ensures Register(ctx, entries).status == Completed
    ensures OnePerKnown(ctx, KnownOnly(entries), Register(ctx, entries).calls)
    decreases |entries|
  {
    if entries != [] {
      RegisterAll(ctx, entries[1..]);
      var b := BuildEntry(ctx, entries[0]);
      assert b.Ok?;
      var tail := Register(ctx, entries[1..]);
      var rest := KnownOnly(entries[1..]);
      if b.value.Some? {
        assert Register(ctx, entries) == Then([b.value.value], tail);
        assert entries[0].category in KnownCategories;
        assert KnownOnly(entries) == [entries[0]] + rest;
        OnePerKnownCons(ctx, entries[0], b.value.value, rest, tail.calls);
      } else {
        assert Register(ctx, entries) == tail;
        assert entries[0].category !in KnownCategories;
        assert KnownOnly(entries) == rest;
      }
    }
  }

  /** An entry that fails ends the whole run: the requests are those of the entries
      before it, and no later entry is registered. */
  lemma {:induction false} RegisterStopsAtFailure(ctx: Context, entries: seq<Entry>, i: nat)
    requires i < |entries| && BuildEntry(ctx, entries[i]).Exit?
    requires forall j :: 0 <= j < i ==> BuildEntry(ctx, entries[j]).Ok?
    ensures Register(ctx, entries[..i]).status == Completed
    ensures Register(ctx, entries) == Outcome(Register(ctx, entries[..i]).calls, Exited(BuildEntry(ctx, entries[i]).reason))
    decreases i
  {
    var bs := Builds(ctx, entries);
    RegisterLoop(ctx, entries);
    RegisterLoop(ctx, entries[..i]);
    assert Builds(ctx, entries[..i]) == bs[..i];
    LoopStops(bs, i);
  }

  /** What each entry builds, in order. */
  function Builds(ctx: Context, entries: seq<Entry>): (bs: seq<Result<Option<Connection>>>)
    ensures |bs| == |entries| && forall j :: 0 <= j < |entries| ==> bs[j] == BuildEntry(ctx, entries[j])
  {
    seq(|entries|, j requires 0 <= j < |entries| => BuildEntry(ctx, entries[j]))
  }

  /** The loop over the entries' build results: each built entity is registered,
      a skip adds nothing, and the first exit ends the run. */
  function Loop(bs: seq<Result<Option<Connection>>>): Outcome<Connection>
    decreases |bs|
  {
    if bs == [] then Outcome([], Completed)
    else if bs[0].Exit? then Outcome([], Exited(bs[0].reason))
    else if bs[0].value.None? then Loop(bs[1..])
    else Then([bs[0].value.value], Loop(bs[1..]))
  }

  /** Registering the entries is running the loop over what they build. */
  lemma {:induction false} RegisterLoop(ctx: Context, entries: seq<Entry>)
    ensures Register(ctx, entries) == Loop(Builds(ctx, entries))
    decreases |entries|
  {
    if entries != [] {
      RegisterLoop(ctx, entries[1..]);
      assert Builds(ctx, entries)[1..] == Builds(ctx, entries[1..]);
    }
  }

  /** The loop stops at the first exit, with the requests of the results before it. */
  lemma {:induction false} LoopStops(bs: seq<Result<Option<Connection>>>, i: nat)
    requires i < |bs| && bs[i].Exit?
    requires forall j :: 0 <= j < i ==> bs[j].Ok?
    ensures Loop(bs[..i]).status == Completed
    ensures Loop(bs) == Outcome(Loop(bs[..i]).calls, Exited(bs[i].reason))
    decreases i
  {
    if i > 0 {
      LoopStops(bs[1..], i - 1);
      assert bs[..i][1..] == bs[1..][..i - 1];
    }
  }

  /** The settings `main` reads before the loop, each required, under label infra. */
  const CoreKeys: seq<string> := [
    "AZURE_SUBSCRIPTION_ID", "AZURE_RESOURCE_GROUP", "AZURE_AI_FOUNDRY_HUB_NAME",
    "AZURE_AOAI_API_VERSION", "AZURE_AOAI_DEPLOYMENT_LIST", "AZURE_AI_FOUNDRY_PROJECT_CONNECTION_STRING"]

  /** Reads the keys in order; the first that cannot be resolved exits. */
  function CfgAll(store: Store, keys: seq<string>): (r: Result<seq<string>>)
    ensures r.Ok? <==> forall k :: k in keys ==> Resolvable(store, k)
    ensures r.Ok? ==> |r.value| == |keys|
    ensures r.Ok? ==> forall i :: 0 <= i < |keys| ==> Cfg(store, keys[i], Infra, true) == Ok(r.value[i])
    decreases |keys|
  {
    if keys == [] then Ok([])
    else
      assert keys[0] in keys;
      var v :- Cfg(store, keys[0], Infra, true);
      var rest :- CfgAll(store, keys[1..]);
      assert forall i :: 1 <= i < |keys| ==> keys[i] == keys[1..][i - 1];
      Ok([v] + rest)
  }

  /** `main`: the endpoint check, the core settings, then the loop. */
  function Setup(env: Env, store: Store, parse: Parser, apim: Apim, entries: seq<Entry>): Outcome<Connection> {
    if !IsSet(env, "AZURE_APP_CONFIG_ENDPOINT") then Outcome([], Exited(MissingEnv(["AZURE_APP_CONFIG_ENDPOINT"])))
    else match CfgAll(store, CoreKeys)
      case Exit(r) => Outcome([], Exited(r))
      case Ok(core) => Register(Context(store, parse, apim, core[1], core[3]), entries)
  }

  /** Nothing is registered without the store endpoint or with a core setting missing;
      otherwise the loop runs with the store's resource group and OpenAI api version. */
  lemma SetupPreconditions(env: Env, store: Store, parse: Parser, apim: Apim, entries: seq<Entry>)
    ensures !IsSet(env, "AZURE_APP_CONFIG_ENDPOINT") ==> Setup(env, store, parse, apim, entries).calls == []
    ensures (exists k :: k in CoreKeys && !Resolvable(store, k)) ==> Setup(env, store, parse, apim, entries).calls == []
    ensures IsSet(env, "AZURE_APP_CONFIG_ENDPOINT") && (forall k :: k in CoreKeys ==> Resolvable(store, k)) ==>
              Setup(env, store, parse, apim, entries)
              == Register(Context(store, parse, apim, store[("AZURE_RESOURCE_GROUP", Infra)],
                                  store[("AZURE_AOAI_API_VERSION", Infra)]), entries)
  {
  }
}

=== FILE: json.dfy ===
/** JSON values as the scripts see them after `json.loads` or from the
    deployment outputs: objects keep their members in insertion order, as a
    Python `dict` does. The module gives Python's `in`, subscript, truth value,
    `str()` and `json.dumps` on these values. */
module JsonModel {
  import opened Common

  datatype Json =
    | JNull
    | JBool(b: bool)
    | JInt(i: int)
    | JString(s: string)
    | JArray(items: seq<Json>)
    | JObject(members: seq<(string, Json)>)

  /** The keys of an object's members, in order. */
  function Keys(members: seq<(string, Json)>): (ks: seq<string>)
    ensures |ks| == |members|
    ensures forall i :: 0 <= i < |members| ==> ks[i] == members[i].0
  {
    if members == [] then [] else [members[0].0] + Keys(members[1..])
  }

  /** A Python dict holds each key once. */
  predicate UniqueKeys(members: seq<(string, Json)>) {
    forall i, j :: 0 <= i < j < |members| ==> members[i].0 != members[j].0
  }

  /** `d.get(key)` on a dict. */
  function Get(members: seq<(string, Json)>, key: string): (r: Option<Json>)
    ensures r.None? <==> key !in Keys(members)
    ensures r.Some? ==> exists i :: 0 <= i < |members| && members[i] == (key, r.value)
    ensures UniqueKeys(members) ==> forall i :: 0 <= i < |members| && members[i].0 == key ==> r == Some(members[i].1)
  {
    if members == [] then None
    else if members[0].0 == key then Some(members[0].1)
    else
      var r := Get(members[1..], key);
      assert r.Some? ==> exists i :: 0 <= i < |members[1..]| && members[1..][i] == (key, r.value);
      r
  }

  /** `p in s` on strings: `p` occurs somewhere in `s`. */
  predicate IsSubstring(p: string, s: string)
    decreases |s|
  {
    p <= s || (s != [] && IsSubstring(p, s[1..]))
  }

  /** Python's `key in container` for a string key: member keys of a dict,
      elements of a list, substrings of a string; None when Python raises TypeError. */
  function Contains(container: Json, key: string): (r: Option<bool>)
    ensures container.JObject? ==> r == Some(key in Keys(container.members))
    ensures r.None? <==> container.JNull? || container.JBool? || container.JInt?
  {
    match container
    case JObject(m) => Some(key in Keys(m))
    case JArray(xs) => Some(JString(key) in xs)
    case JString(s) => Some(IsSubstring(key, s))
    case _ => None
  }

  /** Python's `container[key]` for a string key. */
  function Subscript(container: Json, key: string): (r: Result<Json>)
    ensures r.Ok? <==> container.JObject? && key in Keys(container.members)
    ensures r.Ok? ==> Get(container.members, key) == Some(r.value)
  {
    match container
    case JObject(m) =>
      (match Get(m, key)
       case Some(v) => Ok(v)
       case None => Exit(MissingField(key)))
    case _ => Exit(TypeError("subscript"))
  }

  /** The guard the scripts write as `if key not in x: exit(1)` followed by `x[key]`:
      exit with `absent` when the key is missing, fail like Python on a value
      that does not support the operations, otherwise return the member. */
  function Member(container: Json, key: string, absent: Reason): (r: Result<Json>)
    ensures r.Ok? <==> container.JObject? && key in Keys(container.members)
    ensures r.Ok? ==> Get(container.members, key) == Some(r.value)
    ensures container.JObject? && key !in Keys(container.members) ==> r == Exit(absent)
  {
    match Contains(container, key)
    case None => Exit(TypeError("in"))
    case Some(false) => Exit(absent)
    case Some(true) => Subscript(container, key)
  }

  /** `outputs[name]["value"]` after the scripts' guard
      `if name not in outputs or "value" not in outputs[name]: exit(1)`: ARM
      wraps each deployment output as an object with its `value`. */
  function OutputValue(outputs: Json, name: string): (r: Result<Json>)
    ensures r.Ok? <==> && outputs.JObject? && name in Keys(outputs.members)
                       && Get(outputs.members, name).value.JObject?
                       && "value" in Keys(Get(outputs.members, name).value.members)
    ensures r.Ok? ==> r.value == Get(Get(outputs.members, name).value.members, "value").value
    ensures outputs.JObject? && name !in Keys(outputs.members) ==> r == Exit(MissingOutput(name + ".value"))
  {
    var entry :- Member(outputs, name, MissingOutput(name + ".value"));
    Member(entry, "value", MissingOutput(name + ".value"))
  }

  /** Python's truth value of a decoded JSON value. */
  predicate Truthy(j: Json) {
    match j
    case JNull => false
    case JBool(b) => b
    case JInt(i) => i != 0
    case JString(s) => s != ""
    case JArray(xs) => xs != []
    case JObject(m) => m != []
  }

  // ---------------------------------------------------------------- rendering

  function Digit(d: nat): char
    requires d < 10
  {
    "0123456789"[d]
  }

  function NatToString(n: nat): (s: string)
    ensures |s| > 0
    decreases n
  {
    if n < 10 then [Digit(n)] else NatToString(n / 10) + [Digit(n % 10)]
  }

  /** Decimal text of an integer, as `str(i)` writes it. */
  function IntToString(i: int): string {
    if i < 0 then "-" + NatToString(-i) else NatToString(i)
  }

  function Join(parts: seq<string>, sep: string): string {
    if parts == [] then ""
    else if |parts| == 1 then parts[0]
    else parts[0] + sep + Join(parts[1..], sep)
  }

  /** Python's `repr()` of a decoded value (quotes inside strings are not escaped). */
  function Repr(j: Json): string
    decreases j
  {
    match j
    case JNull => "None"
    case JBool(b) => if b then "True" else "False"
    case JInt(i) => IntToString(i)
    case JString(s) => "'" + s + "'"
    case JArray(xs) =>
      "[" + Join(seq(|xs|, k requires 0 <= k < |xs| => Repr(xs[k])), ", ") + "]"
    case JObject(m) =>
      "{" + Join(seq(|m|, k requires 0 <= k < |m| =>
                       assert m[k].1 < m[k];
                       "'" + m[k].0 + "': " + Repr(m[k].1)), ", ") + "}"
  }

  /** Python's `str()`: a string is itself, every other value its `repr()`. */
  function Str(j: Json): (s: string)
    ensures j.JString? ==> s == j.s
  {
    match j
    case JString(s) => s
    case _ => Repr(j)
  }

  /** `json.dumps` with its default separators (string escaping is not modelled). */
  function Dumps(j: Json): string
    decreases j
  {
    match j
    case JNull => "null"
    case JBool(b) => if b then "true" else "false"
    case JInt(i) => IntToString(i)
    case JString(s) => "\"" + s + "\""
    case JArray(xs) =>
      "[" + Join(seq(|xs|, k requires 0 <= k < |xs| => Dumps(xs[k])), ", ") + "]"
    case JObject(m) =>
      "{" + Join(seq(|m|, k requires 0 <= k < |m| =>
                       assert m[k].1 < m[k];
                       "\"" + m[k].0 + "\": " + Dumps(m[k].1)), ", ") + "}"
  }
}

=== FILE: raipolicies.dfy ===
/** scripts/rai/raipolicies.py: assign the two Responsible AI policies to the
    chat model deployment of an AI Services account. */
module RaiPolicies {
  import opened Common
  import opened ArmIds

  const RequiredVars: seq<string> := [
    "AZURE_SUBSCRIPTION_ID", "AZURE_RESOURCE_GROUP", "AZURE_AI_SERVICES_NAME", "AZURE_CHAT_DEPLOYMENT_NAME"]

  /** The policies assigned, in the order they are assigned. */
  const Policies: seq<string> := ["MainRAIpolicy", "MainBlockListPolicy"]

  /** One `policy_assignments.create(scope, policy_assignment_name, parameters)`. */
  datatype Assignment = Assignment(scope: string, name: string, definitionId: string)

  /** The ARM id of a model deployment, the policies' scope: beneath the
      account, the deployment, whose name can be read back at the end. */
  function Scope(subscription: string, resourceGroup: string, account: string, deployment: string): (s: string)
    ensures var a := AccountId(subscription, resourceGroup, account);
            && |s| == |a| + 13 + |deployment|
            && s[..|a|] == a && s[|a|..|a| + 13] == "/deployments/" && s[|a| + 13..] == deployment
  {
    AccountId(subscription, resourceGroup, account) + "/deployments/" + deployment
  }

  /** With resource group, account and deployment names free of `/`, equal scopes
      name the same subscription, resource group, account and deployment. */
  lemma ScopeInjective(sub: string, rg: string, acct: string, dep: string,
                       sub': string, rg': string, acct': string, dep': string)
    requires Avoids(rg, '/') && Avoids(acct, '/') && Avoids(dep, '/')
    requires Avoids(rg', '/') && Avoids(acct', '/') && Avoids(dep', '/')
    requires Scope(sub, rg, acct, dep) == Scope(sub', rg', acct', dep')
    ensures sub == sub' && rg == rg' && acct == acct' && dep == dep'
  {
    var a, a' := AccountId(sub, rg, acct), AccountId(sub', rg', acct');
    PeelLast(a + "/deployments/", dep, a' + "/deployments/", dep');
    HeadBefore(a, a', "/deployments/");
    AccountIdInjective(sub, rg, acct, sub', rg', acct');
  }

  /** The id of a custom policy definition at subscription level, the policy
      readable back at the end. */
  function DefinitionId(subscription: string, policy: string): (id: string)
    ensures var p := SubscriptionId(subscription);
            && |id| == |p| + 53 + |policy|
            && id[..|p|] == p
            && id[|p|..|p| + 11] == "/providers/" && id[|p| + 11..|p| + 34] == "Microsoft.Authorization"
            && id[|p| + 34..|p| + 53] == "/policyDefinitions/" && id[|p| + 53..] == policy
  {
    SubscriptionId(subscription) + "/providers/" + "Microsoft.Authorization" + "/policyDefinitions/" + policy
  }

  /** With policy names free of `/`, the definition id names one policy of one subscription. */
  lemma DefinitionIdInjective(sub: string, policy: string, sub': string, policy': string)
    requires Avoids(policy, '/') && Avoids(policy', '/')
    requires DefinitionId(sub, policy) == DefinitionId(sub', policy')
    ensures sub == sub' && policy == policy'
  {
    var p, p' := SubscriptionId(sub), SubscriptionId(sub');
    PeelLast(p + "/providers/" + "Microsoft.Authorization" + "/policyDefinitions/", policy,
             p' + "/providers/" + "Microsoft.Authorization" + "/policyDefinitions/", policy');
    HeadBefore(p + "/providers/" + "Microsoft.Authorization",
               p' + "/providers/" + "Microsoft.Authorization", "/policyDefinitions/");
    HeadBefore(p + "/providers/", p' + "/providers/", "Microsoft.Authorization");
    HeadBefore(p, p', "/providers/");
    SubscriptionIdInjective(sub, sub');
  }

  function AssignmentName(policy: string): (name: string)
    ensures |name| == |policy| + 11
    ensures name[..|policy|] == policy
    ensures name[|policy|..] == "-assignment"
  {
    policy + "-assignment"
  }

  predicate EnvReady(env: Env) {
    forall v :: v in RequiredVars ==> IsSet(env, v)
  }

  /** The scope `main` builds from the environment. */
  function EnvScope(env: Env): string
    requires EnvReady(env)
  {
    assert "AZURE_SUBSCRIPTION_ID" in RequiredVars && "AZURE_RESOURCE_GROUP" in RequiredVars;
    assert "AZURE_AI_SERVICES_NAME" in RequiredVars && "AZURE_CHAT_DEPLOYMENT_NAME" in RequiredVars;
    Scope(env["AZURE_SUBSCRIPTION_ID"], env["AZURE_RESOURCE_GROUP"], env["AZURE_AI_SERVICES_NAME"],
          env["AZURE_CHAT_DEPLOYMENT_NAME"])
  }

  /** The assignment of one policy at one scope. */
  function AssignmentOf(subscription: string, scope: string, policy: string): Assignment {
    Assignment(scope, AssignmentName(policy), DefinitionId(subscription, policy))
  }

  /** The subscription `main` reads from the environment. */
  function EnvSubscription(env: Env): (sub: string)
    requires EnvReady(env)
    ensures sub != ""
  {
    assert "AZURE_SUBSCRIPTION_ID" in RequiredVars;
    env["AZURE_SUBSCRIPTION_ID"]
  }

  /** `main`: the environment check, then one assignment per policy. */
  method AssignAll(env: Env) returns (o: Outcome<Assignment>)
    ensures !EnvReady(env) ==> o == Outcome([], Exited(MissingEnv(Missing(RequiredVars, env))))
    ensures EnvReady(env) ==>
              && o.status.Completed?
              && |o.calls| == |Policies|
              && forall i :: 0 <= i < |Policies| ==>
                   o.calls[i] == AssignmentOf(EnvSubscription(env), EnvScope(env), Policies[i])
  {
    var check := CheckEnv(RequiredVars, env);
    if check.Exit? {
      return Outcome([], Exited(check.reason));
    }
    var sub := EnvSubscription(env);
    var scope := EnvScope(env);
    var calls: seq<Assignment> := [];
    var i := 0;
    while i < |Policies|
      invariant 0 <= i <= |Policies|
      invariant |calls| == i
      invariant forall j :: 0 <= j < i ==> calls[j] == AssignmentOf(sub, scope, Policies[j])
    {
      calls := calls + [AssignmentOf(sub, scope, Policies[i])];
      i := i + 1;
    }
    return Outcome(calls, Completed);
  }

  /** The two assignments share the deployment scope and have distinct names,
      each naming its own policy's definition. */
  lemma AssignmentsDistinct(subscription: string, scope: string)
    ensures var a := AssignmentOf(subscription, scope, Policies[0]);
            var b := AssignmentOf(subscription, scope, Policies[1]);
            && a.scope == b.scope == scope
            && a.name != b.name
            && a.definitionId != b.definitionId
  {
    var a := AssignmentOf(subscription, scope, Policies[0]);
    var b := AssignmentOf(subscription, scope, Policies[1]);
    assert a.name[4] == 'R' && b.name[4] == 'B';
    assert |a.definitionId| < |b.definitionId|;
  }

  /** An assignment name determines the policy it assigns. */
  lemma AssignmentNameInjective(p: string, q: string)
    requires AssignmentName(p) == AssignmentName(q)
    ensures p == q
  {
    assert |p| == |q|;
    assert p == AssignmentName(p)[..|p|];
  }
}

=== FILE: search_assets.dfy ===
/** The Azure AI Search assets scripts/search/setup.py creates: their derived
    names, request bodies and REST addresses. */
module SearchAssets {
  import opened Common
  import opened ArmIds

  // ---------------------------------------------------------------- derived names

  function DatasourceName(index: string): string {
    index + "-datasource"
  }

  function ChunkingSkillsetName(index: string): string {
    index + "-skillset-chunking"
  }

  function EmbedSkillsetName(index: string): string {
    index + "-skillset-embed"
  }

  function IndexerName(index: string): string {
    index + "-indexer"
  }

  lemma SuffixInjective(a: string, b: string, suffix: string)
    requires a + suffix == b + suffix
    ensures a == b
  {
    assert |a| == |b|;
    assert a == (a + suffix)[..|a|];
    assert b == (b + suffix)[..|b|];
  }

  /** Each derived name determines the index it belongs to, so distinct indexes
      never share a datasource, skillset or indexer. */
  lemma DerivedNamesInjective(a: string, b: string)
    ensures DatasourceName(a) == DatasourceName(b) ==> a == b
    ensures ChunkingSkillsetName(a) == ChunkingSkillsetName(b) ==> a == b
    ensures EmbedSkillsetName(a) == EmbedSkillsetName(b) ==> a == b
    ensures IndexerName(a) == IndexerName(b) ==> a == b
  {
    if DatasourceName(a) == DatasourceName(b) { SuffixInjective(a, b, "-datasource"); }
    if ChunkingSkillsetName(a) == ChunkingSkillsetName(b) { SuffixInjective(a, b, "-skillset-chunking"); }
    if EmbedSkillsetName(a) == EmbedSkillsetName(b) { SuffixInjective(a, b, "-skillset-embed"); }
    if IndexerName(a) == IndexerName(b) { SuffixInjective(a, b, "-indexer"); }
  }

  // ---------------------------------------------------------------- bodies

  /** One index field; members the script leaves out are None. */
  datatype Field = Field(name: string, edmType: string, key: Option<bool>, searchable: Option<bool>,
                         retrievable: Option<bool>, analyzer: Option<string>, dimensions: Option<int>)

  datatype InputMapping = InputMapping(name: string, source: string)

  datatype OutputMapping = OutputMapping(name: string, targetName: string)

  datatype Skill =
    | WebApiSkill(name: string, httpMethod: string, uri: string, timeout: string, batchSize: int,
                  context: string, inputs: seq<InputMapping>, outputs: seq<OutputMapping>)
    | EmbeddingSkill(name: string, description: string, resourceUri: string, apiKey: string,
                     deploymentId: string, modelName: string, dimensions: int,
                     inputs: seq<InputMapping>, outputs: seq<OutputMapping>)

  /** The `@odata.type` member of a skill. */
  function ODataType(s: Skill): string {
    match s
    case WebApiSkill(_, _, _, _, _, _, _, _) => "#Microsoft.Skills.Custom.WebApiSkill"
    case EmbeddingSkill(_, _, _, _, _, _, _, _, _) => "#Microsoft.Skills.Text.AzureOpenAIEmbeddingSkill"
  }

  datatype Body =
    | DatasourceBody(name: string, description: string, kind: string,
                     managedIdentityResourceId: string, container: string)
    | IndexBody(name: string, fields: seq<Field>)
    | SkillsetBody(name: string, skills: seq<Skill>)
    | IndexerBody(name: string, dataSourceName: string, targetIndexName: string,
                  skillsetName: string, interval: string)

  datatype Method = Put | Delete

  /** One `call_search_api` call: method, collection, asset name and JSON body. */
  datatype Request = Request(verb: Method, resourceType: string, name: string, body: Option<Body>)

  /** `https://{service}.search.windows.net/{resource_type}/{name}?api-version={api_version}`:
      service, collection, asset name and API version each sit at their place. */
  function Url(service: string, apiVersion: string, r: Request): (url: string)
    ensures |url| == |service| + |r.resourceType| + |r.name| + |apiVersion| + 42
    ensures url[..8] == "https://" && url[8..8 + |service|] == service
    ensures var i := 8 + |service|;
            && url[i..i + 20] == ".search.windows.net/" && url[i + 20..i + 20 + |r.resourceType|] == r.resourceType
            && url[i + 20 + |r.resourceType|] == '/'
    ensures var j := 29 + |service| + |r.resourceType|;
            && url[j..j + |r.name|] == r.name && url[j + |r.name|..j + |r.name| + 13] == "?api-version="
            && url[j + |r.name| + 13..] == apiVersion
  {
    "https://" + service + ".search.windows.net/" + r.resourceType + "/" + r.name + "?api-version=" + apiVersion
  }

  /** Within one service and API version, collections and asset names free of
      `/` and `?` give distinct assets distinct addresses. */
  lemma UrlDeterminesAsset(service: string, apiVersion: string, a: Request, b: Request)
    requires Avoids(a.resourceType, '/') && Avoids(b.resourceType, '/')
    requires Avoids(a.name, '?') && Avoids(b.name, '?')
    requires Url(service, apiVersion, a) == Url(service, apiVersion, b)
    ensures a.resourceType == b.resourceType && a.name == b.name
  {
    var url := Url(service, apiVersion, a);
    var i := 28 + |service|;
    SegmentAt(url, i, '/', a.resourceType, b.resourceType);
    var j := i + 1 + |a.resourceType|;
    assert url[j + |a.name|] == url[j + |a.name|..j + |a.name| + 13][0];
    assert url[j + |b.name|] == url[j + |b.name|..j + |b.name| + 13][0];
    SegmentAt(url, j, '?', a.name, b.name);
  }

  /** The storage account the datasource reads with the search service's managed
      identity: beneath the storage resource group, the storage account, whose
      name can be read back at the end. */
  function StorageResourceId(subscription: string, resourceGroup: string, account: string): (id: string)
    ensures var g := ResourceGroupId(subscription, resourceGroup);
            && |id| == |g| + 45 + |account|
            && id[..|g|] == g
            && id[|g|..|g| + 11] == "/providers/" && id[|g| + 11..|g| + 28] == "Microsoft.Storage"
            && id[|g| + 28..|g| + 45] == "/storageAccounts/" && id[|g| + 45..] == account
  {
    ResourceGroupId(subscription, resourceGroup) + "/providers/" + "Microsoft.Storage" + "/storageAccounts/" + account
  }

  /** With group and account names free of `/`, the id names one storage account:
      equal ids have equal subscription, resource group and account. */
  lemma StorageResourceIdInjective(sub: string, rg: string, account: string,
                                   sub': string, rg': string, account': string)
    requires Avoids(rg, '/') && Avoids(account, '/') && Avoids(rg', '/') && Avoids(account', '/')
    requires StorageResourceId(sub, rg, account) == StorageResourceId(sub', rg', account')
    ensures sub == sub' && rg == rg' && account == account'
  {
    var g, g' := ResourceGroupId(sub, rg), ResourceGroupId(sub', rg');
    PeelLast(g + "/providers/" + "Microsoft.Storage" + "/storageAccounts/", account,
             g' + "/providers/" + "Microsoft.Storage" + "/storageAccounts/", account');
    HeadBefore(g + "/providers/" + "Microsoft.Storage",
               g' + "/providers/" + "Microsoft.Storage", "/storageAccounts/");
    HeadBefore(g + "/providers/", g' + "/providers/", "Microsoft.Storage");
    HeadBefore(g, g', "/providers/");
    ResourceGroupIdInjective(sub, rg, sub', rg');
  }

  /** `create_datasource`: one put of a blob datasource named `{index}-datasource`,
      whose body names the asset the request addresses and reads the container
      with the storage account's managed identity. */
  function DatasourceRequest(index: string, subscription: string, storageGroup: string,
                             account: string, container: string): (r: Request)
    ensures r.verb == Put && r.resourceType == "datasources" && r.name == DatasourceName(index)
    ensures r.body.Some? && r.body.value.DatasourceBody? && r.body.value.name == r.name
    ensures r.body.value.kind == "azureblob" && r.body.value.container == container
    ensures r.body.value.managedIdentityResourceId == StorageResourceId(subscription, storageGroup, account)
  {
    var name := DatasourceName(index);
    Request(Put, "datasources", name,
            Some(DatasourceBody(name, "Blob datastore for " + index, "azureblob",
                                StorageResourceId(subscription, storageGroup, account), container)))
  }

  /** `create_index`: delete the index, then put it with its full field list. */
  function IndexRequests(index: string, fields: seq<Field>): (rs: seq<Request>)
    ensures |rs| == 2 && rs[0].verb == Delete && rs[1].verb == Put
    ensures forall i :: 0 <= i < |rs| ==> rs[i].resourceType == "indexes" && rs[i].name == index
    ensures rs[0].body.None? && rs[1].body == Some(IndexBody(index, fields))
  {
    [Request(Delete, "indexes", index, None), Request(Put, "indexes", index, Some(IndexBody(index, fields)))]
  }

  /** Replace semantics for a skillset: delete it, then put the full skill list. */
  function SkillsetRequests(name: string, skill: Skill): (rs: seq<Request>)
    ensures |rs| == 2 && rs[0].verb == Delete && rs[1].verb == Put
    ensures forall i :: 0 <= i < |rs| ==> rs[i].resourceType == "skillsets" && rs[i].name == name
    ensures rs[0].body.None? && rs[1].body == Some(SkillsetBody(name, [skill]))
  {
    [Request(Delete, "skillsets", name, None), Request(Put, "skillsets", name, Some(SkillsetBody(name, [skill])))]
  }

  /** The custom Web API skill that POSTs each document's storage path, one at a
      time, to the ingest container's chunking endpoint. */
  function ChunkingSkill(fqdn: string): (s: Skill)
    ensures s.WebApiSkill? && ODataType(s) == "#Microsoft.Skills.Custom.WebApiSkill"
    ensures |s.uri| == |fqdn| + 26
    ensures s.uri[..8] == "https://" && s.uri[8..8 + |fqdn|] == fqdn && s.uri[8 + |fqdn|..] == "/document-chunking"
    ensures s.httpMethod == "POST" && s.batchSize == 1
    ensures |s.inputs| == 1 && s.inputs[0].source == "/document/metadata_storage_path"
  {
    WebApiSkill("document-chunking", "POST", "https://" + fqdn + "/document-chunking", "PT230S", 1, "/document",
                [InputMapping("documentUrl", "/document/metadata_storage_path")],
                [OutputMapping("chunks", "chunks")])
  }

  /** Python's `rstrip("/")`. */
  function RStripSlash(s: string): (r: string)
    ensures r <= s
    ensures r == [] || r[|r| - 1] != '/'
    ensures forall i :: |r| <= i < |s| ==> s[i] == '/'
    decreases |s|
  {
    if s != [] && s[|s| - 1] == '/' then RStripSlash(s[..|s| - 1]) else s
  }

  /** The embedding skill that calls Azure OpenAI through the API Management
      gateway: exactly one `/` joins the gateway and the API path, and the skill
      writes its vector to `contentVector`. */
  function EmbeddingSkillFor(index: string, gatewayUrl: string, openaiPath: string, openaiVersion: string,
                             apiKey: string, deployment: string, model: string, dimensions: int): (s: Skill)
    ensures s.EmbeddingSkill? && ODataType(s) == "#Microsoft.Skills.Text.AzureOpenAIEmbeddingSkill"
    ensures var g := RStripSlash(gatewayUrl);
            && |s.resourceUri| == |g| + |openaiPath| + |openaiVersion| + 14
            && s.resourceUri[..|g|] == g && (g == [] || g[|g| - 1] != '/') && s.resourceUri[|g|] == '/'
            && s.resourceUri[|g| + 1..|g| + 1 + |openaiPath|] == openaiPath
            && s.resourceUri[|g| + 1 + |openaiPath|..] == "?api-version=" + openaiVersion
    ensures s.apiKey == apiKey && s.deploymentId == deployment && s.modelName == model && s.dimensions == dimensions
    ensures |s.outputs| == 1 && s.outputs[0].targetName == "contentVector"
  {
    var uri := RStripSlash(gatewayUrl) + "/" + openaiPath + "?api-version=" + openaiVersion;
    JoinParts(RStripSlash(gatewayUrl), openaiPath, "?api-version=" + openaiVersion);
    EmbeddingSkill("embedding-skill", "Generate embeddings for " + index + " via APIM",
                   uri,
                   apiKey, deployment, model, dimensions,
                   [InputMapping("text", "/document/content")],
                   [OutputMapping("embedding", "contentVector")])
  }

  lemma JoinParts(g: string, path: string, query: string)
    ensures var u := g + "/" + path + query;
            && |u| == |g| + 1 + |path| + |query|
            && u[..|g|] == g && u[|g|] == '/' && u[|g| + 1..|g| + 1 + |path|] == path && u[|g| + 1 + |path|..] == query
  {
  }

  /** `create_indexer`: one put of `{index}-indexer` wiring datasource, skillset and index. */
  function IndexerRequest(index: string, datasource: string, skillset: string, interval: string): (r: Request)
    ensures r.verb == Put && r.resourceType == "indexers" && r.name == IndexerName(index)
    ensures r.body.Some? && r.body.value.IndexerBody? && r.body.value.name == r.name
    ensures r.body.value.targetIndexName == index && r.body.value.dataSourceName == datasource
    ensures r.body.value.skillsetName == skillset && r.body.value.interval == interval
  {
    var name := IndexerName(index);
    Request(Put, "indexers", name, Some(IndexerBody(name, datasource, index, skillset, interval)))
  }

  /** Field names are distinct. */
  predicate DistinctNames(fs: seq<Field>) {
    forall i, j :: 0 <= i < j < |fs| ==> fs[i].name != fs[j].name
  }

  /** `id` is the one key field, and the vector field has the embedding size. */
  predicate KeyedVectorIndex(fs: seq<Field>, dimensions: int) {
    && |fs| == 3 && fs[0].name == "id" && fs[0].key == Some(true)
    && (forall i :: 1 <= i < |fs| ==> fs[i].key.None?)
    && fs[2].name == "contentVector" && fs[2].edmType == "Collection(Edm.Single)"
    && fs[2].dimensions == Some(dimensions)
  }

  /** The fields of the RAG index: `content` is analysed with `analyzer`. */
  function RagFields(analyzer: string, dimensions: int): (fs: seq<Field>)
    ensures KeyedVectorIndex(fs, dimensions) && DistinctNames(fs)
    ensures fs[1].name == "content" && fs[1].analyzer == Some(analyzer)
  {
    [Field("id", "Edm.String", Some(true), Some(false), None, None, None),
     Field("content", "Edm.String", None, Some(true), None, Some(analyzer), None),
     Field("contentVector", "Collection(Edm.Single)", None, Some(true), Some(true), None, Some(dimensions))]
  }

  /** The fields of an NL2SQL index; `text` is `question` or `description`. */
  function Nl2SqlFields(text: string, analyzer: string, dimensions: int): (fs: seq<Field>)
    ensures KeyedVectorIndex(fs, dimensions)
    ensures fs[1].name == text && fs[1].analyzer == Some(analyzer)
    ensures DistinctNames(fs) <==> text != "id" && text != "contentVector"
  {
    [Field("id", "Edm.String", Some(true), None, None, None, None),
     Field(text, "Edm.String", None, Some(true), None, Some(analyzer), None),
     Field("contentVector", "Collection(Edm.Single)", None, Some(true), None, None, Some(dimensions))]
  }

  /** The embedding skill of an NL2SQL chain fills that index's vector field,
      with the size the field declares. */
  lemma EmbeddingFillsVectorField(index: string, gatewayUrl: string, openaiPath: string, openaiVersion: string,
                                  apiKey: string, deployment: string, model: string, dimensions: int,
                                  text: string, analyzer: string)
    ensures var s := EmbeddingSkillFor(index, gatewayUrl, openaiPath, openaiVersion, apiKey, deployment, model, dimensions);
            var fs := Nl2SqlFields(text, analyzer, dimensions);
            exists i :: 0 <= i < |fs| && fs[i].name == s.outputs[0].targetName && fs[i].dimensions == Some(s.dimensions)
  {
    var fs := Nl2SqlFields(text, analyzer, dimensions);
    assert fs[2].name == "contentVector";
  }
}

=== FILE: search_setup.dfy ===
/** The run of scripts/search/setup.py: the environment check, the container
    host lookup, the plan of REST requests for the RAG index and the three
    NL2SQL indexes, and its execution against a search service that answers
    each request with an HTTP status. The first status `raise_for_status`
    raises for, 400 to 599, ends the process. */
module SearchSetup {
  import opened Common
  import opened SearchAssets

  /** The variables `check_env_vars` insists on, in the order they are listed. */
  const RequiredVars: seq<string> := [
    "AZURE_SUBSCRIPTION_ID", "AZURE_RESOURCE_GROUP", "AZURE_DATA_INGEST_CONTAINER_APP_NAME",
    "AZURE_SEARCH_SERVICE_NAME", "AZURE_SEARCH_API_VERSION", "AZURE_SEARCH_INDEX_NAME",
    "AZURE_STORAGE_ACCOUNT_RG", "AZURE_STORAGE_ACCOUNT_NAME", "AZURE_STORAGE_CONTAINER",
    "AZURE_KEY_VAULT_NAME", "AZURE_APIM_GATEWAY_URL", "AZURE_APIM_OPENAI_API_PATH",
    "AZURE_OPENAI_API_VERSION", "AZURE_OPENAI_EMBEDDING_DEPLOYMENT",
    "AZURE_OPENAI_EMBEDDING_MODEL_NAME", "AZURE_EMBEDDINGS_VECTOR_SIZE"]

  /** Read by the embedding step, but not among the required variables. */
  const SecretNameVar := "AZURE_APIM_SUBSCRIPTION_SECRET_NAME"

  const VectorSizeVar := "AZURE_EMBEDDINGS_VECTOR_SIZE"

  predicate EnvComplete(env: Env) {
    forall v :: v in RequiredVars ==> IsSet(env, v)
  }

  // ---------------------------------------------------------------- the service

  /** The assets a search service holds, keyed by (collection, name). */
  type Service = map<(string, string), Body>

  function Key(r: Request): (string, string) {
    (r.resourceType, r.name)
  }

  /** The effect of a request the service accepted: a put stores its body, a delete removes the asset. */
  function Apply(svc: Service, r: Request): Service {
    match r.verb
    case Put => if r.body.Some? then svc[Key(r) := r.body.value] else svc
    case Delete => svc - {Key(r)}
  }

  /** The effect of accepted requests, in order. */
  function ApplyAll(svc: Service, rs: seq<Request>): Service
    decreases |rs|
  {
    if rs == [] then svc else ApplyAll(Apply(svc, rs[0]), rs[1..])
  }

  lemma {:induction false} ApplyAllAppend(svc: Service, a: seq<Request>, b: seq<Request>)
    ensures ApplyAll(svc, a + b) == ApplyAll(ApplyAll(svc, a), b)
    decreases |a|
  {
    if a != [] {
      assert (a + b)[0] == a[0] && (a + b)[1..] == a[1..] + b;
      assert ApplyAll(svc, a + b) == ApplyAll(Apply(svc, a[0]), a[1..] + b);
      ApplyAllAppend(Apply(svc, a[0]), a[1..], b);
    } else {
      assert a + b == b;
    }
  }

  lemma ApplyAllPrefixes(svc: Service, rs: seq<Request>)
    requires rs != []
    ensures forall i :: 1 <= i <= |rs| ==> ApplyAll(svc, rs[..i]) == ApplyAll(Apply(svc, rs[0]), rs[1..][..i - 1])
  {
    forall i | 1 <= i <= |rs|
      ensures ApplyAll(svc, rs[..i]) == ApplyAll(Apply(svc, rs[0]), rs[1..][..i - 1])
    {
      assert rs[..i][1..] == rs[1..][..i - 1];
    }
  }

  /** An asset no request touches keeps its previous state. */
  lemma {:induction false} ApplyAllUntouched(svc: Service, rs: seq<Request>, k: (string, string))
    requires forall j :: 0 <= j < |rs| ==> Key(rs[j]) != k
    ensures k in ApplyAll(svc, rs) <==> k in svc
    ensures k in svc ==> ApplyAll(svc, rs)[k] == svc[k]
    decreases |rs|
  {
    if rs != [] {
      ApplyAllUntouched(Apply(svc, rs[0]), rs[1..], k);
    }
  }

  /** A put that no later request touches is what the service holds afterwards. */
  lemma {:induction false} LastPutHolds(svc: Service, rs: seq<Request>, i: nat)
    requires i < |rs| && rs[i].verb == Put && rs[i].body.Some?
    requires forall j :: i < j < |rs| ==> Key(rs[j]) != Key(rs[i])
    ensures Key(rs[i]) in ApplyAll(svc, rs)
    ensures ApplyAll(svc, rs)[Key(rs[i])] == rs[i].body.value
    decreases |rs|
  {
    if i == 0 {
      ApplyAllUntouched(Apply(svc, rs[0]), rs[1..], Key(rs[0]));
    } else {
      LastPutHolds(Apply(svc, rs[0]), rs[1..], i - 1);
    }
  }

  // ---------------------------------------------------------------- execution

  /** One request as sent: the assets the service held when it arrived, and its answer. */
  datatype Exchange = Exchange(request: Request, before: Service, status: int)

  /** The HTTP status the service answers a request with, given what it holds.
      Network failures, which the script also turns into exit status 1, are
      statuses from 400 to 599 here. */
  type Responder = (Request, Service) -> int

  /** `raise_for_status` raises for a client error (4xx) or a server error (5xx)
      and returns normally for every other status, 600 and above included. */
  predicate Raises(status: int) {
    400 <= status < 600
  }

  /** The requests sent, the assets left behind, and the failing status if any. */
  datatype Sent = Sent(calls: seq<Exchange>, service: Service, failure: Option<int>)

  /** The exchanges are the first requests, in order, each sent to the service
      as the requests before it left it and answered by the responder. */
  predicate Faithful(rs: seq<Request>, svc: Service, respond: Responder, calls: seq<Exchange>) {
    && |calls| <= |rs|
    && forall i :: 0 <= i < |calls| ==>
         calls[i] == Exchange(rs[i], ApplyAll(svc, rs[..i]), respond(rs[i], ApplyAll(svc, rs[..i])))
  }

  /** Sending the first request and then the rest from the state it leaves. */
  lemma FaithfulCons(rs: seq<Request>, svc: Service, respond: Responder, rest: seq<Exchange>)
    requires rs != [] && Faithful(rs[1..], Apply(svc, rs[0]), respond, rest)
    ensures Faithful(rs, svc, respond, [Exchange(rs[0], svc, respond(rs[0], svc))] + rest)
  {
    ApplyAllPrefixes(svc, rs);
    var cs := [Exchange(rs[0], svc, respond(rs[0], svc))] + rest;
    forall i | 0 <= i < |cs|
      ensures cs[i] == Exchange(rs[i], ApplyAll(svc, rs[..i]), respond(rs[i], ApplyAll(svc, rs[..i])))
    {
      if i == 0 {
        assert rs[..0] == [];
      } else {
        assert cs[i] == rest[i - 1] && rs[1..][i - 1] == rs[i];
      }
    }
  }

  /** `call_search_api` over a sequence of requests: each is sent in turn and
      a status that `raise_for_status` raises for ends the run; any other
      status lets the script carry on, and the request is taken to have had
      its effect. */
  function Execute(rs: seq<Request>, svc: Service, respond: Responder): (x: Sent)
    ensures Faithful(rs, svc, respond, x.calls)
    ensures forall i :: 0 <= i < |x.calls| - 1 ==> !Raises(x.calls[i].status)
    ensures x.failure.None? ==> |x.calls| == |rs| && x.service == ApplyAll(svc, rs)
    ensures x.failure.None? ==> forall i :: 0 <= i < |x.calls| ==> !Raises(x.calls[i].status)
    ensures x.failure.Some? ==> x.calls != [] && x.failure.value == x.calls[|x.calls| - 1].status
    ensures x.failure.Some? ==> Raises(x.failure.value) && x.service == ApplyAll(svc, rs[..|x.calls| - 1])
    decreases |rs|
  {
    if rs == [] then Sent([], svc, None)
    else
      var status := respond(rs[0], svc);
      if Raises(status) then
        assert rs[..0] == [];
        Sent([Exchange(rs[0], svc, status)], svc, Some(status))
      else
        var rest := Execute(rs[1..], Apply(svc, rs[0]), respond);
        FaithfulCons(rs, svc, respond, rest.calls);
        ApplyAllPrefixes(svc, rs);
        Sent([Exchange(rs[0], svc, status)] + rest.calls, rest.service, rest.failure)
  }

  // ---------------------------------------------------------------- the plan

  /** What `main` reads from the environment once the check has passed. */
  datatype Settings = Settings(subscription: string, service: string, apiVersion: string, baseIndex: string,
                               openaiPath: string, openaiVersion: string, storageGroup: string,
                               storageAccount: string, storageContainer: string, analyzer: string,
                               interval: string, dimensions: int, gatewayUrl: string,
                               deployment: string, model: string)

  function ReadSettings(env: Env, dimensions: int): (s: Settings)
    requires EnvComplete(env)
    ensures "SEARCH_ANALYZER_NAME" !in env ==> s.analyzer == "standard.lucene"
    ensures "SEARCH_INDEX_INTERVAL" !in env ==> s.interval == "PT2H"
    ensures s.baseIndex != "" && s.dimensions == dimensions
  {
    assert "AZURE_SUBSCRIPTION_ID" in RequiredVars && "AZURE_SEARCH_SERVICE_NAME" in RequiredVars;
    assert "AZURE_SEARCH_API_VERSION" in RequiredVars && "AZURE_SEARCH_INDEX_NAME" in RequiredVars;
    assert "AZURE_APIM_OPENAI_API_PATH" in RequiredVars && "AZURE_OPENAI_API_VERSION" in RequiredVars;
    assert "AZURE_STORAGE_ACCOUNT_RG" in RequiredVars && "AZURE_STORAGE_ACCOUNT_NAME" in RequiredVars;
    assert "AZURE_STORAGE_CONTAINER" in RequiredVars && "AZURE_APIM_GATEWAY_URL" in RequiredVars;
    assert "AZURE_OPENAI_EMBEDDING_DEPLOYMENT" in RequiredVars;
    assert "AZURE_OPENAI_EMBEDDING_MODEL_NAME" in RequiredVars;
    Settings(env["AZURE_SUBSCRIPTION_ID"], env["AZURE_SEARCH_SERVICE_NAME"], env["AZURE_SEARCH_API_VERSION"],
             env["AZURE_SEARCH_INDEX_NAME"], env["AZURE_APIM_OPENAI_API_PATH"], env["AZURE_OPENAI_API_VERSION"],
             env["AZURE_STORAGE_ACCOUNT_RG"], env["AZURE_STORAGE_ACCOUNT_NAME"], env["AZURE_STORAGE_CONTAINER"],
             EnvGet(env, "SEARCH_ANALYZER_NAME", "standard.lucene"), EnvGet(env, "SEARCH_INDEX_INTERVAL", "PT2H"),
             dimensions, env["AZURE_APIM_GATEWAY_URL"], env["AZURE_OPENAI_EMBEDDING_DEPLOYMENT"],
             env["AZURE_OPENAI_EMBEDDING_MODEL_NAME"])
  }

  /** The requests of a run, and the reason it stops after the last of them, if any. */
  datatype Plan = Plan(requests: seq<Request>, stop: Option<Reason>)

  /** One index's assets in creation order: datasource, index (delete, put),
      skillset (delete, put), indexer. */
  function Chain(s: Settings, index: string, fields: seq<Field>, skillset: string, skill: Skill): (rs: seq<Request>)
    ensures |rs| == 6
  {
    [DatasourceRequest(index, s.subscription, s.storageGroup, s.storageAccount, s.storageContainer)]
      + IndexRequests(index, fields)
      + SkillsetRequests(skillset, skill)
      + [IndexerRequest(index, DatasourceName(index), skillset, s.interval)]
  }

  function RagChain(s: Settings, fqdn: string): (rs: seq<Request>)
    ensures |rs| == 6
  {
    Chain(s, s.baseIndex, RagFields(s.analyzer, s.dimensions), ChunkingSkillsetName(s.baseIndex), ChunkingSkill(fqdn))
  }

  function Nl2SqlIndex(base: string, name: string): string {
    base + "-" + name
  }

  function Nl2SqlChain(s: Settings, name: string, text: string, apiKey: string): (rs: seq<Request>)
    ensures |rs| == 6
  {
    var index := Nl2SqlIndex(s.baseIndex, name);
    Chain(s, index, Nl2SqlFields(text, s.analyzer, s.dimensions), EmbedSkillsetName(index),
          EmbeddingSkillFor(index, s.gatewayUrl, s.openaiPath, s.openaiVersion, apiKey, s.deployment,
                            s.model, s.dimensions))
  }

  /** The gateway key of the embedding skill: the secret named by
      AZURE_APIM_SUBSCRIPTION_SECRET_NAME in the key vault. */
  function EmbedKey(env: Env, vault: map<string, string>): (r: Result<string>)
    ensures SecretNameVar !in env ==> r == Exit(MissingEnv([SecretNameVar]))
    ensures SecretNameVar in env && env[SecretNameVar] !in vault ==> r == Exit(SecretNotFound(env[SecretNameVar]))
    ensures r.Ok? <==> SecretNameVar in env && env[SecretNameVar] in vault
    ensures r.Ok? ==> r.value == vault[env[SecretNameVar]]
    ensures r.Exit? ==> r.reason.MissingEnv? || r.reason.SecretNotFound?
  {
    if SecretNameVar !in env then Exit(MissingEnv([SecretNameVar]))
    else if env[SecretNameVar] !in vault then Exit(SecretNotFound(env[SecretNameVar]))
    else Ok(vault[env[SecretNameVar]])
  }

  /** The RAG chain, then the NL2SQL chains in the order the script's dictionary
      lists them. The key is first needed by the queries skillset, so without it
      the run stops right after the queries index is created. */
  function MakePlan(s: Settings, fqdn: string, key: Result<string>): (p: Plan)
    ensures p.stop.Some? <==> key.Exit?
    ensures key.Exit? ==> p.stop.value == key.reason && |p.requests| == 9
    ensures key.Ok? ==> |p.requests| == 24
  {
    var rag := RagChain(s, fqdn);
    if key.Exit? then
      var index := Nl2SqlIndex(s.baseIndex, "queries");
      Plan(rag + [DatasourceRequest(index, s.subscription, s.storageGroup, s.storageAccount, s.storageContainer)]
               + IndexRequests(index, Nl2SqlFields("question", s.analyzer, s.dimensions)),
           Some(key.reason))
    else
      Plan(rag + Nl2SqlChain(s, "queries", "question", key.value) + Nl2SqlChain(s, "tables", "description", key.value)
               + Nl2SqlChain(s, "measures", "description", key.value),
           None)
  }

  /** `get_container_fqdn`: a missing host name ends the process. */
  function ContainerHost(fqdn: Option<string>, container: string): (r: Result<string>)
    ensures r.Ok? <==> fqdn.Some? && fqdn.value != ""
    ensures r.Ok? ==> r.value == fqdn.value
    ensures r.Exit? ==> r.reason == NoFqdn(container)
  {
    if fqdn.None? || fqdn.value == "" then Exit(NoFqdn(container)) else Ok(fqdn.value)
  }

  /** `int(os.environ["AZURE_EMBEDDINGS_VECTOR_SIZE"])`; `toInt` is Python's `int` on strings. */
  function VectorSize(env: Env, toInt: string -> Option<int>): (r: Result<int>)
    requires VectorSizeVar in env
    ensures r.Ok? <==> toInt(env[VectorSizeVar]).Some?
    ensures r.Ok? ==> r.value == toInt(env[VectorSizeVar]).value
    ensures r.Exit? ==> r.reason == NotAnInteger(env[VectorSizeVar])
  {
    var n := toInt(env[VectorSizeVar]);
    if n.None? then Exit(NotAnInteger(env[VectorSizeVar])) else Ok(n.value)
  }

  /** Everything `main` does before its first request. `fqdn` is the container
      group's host name as the management API reports it (None when it has no
      IP address or the lookup fails); `vault` holds the key vault's secrets. */
  function Prepare(env: Env, fqdn: Option<string>, toInt: string -> Option<int>,
                   vault: map<string, string>): (r: Result<Plan>)
    ensures EnvComplete(env) ==> "AZURE_DATA_INGEST_CONTAINER_APP_NAME" in env && VectorSizeVar in env
    ensures r.Ok? <==> EnvComplete(env) && fqdn.Some? && fqdn.value != ""
                       && toInt(env[VectorSizeVar]).Some?
    ensures !EnvComplete(env) ==> r == Exit(MissingEnv(Missing(RequiredVars, env)))
    ensures EnvComplete(env) && (fqdn.None? || fqdn.value == "") ==>
              r == Exit(NoFqdn(env["AZURE_DATA_INGEST_CONTAINER_APP_NAME"]))
    ensures r.Ok? ==> r.value == MakePlan(ReadSettings(env, toInt(env[VectorSizeVar]).value), fqdn.value,
                                          EmbedKey(env, vault))
  {
    var _ :- CheckEnv(RequiredVars, env);
    assert "AZURE_DATA_INGEST_CONTAINER_APP_NAME" in RequiredVars && VectorSizeVar in RequiredVars;
    var host :- ContainerHost(fqdn, env["AZURE_DATA_INGEST_CONTAINER_APP_NAME"]);
    var dimensions :- VectorSize(env, toInt);
    Ok(MakePlan(ReadSettings(env, dimensions), host, EmbedKey(env, vault)))
  }

  /** What a run sent, what it left in the service, and how it ended. */
  datatype SearchRun = SearchRun(calls: seq<Exchange>, service: Service, status: Status)

  /** How a run ends: a failing status wins over the plan's own stop reason,
      which no status can be confused with. */
  function EndStatus(failure: Option<int>, stop: Option<Reason>): (s: Status)
    requires stop.Some? ==> !stop.value.HttpError?
    ensures s.Exited? && s.reason.HttpError? <==> failure.Some?
    ensures failure.Some? ==> s == Exited(HttpError(failure.value))
    ensures failure.None? ==> s == if stop.Some? then Exited(stop.value) else Completed
  {
    if failure.Some? then Exited(HttpError(failure.value))
    else if stop.Some? then Exited(stop.value)
    else Completed
  }

  /** How a run of `n` planned requests that stops at its first failing status
      ends: every exchange before the last was accepted; the run fails with an
      HTTP error exactly when `raise_for_status` raises for the last answer, and
      then with that status; otherwise every request was sent, and the run ends
      for the plan's own stop reason, or completes when there is none. */
  predicate StopsAtFirstFailure(calls: seq<Exchange>, n: nat, stop: Option<Reason>, status: Status) {
    && (forall i :: 0 <= i < |calls| - 1 ==> !Raises(calls[i].status))
    && (status.Exited? && status.reason.HttpError? <==> calls != [] && Raises(calls[|calls| - 1].status))
    && (status.Exited? && status.reason.HttpError? ==> status.reason.status == calls[|calls| - 1].status)
    && (status.Completed? <==> stop.None? && |calls| == n && forall i :: 0 <= i < |calls| ==> !Raises(calls[i].status))
    && (!(status.Exited? && status.reason.HttpError?) ==>
          |calls| == n && status == (if stop.Some? then Exited(stop.value) else Completed))
  }

  /** The requests of a plan sent in order; a failing status ends the run, and
      otherwise the plan's own stop reason does. */
  function RunPlan(p: Plan, svc: Service, respond: Responder): (r: SearchRun)
    requires p.stop.Some? ==> !p.stop.value.HttpError?
    ensures r.calls == Execute(p.requests, svc, respond).calls
    ensures r.service == Execute(p.requests, svc, respond).service
    ensures StopsAtFirstFailure(r.calls, |p.requests|, p.stop, r.status)
  {
    var x := Execute(p.requests, svc, respond);
    EndFacts(x, |p.requests|, p.stop);
    SearchRun(x.calls, x.service, EndStatus(x.failure, p.stop))
  }

  /** The end status chosen from the first failing status and the plan's stop
      reason is the one such a run ends with. */
  lemma EndFacts(x: Sent, n: nat, stop: Option<Reason>)
    requires stop.Some? ==> !stop.value.HttpError?
    requires forall i :: 0 <= i < |x.calls| - 1 ==> !Raises(x.calls[i].status)
    requires x.failure.None? ==> |x.calls| == n && forall i :: 0 <= i < |x.calls| ==> !Raises(x.calls[i].status)
    requires x.failure.Some? ==> x.calls != [] && x.failure.value == x.calls[|x.calls| - 1].status && Raises(x.failure.value)
    ensures StopsAtFirstFailure(x.calls, n, stop, EndStatus(x.failure, stop))
  {
    if x.failure.Some? {
      assert !(forall i :: 0 <= i < |x.calls| ==> !Raises(x.calls[i].status)) by {
        assert Raises(x.calls[|x.calls| - 1].status);
      }
    }
  }

  /** `main`. */
  function Run(env: Env, fqdn: Option<string>, toInt: string -> Option<int>, vault: map<string, string>,
               svc: Service, respond: Responder): (r: SearchRun)
    ensures !EnvComplete(env) ==> r.calls == [] && r.service == svc
                                  && r.status == Exited(MissingEnv(Missing(RequiredVars, env)))
    ensures Prepare(env, fqdn, toInt, vault).Exit? ==>
              r.calls == [] && r.service == svc && r.status == Exited(Prepare(env, fqdn, toInt, vault).reason)
    ensures Prepare(env, fqdn, toInt, vault).Ok? ==>
              var p := Prepare(env, fqdn, toInt, vault).value;
              && Faithful(p.requests, svc, respond, r.calls)
              && StopsAtFirstFailure(r.calls, |p.requests|, p.stop, r.status)
  {
    var p := Prepare(env, fqdn, toInt, vault);
    if p.Exit? then SearchRun([], svc, Exited(p.reason))
    else
      PreparedStop(env, fqdn, toInt, vault);
      RunPlan(p.value, svc, respond)
  }

  /** A prepared plan stops, if at all, for a missing key, never for an HTTP status. */
  lemma PreparedStop(env: Env, fqdn: Option<string>, toInt: string -> Option<int>, vault: map<string, string>)
    requires Prepare(env, fqdn, toInt, vault).Ok?
    ensures var p := Prepare(env, fqdn, toInt, vault).value;
            p.stop.Some? ==> p.stop.value.MissingEnv? || p.stop.value.SecretNotFound?
  {
  }

  // ---------------------------------------------------------------- properties of the plan

  /** A request's method, collection and asset name; puts and only puts carry a body. */
  predicate Targets(r: Request, verb: Method, resourceType: string, name: string) {
    r.verb == verb && r.resourceType == resourceType && r.name == name && (r.body.Some? <==> verb == Put)
  }

  /** From position `at` the requests create one index's assets in order: its
      datasource, the index (delete, then put), the skillset (delete, then put),
      and last the indexer that names all three. */
  predicate ChainAt(rs: seq<Request>, at: nat, index: string, skillset: string) {
    && at + 6 <= |rs|
    && Targets(rs[at], Put, "datasources", DatasourceName(index))
    && Targets(rs[at + 1], Delete, "indexes", index)
    && Targets(rs[at + 2], Put, "indexes", index)
    && Targets(rs[at + 3], Delete, "skillsets", skillset)
    && Targets(rs[at + 4], Put, "skillsets", skillset)
    && Targets(rs[at + 5], Put, "indexers", IndexerName(index))
    && rs[at + 5].body.value.IndexerBody?
    && rs[at + 5].body.value.dataSourceName == DatasourceName(index)
    && rs[at + 5].body.value.targetIndexName == index
    && rs[at + 5].body.value.skillsetName == skillset
  }

  lemma ChainShape(s: Settings, index: string, fields: seq<Field>, skillset: string, skill: Skill)
    ensures ChainAt(Chain(s, index, fields, skillset, skill), 0, index, skillset)
  {
  }

  lemma ChainAtShift(pre: seq<Request>, rs: seq<Request>, post: seq<Request>, index: string, skillset: string)
    requires ChainAt(rs, 0, index, skillset)
    ensures ChainAt(pre + rs + post, |pre|, index, skillset)
  {
    var all := pre + rs + post;
    assert forall k :: 0 <= k < 6 ==> all[|pre| + k] == rs[k];
  }

  /** The RAG index's assets come first, whether or not the gateway key was found. */
  lemma RagChainFirst(s: Settings, fqdn: string, key: Result<string>)
    ensures ChainAt(MakePlan(s, fqdn, key).requests, 0, s.baseIndex, ChunkingSkillsetName(s.baseIndex))
  {
    ChainShape(s, s.baseIndex, RagFields(s.analyzer, s.dimensions), ChunkingSkillsetName(s.baseIndex), ChunkingSkill(fqdn));
    var rs := MakePlan(s, fqdn, key).requests;
    RagChainLeads(s, fqdn, key);
    SplitSix(rs);
    ChainAtShift([], rs[..6], rs[6..], s.baseIndex, ChunkingSkillsetName(s.baseIndex));
  }

  /** Every plan opens with the RAG chain. */
  lemma RagChainLeads(s: Settings, fqdn: string, key: Result<string>)
    ensures |MakePlan(s, fqdn, key).requests| >= 6
    ensures MakePlan(s, fqdn, key).requests[..6] == RagChain(s, fqdn)
  {
    var rag := RagChain(s, fqdn);
    var rs := MakePlan(s, fqdn, key).requests;
    assert rs == rag + rs[6..];
  }

  lemma SplitSix(rs: seq<Request>)
    requires |rs| >= 6
    ensures rs == [] + rs[..6] + rs[6..]
  {
  }

  lemma Nl2SqlChainShape(s: Settings, name: string, text: string, apiKey: string)
    ensures ChainAt(Nl2SqlChain(s, name, text, apiKey), 0, Nl2SqlIndex(s.baseIndex, name),
                    EmbedSkillsetName(Nl2SqlIndex(s.baseIndex, name)))
  {
    var index := Nl2SqlIndex(s.baseIndex, name);
    ChainShape(s, index, Nl2SqlFields(text, s.analyzer, s.dimensions), EmbedSkillsetName(index),
               EmbeddingSkillFor(index, s.gatewayUrl, s.openaiPath, s.openaiVersion, apiKey, s.deployment,
                                 s.model, s.dimensions));
  }

  /** With the gateway key, the queries, tables and measures indexes follow, each
      chain in creation order with its own embedding skillset. */
  lemma Nl2SqlChainsFollow(s: Settings, fqdn: string, key: Result<string>)
    requires key.Ok?
    ensures var rs := MakePlan(s, fqdn, key).requests;
            && ChainAt(rs, 6, Nl2SqlIndex(s.baseIndex, "queries"), EmbedSkillsetName(Nl2SqlIndex(s.baseIndex, "queries")))
            && ChainAt(rs, 12, Nl2SqlIndex(s.baseIndex, "tables"), EmbedSkillsetName(Nl2SqlIndex(s.baseIndex, "tables")))
            && ChainAt(rs, 18, Nl2SqlIndex(s.baseIndex, "measures"), EmbedSkillsetName(Nl2SqlIndex(s.baseIndex, "measures")))
  {
    var rag := RagChain(s, fqdn);
    var rs := MakePlan(s, fqdn, key).requests;
    var q := Nl2SqlChain(s, "queries", "question", key.value);
    var t := Nl2SqlChain(s, "tables", "description", key.value);
    var m := Nl2SqlChain(s, "measures", "description", key.value);
    assert |rag| == 6 && |q| == 6 && |t| == 6;
    assert rs == rag + q + (t + m);
    var iq, it, im := Nl2SqlIndex(s.baseIndex, "queries"), Nl2SqlIndex(s.baseIndex, "tables"),
                      Nl2SqlIndex(s.baseIndex, "measures");
    assert ChainAt(rs, 6, iq, EmbedSkillsetName(iq)) by {
      Nl2SqlChainShape(s, "queries", "question", key.value);
      ChainAtShift(rag, q, t + m, iq, EmbedSkillsetName(iq));
    }
    assert ChainAt(rs, 12, it, EmbedSkillsetName(it)) by {
      Nl2SqlChainShape(s, "tables", "description", key.value);
      assert rs == (rag + q) + t + m;
      ChainAtShift(rag + q, t, m, it, EmbedSkillsetName(it));
    }
    assert ChainAt(rs, 18, im, EmbedSkillsetName(im)) by {
      Nl2SqlChainShape(s, "measures", "description", key.value);
      assert rs == (rag + q + t) + m + [];
      ChainAtShift(rag + q + t, m, [], im, EmbedSkillsetName(im));
    }
  }

  /** Without the gateway key the run gets as far as the queries index. */
  lemma KeyFailurePlan(s: Settings, fqdn: string, key: Result<string>)
    requires key.Exit?
    ensures var rs := MakePlan(s, fqdn, key).requests;
            var q := Nl2SqlIndex(s.baseIndex, "queries");
            && Targets(rs[6], Put, "datasources", DatasourceName(q))
            && Targets(rs[7], Delete, "indexes", q)
            && Targets(rs[8], Put, "indexes", q)
  {
  }

  /** The three facts above together: the plan's order of assets. */
  lemma PlanOrder(s: Settings, fqdn: string, key: Result<string>)
    ensures var rs := MakePlan(s, fqdn, key).requests;
            ChainAt(rs, 0, s.baseIndex, ChunkingSkillsetName(s.baseIndex))
    ensures var rs := MakePlan(s, fqdn, key).requests;
            key.Ok? ==>
              && ChainAt(rs, 6, Nl2SqlIndex(s.baseIndex, "queries"), EmbedSkillsetName(Nl2SqlIndex(s.baseIndex, "queries")))
              && ChainAt(rs, 12, Nl2SqlIndex(s.baseIndex, "tables"), EmbedSkillsetName(Nl2SqlIndex(s.baseIndex, "tables")))
              && ChainAt(rs, 18, Nl2SqlIndex(s.baseIndex, "measures"), EmbedSkillsetName(Nl2SqlIndex(s.baseIndex, "measures")))
    ensures var rs := MakePlan(s, fqdn, key).requests;
            var q := Nl2SqlIndex(s.baseIndex, "queries");
            key.Exit? ==>
              && Targets(rs[6], Put, "datasources", DatasourceName(q))
              && Targets(rs[7], Delete, "indexes", q)
              && Targets(rs[8], Put, "indexes", q)
  {
    RagChainFirst(s, fqdn, key);
    if key.Ok? {
      Nl2SqlChainsFollow(s, fqdn, key);
    } else {
      KeyFailurePlan(s, fqdn, key);
    }
  }

  predicate IsIndexerPut(r: Request) {
    r.verb == Put && r.body.Some? && r.body.value.IndexerBody?
  }

  /** The service holds the datasource, target index and skillset an indexer names. */
  predicate Wired(svc: Service, b: Body)
    requires b.IndexerBody?
  {
    ("datasources", b.dataSourceName) in svc && ("indexes", b.targetIndexName) in svc
      && ("skillsets", b.skillsetName) in svc
  }

  /** Applied in order to `svc`, every indexer put finds what it names already there. */
  predicate DependenciesFirst(svc: Service, rs: seq<Request>) {
    forall i :: 0 <= i < |rs| && IsIndexerPut(rs[i]) ==> Wired(ApplyAll(svc, rs[..i]), rs[i].body.value)
  }

  lemma ChainDependencies(svc: Service, s: Settings, index: string, fields: seq<Field>, skillset: string, skill: Skill)
    ensures DependenciesFirst(svc, Chain(s, index, fields, skillset, skill))
  {
    var rs := Chain(s, index, fields, skillset, skill);
    forall i | 0 <= i < |rs| && IsIndexerPut(rs[i])
      ensures Wired(ApplyAll(svc, rs[..i]), rs[i].body.value)
    {
      assert i == 5;
      var pre := rs[..5];
      LastPutHolds(svc, pre, 0);
      LastPutHolds(svc, pre, 2);
      LastPutHolds(svc, pre, 4);
    }
  }

  /** An indexer of the first part finds what it found without the second. */
  lemma ConcatLeft(svc: Service, a: seq<Request>, b: seq<Request>, i: nat)
    requires DependenciesFirst(svc, a) && i < |a| && IsIndexerPut((a + b)[i])
    ensures Wired(ApplyAll(svc, (a + b)[..i]), (a + b)[i].body.value)
  {
    assert (a + b)[..i] == a[..i] && (a + b)[i] == a[i];
  }

  /** An indexer of the second part finds what it found starting from the state the first part left. */
  lemma ConcatRight(svc: Service, a: seq<Request>, b: seq<Request>, i: nat)
    requires DependenciesFirst(ApplyAll(svc, a), b) && |a| <= i < |a + b| && IsIndexerPut((a + b)[i])
    ensures Wired(ApplyAll(svc, (a + b)[..i]), (a + b)[i].body.value)
  {
    var k := i - |a|;
    assert (a + b)[..i] == a + b[..k] && (a + b)[i] == b[k];
    assert IsIndexerPut(b[k]);
    ApplyAllAppend(svc, a, b[..k]);
  }

  lemma DependenciesConcat(svc: Service, a: seq<Request>, b: seq<Request>)
    requires DependenciesFirst(svc, a) && DependenciesFirst(ApplyAll(svc, a), b)
    ensures DependenciesFirst(svc, a + b)
  {
    forall i | 0 <= i < |a + b| && IsIndexerPut((a + b)[i])
      ensures Wired(ApplyAll(svc, (a + b)[..i]), (a + b)[i].body.value)
    {
      if i < |a| {
        ConcatLeft(svc, a, b, i);
      } else {
        ConcatRight(svc, a, b, i);
      }
    }
  }

  /** Whatever the service held before, each indexer of the plan is created only
      after its datasource, target index and skillset. */
  lemma {:induction false} PlanDependenciesFirst(svc: Service, s: Settings, fqdn: string, key: Result<string>)
    ensures DependenciesFirst(svc, MakePlan(s, fqdn, key).requests)
  {
    var rag := RagChain(s, fqdn);
    ChainDependencies(svc, s, s.baseIndex, RagFields(s.analyzer, s.dimensions), ChunkingSkillsetName(s.baseIndex),
                      ChunkingSkill(fqdn));
    if key.Exit? {
      var q := Nl2SqlIndex(s.baseIndex, "queries");
      var tail := [DatasourceRequest(q, s.subscription, s.storageGroup, s.storageAccount, s.storageContainer)]
                  + IndexRequests(q, Nl2SqlFields("question", s.analyzer, s.dimensions));
      assert forall i :: 0 <= i < |tail| ==> !IsIndexerPut(tail[i]);
      assert DependenciesFirst(ApplyAll(svc, rag), tail);
      assert MakePlan(s, fqdn, key).requests == rag + tail;
      DependenciesConcat(svc, rag, tail);
    } else {
      var q := Nl2SqlChain(s, "queries", "question", key.value);
      var t := Nl2SqlChain(s, "tables", "description", key.value);
      var m := Nl2SqlChain(s, "measures", "description", key.value);
      var qi, ti, mi := Nl2SqlIndex(s.baseIndex, "queries"), Nl2SqlIndex(s.baseIndex, "tables"), Nl2SqlIndex(s.baseIndex, "measures");
      var sk := EmbeddingSkillFor(qi, s.gatewayUrl, s.openaiPath, s.openaiVersion, key.value, s.deployment,
                                  s.model, s.dimensions);
      ChainDependencies(ApplyAll(svc, rag), s, qi, Nl2SqlFields("question", s.analyzer, s.dimensions),
                        EmbedSkillsetName(qi), sk);
      DependenciesConcat(svc, rag, q);
      sk := EmbeddingSkillFor(ti, s.gatewayUrl, s.openaiPath, s.openaiVersion, key.value, s.deployment,
                              s.model, s.dimensions);
      ChainDependencies(ApplyAll(svc, rag + q), s, ti, Nl2SqlFields("description", s.analyzer, s.dimensions),
                        EmbedSkillsetName(ti), sk);
      DependenciesConcat(svc, rag + q, t);
      sk := EmbeddingSkillFor(mi, s.gatewayUrl, s.openaiPath, s.openaiVersion, key.value, s.deployment,
                              s.model, s.dimensions);
      ChainDependencies(ApplyAll(svc, rag + q + t), s, mi, Nl2SqlFields("description", s.analyzer, s.dimensions),
                        EmbedSkillsetName(mi), sk);
      DependenciesConcat(svc, rag + q + t, m);
    }
  }

  /** In every run, an indexer put reaches the service only when the service
      already holds the datasource, target index and skillset it names. */
  lemma IndexersFindDependencies(env: Env, fqdn: Option<string>, toInt: string -> Option<int>,
                                 vault: map<string, string>, svc: Service, respond: Responder)
    ensures var r := Run(env, fqdn, toInt, vault, svc, respond);
            forall i :: 0 <= i < |r.calls| && IsIndexerPut(r.calls[i].request) ==>
              Wired(r.calls[i].before, r.calls[i].request.body.value)
  {
    var pr := Prepare(env, fqdn, toInt, vault);
    if pr.Ok? {
      var s := ReadSettings(env, toInt(env[VectorSizeVar]).value);
      assert pr.value == MakePlan(s, fqdn.value, EmbedKey(env, vault));
      PlanDependenciesFirst(svc, s, fqdn.value, EmbedKey(env, vault));
    }
  }

  /** The embedding endpoint: the gateway without its trailing slashes, the
      OpenAI path, and the API version. */
  function EmbeddingUri(s: Settings): string {
    RStripSlash(s.gatewayUrl) + "/" + s.openaiPath + "?api-version=" + s.openaiVersion
  }

  /** What every request of a run agrees on: a body names the asset its address
      names, datasources read the configured storage container, every vector field
      has the configured size, embedding skills call the gateway with the vault's
      key, and indexers run on the configured schedule. */
  predicate Consistent(s: Settings, key: Result<string>, r: Request) {
    r.body.Some? ==>
      var b := r.body.value;
      && b.name == r.name
      && (b.DatasourceBody? ==>
            && r.resourceType == "datasources"
            && b.managedIdentityResourceId == StorageResourceId(s.subscription, s.storageGroup, s.storageAccount)
            && b.container == s.storageContainer)
      && (b.IndexBody? ==>
            && r.resourceType == "indexes"
            && forall f :: f in b.fields && f.name == "contentVector" ==> f.dimensions == Some(s.dimensions))
      && (b.SkillsetBody? ==>
            && r.resourceType == "skillsets"
            && forall k :: k in b.skills && k.EmbeddingSkill? ==>
                 key.Ok? && k.apiKey == key.value && k.resourceUri == EmbeddingUri(s) && k.dimensions == s.dimensions)
      && (b.IndexerBody? ==> r.resourceType == "indexers" && b.interval == s.interval)
  }

  lemma ChainConsistent(s: Settings, key: Result<string>, index: string, fields: seq<Field>, skillset: string,
                        skill: Skill)
    requires forall f :: f in fields && f.name == "contentVector" ==> f.dimensions == Some(s.dimensions)
    requires skill.EmbeddingSkill? ==>
               key.Ok? && skill.apiKey == key.value && skill.resourceUri == EmbeddingUri(s)
               && skill.dimensions == s.dimensions
    ensures forall r :: r in Chain(s, index, fields, skillset, skill) ==> Consistent(s, key, r)
  {
    var rs := Chain(s, index, fields, skillset, skill);
    assert forall k :: k in rs[4].body.value.skills ==> k == skill;
  }

  lemma PlanConsistent(s: Settings, fqdn: string, key: Result<string>)
    ensures forall r :: r in MakePlan(s, fqdn, key).requests ==> Consistent(s, key, r)
  {
    ChainConsistent(s, key, s.baseIndex, RagFields(s.analyzer, s.dimensions), ChunkingSkillsetName(s.baseIndex),
                    ChunkingSkill(fqdn));
    if key.Ok? {
      KeyedPlanConsistent(s, fqdn, key);
    } else {
      KeylessPlanConsistent(s, fqdn, key);
    }
  }

  lemma KeyedPlanConsistent(s: Settings, fqdn: string, key: Result<string>)
    requires key.Ok?
    requires forall r :: r in RagChain(s, fqdn) ==> Consistent(s, key, r)
    ensures forall r :: r in MakePlan(s, fqdn, key).requests ==> Consistent(s, key, r)
  {
    var rag := RagChain(s, fqdn);
    var a, b, c := Nl2SqlChain(s, "queries", "question", key.value), Nl2SqlChain(s, "tables", "description", key.value),
                   Nl2SqlChain(s, "measures", "description", key.value);
    Nl2SqlChainsConsistent(s, key);
    ConsistentJoin(s, key, rag, a);
    ConsistentJoin(s, key, rag + a, b);
    ConsistentJoin(s, key, rag + a + b, c);
  }

  lemma KeylessPlanConsistent(s: Settings, fqdn: string, key: Result<string>)
    requires key.Exit?
    requires forall r :: r in RagChain(s, fqdn) ==> Consistent(s, key, r)
    ensures forall r :: r in MakePlan(s, fqdn, key).requests ==> Consistent(s, key, r)
  {
    var q := Nl2SqlIndex(s.baseIndex, "queries");
    var tail := [DatasourceRequest(q, s.subscription, s.storageGroup, s.storageAccount, s.storageContainer)]
                + IndexRequests(q, Nl2SqlFields("question", s.analyzer, s.dimensions));
    assert forall r :: r in tail ==> Consistent(s, key, r);
    ConsistentJoin(s, key, RagChain(s, fqdn), tail);
  }

  lemma ConsistentJoin(s: Settings, key: Result<string>, a: seq<Request>, b: seq<Request>)
    requires forall r :: r in a ==> Consistent(s, key, r)
    requires forall r :: r in b ==> Consistent(s, key, r)
    ensures forall r :: r in a + b ==> Consistent(s, key, r)
  {
  }

  lemma Nl2SqlChainsConsistent(s: Settings, key: Result<string>)
    requires key.Ok?
    ensures forall r :: r in Nl2SqlChain(s, "queries", "question", key.value) ==> Consistent(s, key, r)
    ensures forall r :: r in Nl2SqlChain(s, "tables", "description", key.value) ==> Consistent(s, key, r)
    ensures forall r :: r in Nl2SqlChain(s, "measures", "description", key.value) ==> Consistent(s, key, r)
  {
    var names := ["queries", "tables", "measures"];
    var texts := ["question", "description", "description"];
    forall c | 0 <= c < 3
      ensures forall r :: r in Nl2SqlChain(s, names[c], texts[c], key.value) ==> Consistent(s, key, r)
    {
      var index := Nl2SqlIndex(s.baseIndex, names[c]);
      ChainConsistent(s, key, index, Nl2SqlFields(texts[c], s.analyzer, s.dimensions), EmbedSkillsetName(index),
                      EmbeddingSkillFor(index, s.gatewayUrl, s.openaiPath, s.openaiVersion, key.value,
                                        s.deployment, s.model, s.dimensions));
    }
    assert names[0] == "queries" && names[1] == "tables" && names[2] == "measures";
    assert texts[0] == "question" && texts[1] == "description" && texts[2] == "description";
  }

  /** The answers Azure AI Search gives these calls: deleting an asset that does
      not exist is 404 Not Found, and every other request succeeds. */
  function Strict(r: Request, svc: Service): (status: int)
    ensures Raises(status) <==> r.verb == Delete && Key(r) !in svc
  {
    if r.verb == Delete && Key(r) !in svc then 404 else 200
  }

  /** The generic form: a plan that opens with a chain for `index` stops at that
      chain's index delete when the service does not hold the index. */
  lemma {:induction false} MissingIndexStopsChain(p: Plan, index: string, skillset: string, svc: Service)
    requires p.stop.Some? ==> !p.stop.value.HttpError?
    requires ChainAt(p.requests, 0, index, skillset) && ("indexes", index) !in svc
    ensures var r := RunPlan(p, svc, Strict);
            && |r.calls| == 2
            && r.calls[0].request == p.requests[0] && r.calls[1].request == p.requests[1]
            && r.status == Exited(HttpError(404))
  {
    var rs := p.requests;
    var r := RunPlan(p, svc, Strict);
    assert rs[..1] == [rs[0]] && rs[..0] == [];
    assert ApplyAll(svc, rs[..1]) == Apply(svc, rs[0]);
    assert Key(rs[1]) !in Apply(svc, rs[0]);
    assert |r.calls| >= 1 ==> !Raises(r.calls[0].status);
    assert |r.calls| >= 2 ==> r.calls[1].status == 404;
  }

  /** Against a service that does not yet hold the base index, the run ends at
      the index delete that precedes its creation: the datasource is created,
      the delete answers 404, and nothing else is sent. */
  lemma FreshServiceStopsAtIndexDelete(env: Env, fqdn: Option<string>, toInt: string -> Option<int>,
                                       vault: map<string, string>, svc: Service)
    requires Prepare(env, fqdn, toInt, vault).Ok? && "AZURE_SEARCH_INDEX_NAME" in env
    requires ("indexes", env["AZURE_SEARCH_INDEX_NAME"]) !in svc
    ensures var r := Run(env, fqdn, toInt, vault, svc, Strict);
            && |r.calls| == 2
            && Targets(r.calls[0].request, Put, "datasources", DatasourceName(env["AZURE_SEARCH_INDEX_NAME"]))
            && Targets(r.calls[1].request, Delete, "indexes", env["AZURE_SEARCH_INDEX_NAME"])
            && r.status == Exited(HttpError(404))
  {
    var s := ReadSettings(env, toInt(env[VectorSizeVar]).value);
    var key := EmbedKey(env, vault);
    var p := MakePlan(s, fqdn.value, key);
    PlanOrder(s, fqdn.value, key);
    assert Run(env, fqdn, toInt, vault, svc, Strict) == RunPlan(p, svc, Strict);
    MissingIndexStopsChain(p, s.baseIndex, ChunkingSkillsetName(s.baseIndex), svc);
  }

  /** AZURE_APIM_SUBSCRIPTION_SECRET_NAME is not among the variables the run checks up front. */
  lemma SecretNameUnchecked()
    ensures SecretNameVar !in RequiredVars
  {
  }

  /** A plan whose every request is accepted is sent in full and ends for its own reason. */
  lemma {:induction false} AcceptedPlanRunsToEnd(p: Plan, svc: Service, respond: Responder)
    requires p.stop.Some? ==> !p.stop.value.HttpError?
    requires forall q, st :: !Raises(respond(q, st))
    ensures var r := RunPlan(p, svc, respond);
            && |r.calls| == |p.requests|
            && (forall i :: 0 <= i < |r.calls| ==> r.calls[i].request == p.requests[i])
            && r.status == (if p.stop.Some? then Exited(p.stop.value) else Completed)
  {
    var r := RunPlan(p, svc, respond);
    assert !(r.calls != [] && Raises(r.calls[|r.calls| - 1].status));
  }

  /** A status of 600 or more is not an error to `raise_for_status`: a service
      answering 600 to everything is sent the whole plan. */
  lemma StatusAboveServerErrorsContinues(p: Plan, svc: Service)
    requires p.stop.Some? ==> !p.stop.value.HttpError?
    ensures var r := RunPlan(p, svc, (q: Request, st: Service) => 600);
            && |r.calls| == |p.requests|
            && r.status == (if p.stop.Some? then Exited(p.stop.value) else Completed)
  {
    AcceptedPlanRunsToEnd(p, svc, (q: Request, st: Service) => 600);
  }

  /** After a run that no failing status ended, the service holds every asset
      as the last request for it left it: a put that no later request touches
      is what the service stores. */
  lemma AcceptedRunKeepsLastPuts(p: Plan, svc: Service, respond: Responder, i: nat)
    requires p.stop.Some? ==> !p.stop.value.HttpError?
    requires !(RunPlan(p, svc, respond).status.Exited? && RunPlan(p, svc, respond).status.reason.HttpError?)
    requires i < |p.requests| && p.requests[i].verb == Put && p.requests[i].body.Some?
    requires forall j :: i < j < |p.requests| ==> Key(p.requests[j]) != Key(p.requests[i])
    ensures var r := RunPlan(p, svc, respond);
            && r.service == ApplyAll(svc, p.requests)
            && Key(p.requests[i]) in r.service
            && r.service[Key(p.requests[i])] == p.requests[i].body.value
  {
    var x := Execute(p.requests, svc, respond);
    assert x.failure.None?;
    LastPutHolds(svc, p.requests, i);
  }

  /** When the gateway key cannot be read (its variable unset, or no such secret
      in the vault), a run whose every request succeeds still ends with status 1,
      after nine requests: the whole RAG chain and the queries datasource and
      index. */
  lemma KeyFailureStopsAfterQueriesIndex(env: Env, fqdn: Option<string>, toInt: string -> Option<int>,
                                         vault: map<string, string>, svc: Service, respond: Responder)
    requires Prepare(env, fqdn, toInt, vault).Ok? && EmbedKey(env, vault).Exit? && "AZURE_SEARCH_INDEX_NAME" in env
    requires forall q, st :: !Raises(respond(q, st))
    ensures var r := Run(env, fqdn, toInt, vault, svc, respond);
            && |r.calls| == 9
            && Targets(r.calls[8].request, Put, "indexes", Nl2SqlIndex(env["AZURE_SEARCH_INDEX_NAME"], "queries"))
            && r.status == Exited(EmbedKey(env, vault).reason)
  {
    var s := ReadSettings(env, toInt(env[VectorSizeVar]).value);
    var key := EmbedKey(env, vault);
    var p := MakePlan(s, fqdn.value, key);
    PlanOrder(s, fqdn.value, key);
    assert Run(env, fqdn, toInt, vault, svc, respond) == RunPlan(p, svc, respond);
    AcceptedPlanRunsToEnd(p, svc, respond);
  }
}

=== FILE: seedconfig.dfy ===
/** scripts/appconfig/seedconfig.py: upper-case the names of an ARM
    deployment's outputs, store the PROVISION_CONFIG output as one JSON
    document, then store each member of the APP_SETTINGS output as its own
    setting. Every write goes under the null label. */
module SeedConfig {
  import opened Common
  import opened JsonModel
  import opened ConfigStore

  const RequiredVars: seq<string> := [
    "AZURE_SUBSCRIPTION_ID", "AZURE_RESOURCE_GROUP", "AZURE_DEPLOYMENT_NAME", "AZURE_APP_CONFIG_ENDPOINT"]

  // ---------------------------------------------------------------- key normalisation

  /** `str.upper()` on one character, for the ASCII letters. */
  function UpperChar(c: char): char {
    if 'a' <= c <= 'z' then (c as int - 32) as char else c
  }

  predicate IsLower(c: char) {
    'a' <= c <= 'z'
  }

  function Upper(s: string): (u: string)
    ensures |u| == |s|
    ensures forall i :: 0 <= i < |s| ==> !IsLower(u[i])
    ensures forall i :: 0 <= i < |s| && !IsLower(s[i]) ==> u[i] == s[i]
    ensures forall i :: 0 <= i < |s| && IsLower(s[i]) ==> u[i] as int == s[i] as int - 32
  {
    seq(|s|, i requires 0 <= i < |s| => UpperChar(s[i]))
  }

  /** A name with no lower-case letter. */
  predicate AllUpper(s: string) {
    forall i :: 0 <= i < |s| ==> !IsLower(s[i])
  }

  /** Upper-casing leaves such a name as it is, and always produces one. */
  lemma UpperFixes(s: string)
    ensures AllUpper(Upper(s))
    ensures AllUpper(s) <==> Upper(s) == s
  {
  }

  /** Upper-casing twice changes nothing more than upper-casing once. */
  lemma UpperIdempotent(s: string)
    ensures Upper(Upper(s)) == Upper(s)
  {
  }

  /** Python's `d[key] = v`: an existing key keeps its place and takes the new
      value, a new key goes last. */
  function Insert(m: seq<(string, Json)>, key: string, v: Json): (r: seq<(string, Json)>)
    ensures key !in Keys(m) ==> r == m + [(key, v)]
    ensures key in Keys(m) ==> |r| == |m|
    ensures Keys(r) == if key in Keys(m) then Keys(m) else Keys(m) + [key]
    decreases |m|
  {
    if m == [] then [(key, v)]
    else if m[0].0 == key then
      var r := [(key, v)] + m[1..];
      assert Keys(r) == [key] + Keys(m[1..]) && Keys(m) == [key] + Keys(m[1..]);
      r
    else
      var rest := Insert(m[1..], key, v);
      var r := [m[0]] + rest;
      assert r[1..] == rest;
      assert Keys(r) == [m[0].0] + Keys(rest);
      assert Keys(m) == [m[0].0] + Keys(m[1..]);
      assert key !in Keys(m) ==> m == [m[0]] + m[1..];
      r
  }

  /** After `d[key] = v`, `d.get(key)` is `v` and every other lookup is unchanged. */
  lemma {:induction false} InsertGet(m: seq<(string, Json)>, key: string, v: Json, k: string)
    ensures Get(Insert(m, key, v), k) == if k == key then Some(v) else Get(m, k)
    decreases |m|
  {
    if m != [] && m[0].0 != key {
      InsertGet(m[1..], key, v, k);
      assert Insert(m, key, v) == [m[0]] + Insert(m[1..], key, v);
      assert ([m[0]] + Insert(m[1..], key, v))[1..] == Insert(m[1..], key, v);
    } else if m != [] {
      assert Insert(m, key, v)[1..] == m[1..];
    }
  }

  /** Assignment keeps a dict's keys distinct. */
  lemma {:induction false} InsertUnique(m: seq<(string, Json)>, key: string, v: Json)
    requires UniqueKeys(m)
    ensures UniqueKeys(Insert(m, key, v))
    decreases |m|
  {
    var r := Insert(m, key, v);
    if m != [] && m[0].0 != key {
      var tail := m[1..];
      assert UniqueKeys(tail) by {
        forall i, j | 0 <= i < j < |tail|
          ensures tail[i].0 != tail[j].0
        {
          assert tail[i] == m[i + 1] && tail[j] == m[j + 1];
        }
      }
      InsertUnique(tail, key, v);
      var rest := Insert(tail, key, v);
      assert m[0].0 !in Keys(tail) by {
        forall j | 0 <= j < |tail|
          ensures Keys(tail)[j] != m[0].0
        {
          assert tail[j] == m[j + 1];
        }
      }
      assert m[0].0 !in Keys(rest);
      assert r == [m[0]] + rest;
      forall i, j | 0 <= i < j < |r|
        ensures r[i].0 != r[j].0
      {
        if i == 0 {
          assert r[j].0 == Keys(rest)[j - 1];
        } else {
          assert r[i] == rest[i - 1] && r[j] == rest[j - 1];
        }
      }
    } else if m != [] {
      assert r == [(key, v)] + m[1..];
      forall i, j | 0 <= i < j < |r|
        ensures r[i].0 != r[j].0
      {
        assert r[j] == m[j];
        if i > 0 {
          assert r[i] == m[i];
        }
      }
    }
  }

  /** `{k.upper(): v for k, v in raw.items()}`. */
  function Normalise(raw: seq<(string, Json)>): (out: seq<(string, Json)>)
    ensures UniqueKeys(out)
    decreases |raw|
  {
    if raw == [] then []
    else
      var last := raw[|raw| - 1];
      var init := Normalise(raw[..|raw| - 1]);
      InsertUnique(init, Upper(last.0), last.1);
      Insert(init, Upper(last.0), last.1)
  }

  /** The reference reading of the comprehension: the value of the last member
      whose upper-cased key is `k`. */
  function LastWith(raw: seq<(string, Json)>, k: string): Option<Json>
    decreases |raw|
  {
    if raw == [] then None
    else if Upper(raw[|raw| - 1].0) == k then Some(raw[|raw| - 1].1)
    else LastWith(raw[..|raw| - 1], k)
  }

  lemma {:induction false} NormaliseLookup(raw: seq<(string, Json)>, k: string)
    ensures Get(Normalise(raw), k) == LastWith(raw, k)
    decreases |raw|
  {
    if raw != [] {
      var last := raw[|raw| - 1];
      NormaliseLookup(raw[..|raw| - 1], k);
      InsertGet(Normalise(raw[..|raw| - 1]), Upper(last.0), last.1, k);
    }
  }

  /** Every output can be found under its upper-cased name. */
  lemma {:induction false} NormaliseFinds(raw: seq<(string, Json)>, i: nat)
    requires i < |raw|
    ensures Upper(raw[i].0) in Keys(Normalise(raw))
    decreases |raw|
  {
    NormaliseLookup(raw, Upper(raw[i].0));
    if i < |raw| - 1 {
      NormaliseFinds(raw[..|raw| - 1], i);
      NormaliseLookup(raw[..|raw| - 1], Upper(raw[i].0));
    }
  }

  /** Dropping the last member of a dict keeps its keys distinct and upper case,
      and the dropped key is not among the rest. */
  lemma DropLast(raw: seq<(string, Json)>)
    requires raw != [] && UniqueKeys(raw)
    requires forall i :: 0 <= i < |raw| ==> AllUpper(raw[i].0)
    ensures var init := raw[..|raw| - 1];
            && UniqueKeys(init)
            && (forall i :: 0 <= i < |init| ==> AllUpper(init[i].0))
            && raw[|raw| - 1].0 !in Keys(init)
  {
    var init := raw[..|raw| - 1];
    forall j | 0 <= j < |init|
      ensures Keys(init)[j] != raw[|raw| - 1].0
    {
      assert init[j] == raw[j];
    }
  }

  /** The comprehension over one more output assigns its upper-cased name last. */
  lemma NormaliseSnoc(raw: seq<(string, Json)>)
    requires raw != []
    ensures Normalise(raw) == Insert(Normalise(raw[..|raw| - 1]), Upper(raw[|raw| - 1].0), raw[|raw| - 1].1)
  {
  }

  /** One more output under a fresh upper-case name is appended as it is. */
  lemma SnocFresh(raw: seq<(string, Json)>)
    requires raw != [] && AllUpper(raw[|raw| - 1].0)
    requires Normalise(raw[..|raw| - 1]) == raw[..|raw| - 1]
    requires raw[|raw| - 1].0 !in Keys(raw[..|raw| - 1])
    ensures Normalise(raw) == raw
  {
    var init, last := raw[..|raw| - 1], raw[|raw| - 1];
    NormaliseSnoc(raw);
    UpperKeeps(last.0);
    assert Normalise(raw) == init + [(last.0, last.1)];
    SnocLast(raw);
  }

  lemma UpperKeeps(s: string)
    requires AllUpper(s)
    ensures Upper(s) == s
  {
    UpperFixes(s);
  }

  lemma SnocLast(raw: seq<(string, Json)>)
    requires raw != []
    ensures raw[..|raw| - 1] + [(raw[|raw| - 1].0, raw[|raw| - 1].1)] == raw
  {
  }

  /** Outputs whose names are already upper case and distinct pass through unchanged. */
  lemma {:induction false} NormaliseIdentity(raw: seq<(string, Json)>)
    requires UniqueKeys(raw)
    requires forall i :: 0 <= i < |raw| ==> AllUpper(raw[i].0)
    ensures Normalise(raw) == raw
    decreases |raw|
  {
    if raw != [] {
      var init := raw[..|raw| - 1];
      var last := raw[|raw| - 1];
      NormaliseIdentity(init);
      DropLast(raw);
      assert AllUpper(last.0);
      SnocFresh(raw);
    }
  }

  // ---------------------------------------------------------------- the run

  /** Steps 5 and 6 of `main`, given the lookups of the PROVISION_CONFIG and
      APP_SETTINGS outputs. The PROVISION_CONFIG write happens before the script
      calls `items()` on that value and before it looks at APP_SETTINGS, so a
      failure there leaves that one write behind. */
  function Upload(pc: Result<Json>, app: Result<Json>): (o: Outcome<Setting>)
    ensures pc.Exit? ==> o == Outcome([], Exited(pc.reason))
    ensures o.calls != [] ==> pc.Ok? && o.calls[0] == Setting("PROVISION_CONFIG", None, Dumps(pc.value))
    ensures o.status.Completed? <==> pc.Ok? && pc.value.JObject? && app.Ok? && app.value.JObject?
    ensures o.status.Completed? ==>
              o.calls == [Setting("PROVISION_CONFIG", None, Dumps(pc.value))] + Writes(app.value.members)
    ensures pc.Ok? && pc.value.JObject? && app.Exit? ==>
              o == Outcome([Setting("PROVISION_CONFIG", None, Dumps(pc.value))], Exited(app.reason))
    ensures |o.calls| <= 1 || o.status.Completed?
  {
    match pc
    case Exit(reason) => Outcome([], Exited(reason))
    case Ok(config) =>
      var first := Setting("PROVISION_CONFIG", None, Dumps(config));
      if !config.JObject? then Outcome([first], Exited(TypeError("items")))
      else if app.Exit? then Outcome([first], Exited(app.reason))
      else if !app.value.JObject? then Outcome([first], Exited(TypeError("items")))
      else Outcome([first] + Writes(app.value.members), Completed)
  }

  /** The deployment outputs with their names upper-cased. */
  function Normalised(rawOutputs: Json): (outputs: Json)
    requires rawOutputs.JObject?
    ensures outputs.JObject? && UniqueKeys(outputs.members)
  {
    JObject(Normalise(rawOutputs.members))
  }

  /** `main`. `rawOutputs` is the deployment's `properties.outputs`, whose
      names are upper-cased before anything is looked up. */
  function Seed(env: Env, rawOutputs: Json): (o: Outcome<Setting>)
    ensures !(forall v :: v in RequiredVars ==> IsSet(env, v)) ==>
              o == Outcome([], Exited(MissingEnv(Missing(RequiredVars, env))))
    ensures (forall v :: v in RequiredVars ==> IsSet(env, v)) && !rawOutputs.JObject? ==>
              o == Outcome([], Exited(TypeError("items")))
    ensures (forall v :: v in RequiredVars ==> IsSet(env, v)) && rawOutputs.JObject? ==>
              o == Upload(OutputValue(Normalised(rawOutputs), "PROVISION_CONFIG"),
                          OutputValue(Normalised(rawOutputs), "APP_SETTINGS"))
  {
    match CheckEnv(RequiredVars, env)
    case Exit(reason) => Outcome([], Exited(reason))
    case Ok(_) =>
      if !rawOutputs.JObject? then Outcome([], Exited(TypeError("items")))
      else
        var outputs := Normalised(rawOutputs);
        Upload(OutputValue(outputs, "PROVISION_CONFIG"), OutputValue(outputs, "APP_SETTINGS"))
  }

  /** After a completed upload the store holds PROVISION_CONFIG as the JSON dump
      of that output, unless an app setting of the same name overwrote it. */
  lemma ProvisionConfigStored(store: Store, pc: Result<Json>, app: Result<Json>)
    requires Upload(pc, app).status.Completed?
    requires "PROVISION_CONFIG" !in Keys(app.value.members)
    ensures var after := ApplyWrites(store, Upload(pc, app).calls);
            && ("PROVISION_CONFIG", None) in after
            && after[("PROVISION_CONFIG", None)] == Dumps(pc.value)
  {
    var ws := Upload(pc, app).calls;
    var kvs := app.value.members;
    forall j | 0 < j < |ws|
      ensures ws[j].Slot() != ws[0].Slot()
    {
      assert ws[j] == Writes(kvs)[j - 1];
      assert Keys(kvs)[j - 1] == kvs[j - 1].0;
    }
    LastWriteWins(store, ws, 0);
  }

  /** Member `i` is the last one of `raw` whose upper-cased name is `k`. */
  predicate LastNamed(raw: seq<(string, Json)>, k: string, i: int) {
    0 <= i < |raw| && Upper(raw[i].0) == k && forall j :: i < j < |raw| ==> Upper(raw[j].0) != k
  }

  /** `LastWith` finds a value exactly when some member's upper-cased name is `k`. */
  lemma {:induction false} LastWithFinds(raw: seq<(string, Json)>, k: string)
    ensures LastWith(raw, k).Some? <==> exists i :: 0 <= i < |raw| && Upper(raw[i].0) == k
    decreases |raw|
  {
    if raw != [] {
      var n := |raw| - 1;
      var init := raw[..n];
      LastWithFinds(init, k);
      if Upper(raw[n].0) != k {
        assert LastWith(raw, k) == LastWith(init, k);
        if exists i :: 0 <= i < |raw| && Upper(raw[i].0) == k {
          var i :| 0 <= i < |raw| && Upper(raw[i].0) == k;
          assert init[i] == raw[i];
        }
      }
    }
  }

  /** The value `LastWith` finds is that of the last member named `k`. */
  lemma {:induction false} LastWithIsLast(raw: seq<(string, Json)>, k: string)
    ensures forall i :: LastNamed(raw, k, i) ==> LastWith(raw, k) == Some(raw[i].1)
    decreases |raw|
  {
    if raw != [] {
      var n := |raw| - 1;
      var init := raw[..n];
      LastWithIsLast(init, k);
      if Upper(raw[n].0) == k {
        forall i | LastNamed(raw, k, i)
          ensures i == n
        {
        }
      } else {
        assert LastWith(raw, k) == LastWith(init, k);
        forall i | LastNamed(raw, k, i)
          ensures LastNamed(init, k, i)
        {
          assert init[i] == raw[i];
        }
      }
    }
  }

  /** The output names are matched without regard to ASCII case: an output
      named in any case is found when some output upper-cases to the same
      name, and when several names differ only in case the last one wins. */
  lemma OutputsMatchedIgnoringCase(raw: seq<(string, Json)>, name: string)
    ensures var outputs := Normalise(raw);
            && (Get(outputs, Upper(name)).Some? <==> exists i :: 0 <= i < |raw| && Upper(raw[i].0) == Upper(name))
            && forall i :: LastNamed(raw, Upper(name), i) ==> Get(outputs, Upper(name)) == Some(raw[i].1)
  {
    NormaliseLookup(raw, Upper(name));
    LastWithFinds(raw, Upper(name));
    LastWithIsLast(raw, Upper(name));
  }
}

=== FILE: template.dfy ===
/** Template resolution of config/aifoundry/aifoundry_setup.py: `interpolate`
    replaces every `{KEY}` (a match of `\{(\w+)\}`) by the required value of
    KEY under label `infra`, in one left-to-right pass over the template, and
    `resolve_resource_id` gives a string that is exactly `{OUTER.INNER}` the
    INNER attribute of OUTER's JSON value instead. */
module Template {
  import opened Common
  import opened JsonModel
  import opened ConfigStore

  // ---------------------------------------------------------------- the pattern

  /** Python's `\w`, restricted to ASCII: letters, digits and underscore. */
  predicate IsWordChar(c: char) {
    ('a' <= c <= 'z') || ('A' <= c <= 'Z') || ('0' <= c <= '9') || c == '_'
  }

  predicate AllWord(s: string) {
    forall i :: 0 <= i < |s| ==> IsWordChar(s[i])
  }

  /** A match of `\w+`. */
  predicate IsKey(s: string) {
    |s| > 0 && AllWord(s)
  }

  /** `t[i..j+1]` is a match of `\{(\w+)\}`. */
  predicate PlaceholderAt(t: string, i: int, j: int) {
    0 <= i && i + 1 < j < |t| && t[i] == '{' && t[j] == '}' && AllWord(t[i + 1..j])
  }

  /** The reference meaning of "the template holds no placeholder". */
  ghost predicate NoPlaceholder(t: string) {
    forall i, j :: !PlaceholderAt(t, i, j)
  }

  /** The length of the longest prefix of word characters. */
  function WordRun(s: string): (n: nat)
    ensures n <= |s|
    ensures AllWord(s[..n])
    ensures n < |s| ==> !IsWordChar(s[n])
  {
    if s == [] || !IsWordChar(s[0]) then 0
    else
      var n := 1 + WordRun(s[1..]);
      assert s[..n] == [s[0]] + s[1..][..n - 1];
      n
  }

  /** A run of word characters ended by a non-word character is the longest one. */
  lemma {:induction false} WordRunExact(s: string, m: nat)
    requires m < |s| && AllWord(s[..m]) && !IsWordChar(s[m])
    ensures WordRun(s) == m
    decreases m
  {
    if m > 0 {
      assert IsWordChar(s[..m][0]);
      assert s[1..][..m - 1] == s[..m][1..];
      WordRunExact(s[1..], m - 1);
    }
  }

  /** The key of the `\{(\w+)\}` match that starts `t`, if one does. */
  function Leading(t: string): (r: Option<string>)
    ensures r.Some? ==> IsKey(r.value) && |r.value| + 2 <= |t| && t[..|r.value| + 2] == "{" + r.value + "}"
    ensures r.Some? <==> exists j :: PlaceholderAt(t, 0, j)
  {
    if t == [] || t[0] != '{' then
      assert forall j :: !PlaceholderAt(t, 0, j);
      None
    else
      var n := WordRun(t[1..]);
      if 0 < n && n + 1 < |t| && t[n + 1] == '}' then
        assert t[1..n + 1] == t[1..][..n];
        assert PlaceholderAt(t, 0, n + 1);
        Some(t[1..n + 1])
      else
        assert forall j :: !PlaceholderAt(t, 0, j) by {
          forall j | PlaceholderAt(t, 0, j) ensures false {
            assert t[1..][..j - 1] == t[1..j];
            WordRunExact(t[1..], j - 1);
          }
        }
        None
  }

  // ---------------------------------------------------------------- interpolate

  /** A key `interpolate` can substitute: present under `infra` and not empty. */
  predicate Resolvable(store: Store, key: string) {
    Cfg(store, key, Infra, true).Ok?
  }

  /** The keys `interpolate` looks up, in the order it looks them up. */
  function PlaceholderKeys(t: string): (ks: seq<string>)
    ensures forall k :: k in ks ==> IsKey(k)
    decreases |t|
  {
    if t == [] then []
    else match Leading(t)
      case Some(k) => [k] + PlaceholderKeys(t[|k| + 2..])
      case None => PlaceholderKeys(t[1..])
  }

  /** `interpolate(template)`: one left-to-right `re.sub` pass; every match is
      replaced by `cfg(KEY)` (required, label infra), and the text substituted
      is not scanned again. The first key that cannot be resolved exits. */
  function Interpolate(store: Store, t: string): (r: Result<string>)
    ensures r.Ok? <==> forall k :: k in PlaceholderKeys(t) ==> Resolvable(store, k)
    ensures r.Exit? ==> (r.reason.ConfigUnavailable? || r.reason.ConfigEmpty?)
                        && r.reason.key in PlaceholderKeys(t) && !Resolvable(store, r.reason.key)
    ensures r.Ok? && t != [] ==> r.value != []
    decreases |t|
  {
    if t == [] then Ok([])
    else match Leading(t)
      case Some(k) =>
        var tail := t[|k| + 2..];
        assert PlaceholderKeys(t) == [k] + PlaceholderKeys(tail);
        assert k in PlaceholderKeys(t);
        var c := Cfg(store, k, Infra, true);
        if c.Exit? then Exit(c.reason)
        else Prefixed(c.value, Interpolate(store, tail))
      case None =>
        assert PlaceholderKeys(t) == PlaceholderKeys(t[1..]);
        Prefixed([t[0]], Interpolate(store, t[1..]))
  }

  /** `s` followed by the outcome `r` of resolving what comes after it. */
  function Prefixed(s: string, r: Result<string>): Result<string> {
    match r
    case Ok(v) => Ok(s + v)
    case Exit(e) => Exit(e)
  }

  lemma ShiftPlaceholder(t: string, i: int, j: int)
    requires t != []
    ensures PlaceholderAt(t[1..], i, j) ==> PlaceholderAt(t, i + 1, j + 1)
    ensures 0 <= i && PlaceholderAt(t, i + 1, j + 1) ==> PlaceholderAt(t[1..], i, j)
  {
    if 0 <= i && i + 1 < j < |t| - 1 {
      assert t[1..][i] == t[i + 1] && t[1..][j] == t[j + 1];
      assert t[1..][i + 1..j] == t[i + 2..j + 1];
    }
  }

  lemma NoPlaceholderTail(t: string)
    requires t != []
    ensures NoPlaceholder(t) <==> (Leading(t).None? && NoPlaceholder(t[1..]))
  {
    if NoPlaceholder(t) {
      forall i, j ensures !PlaceholderAt(t[1..], i, j) {
        ShiftPlaceholder(t, i, j);
      }
    }
    if Leading(t).None? && NoPlaceholder(t[1..]) {
      forall i, j ensures !PlaceholderAt(t, i, j) {
        if i > 0 {
          ShiftPlaceholder(t, i - 1, j - 1);
        }
      }
    }
  }

  /** A template holds no placeholder exactly when `interpolate` looks nothing up. */
  lemma {:induction false} NoPlaceholderIffNoLookups(t: string)
    ensures NoPlaceholder(t) <==> PlaceholderKeys(t) == []
    decreases |t|
  {
    if t != [] {
      NoPlaceholderTail(t);
      NoPlaceholderIffNoLookups(t[1..]);
    }
  }

  /** A template without placeholders comes back unchanged, whatever the store holds. */
  lemma {:induction false} IdentityWithoutPlaceholders(store: Store, t: string)
    requires NoPlaceholder(t)
    ensures Interpolate(store, t) == Ok(t)
    decreases |t|
  {
    if t != [] {
      NoPlaceholderTail(t);
      IdentityWithoutPlaceholders(store, t[1..]);
      assert [t[0]] + t[1..] == t;
    }
  }

  /** Literal text that no placeholder can straddle when text is appended:
      it does not end inside a possible `{\w+` opening. */
  predicate Closed(s: string) {
    s == [] || (!IsWordChar(s[|s| - 1]) && s[|s| - 1] != '{')
  }

  /** No placeholder can straddle the join of `s` and `t`: either `s` is `Closed`,
      or `t` opens with a `{`, which no `\w+` run can cross. */
  predicate Seals(s: string, t: string) {
    Closed(s) || (t != [] && t[0] == '{')
  }

  /** No placeholder starts at the front of placeholder-free text joined to
      what follows it without a straddling placeholder. */
  lemma LiteralStart(s: string, t: string)
    requires s != [] && NoPlaceholder(s) && Seals(s, t)
    ensures Leading(s + t).None?
  {
    var u := s + t;
    forall j ensures !PlaceholderAt(u, 0, j) {
      if 0 < j < |s| {
        assert u[1..j] == s[1..j];
        assert !PlaceholderAt(s, 0, j);
      } else if Closed(s) && 2 <= |s| <= j < |u| {
        assert u[1..j][|s| - 2] == u[|s| - 1] == s[|s| - 1];
      } else if !Closed(s) && |s| < j < |u| {
        assert u[1..j][|s| - 1] == u[|s|] == t[0];
      }
    }
  }

  /** Copying `p` and then `d` ahead of a result copies `p + d`. */
  lemma PrefixedTwice(p: string, d: string, r: Result<string>)
    ensures Prefixed(p, Prefixed(d, r)) == Prefixed(p + d, r)
  {
    if r.Ok? {
      assert p + (d + r.value) == (p + d) + r.value;
    }
  }

  /** Dropping the first character keeps such text placeholder-free and sealed. */
  lemma LiteralRest(s: string, t: string)
    requires s != [] && NoPlaceholder(s) && Seals(s, t)
    ensures NoPlaceholder(s[1..]) && Seals(s[1..], t)
  {
    NoPlaceholderTail(s);
  }

  /** A template that does not open with a placeholder copies its first character. */
  lemma LiteralHead(store: Store, u: string)
    requires u != [] && Leading(u).None?
    ensures Interpolate(store, u) == Prefixed([u[0]], Interpolate(store, u[1..]))
  {
  }

  /** Placeholder-free literal text is copied through and the scan carries on
      after it unaffected, unless a placeholder straddles the join. */
  lemma {:induction false} InterpolateAppend(store: Store, s: string, t: string)
    requires NoPlaceholder(s) && Seals(s, t)
    ensures Interpolate(store, s + t) == Prefixed(s, Interpolate(store, t))
    decreases |s|
  {
    if s == [] {
      assert s + t == t;
      if Interpolate(store, t).Ok? {
        assert s + Interpolate(store, t).value == Interpolate(store, t).value;
      }
    } else {
      LiteralRest(s, t);
      InterpolateAppend(store, s[1..], t);
      AppendStep(store, s, t);
    }
  }

  /** The inductive step of the lemma above: one literal character more. */
  lemma AppendStep(store: Store, s: string, t: string)
    requires s != [] && NoPlaceholder(s) && Seals(s, t)
    requires Interpolate(store, s[1..] + t) == Prefixed(s[1..], Interpolate(store, t))
    ensures Interpolate(store, s + t) == Prefixed(s, Interpolate(store, t))
  {
    var u := s + t;
    var r := Interpolate(store, t);
    assert Interpolate(store, u) == Prefixed([s[0]], Interpolate(store, u[1..])) by {
      LiteralStart(s, t);
      LiteralHead(store, u);
    }
    ConsSplit(s, t);
    PrefixedTwice([s[0]], s[1..], r);
  }

  lemma ConsSplit(s: string, t: string)
    requires s != []
    ensures (s + t)[0] == s[0] && (s + t)[1..] == s[1..] + t && [s[0]] + s[1..] == s
  {
  }

  /** A template that opens with `{KEY}` substitutes KEY's value, then resolves the rest. */
  lemma LeadingPlaceholder(store: Store, k: string, t: string)
    requires IsKey(k)
    ensures var c := Cfg(store, k, Infra, true);
            Interpolate(store, "{" + k + "}" + t) ==
              if c.Ok? then Prefixed(c.value, Interpolate(store, t)) else Exit(c.reason)
  {
    var u := "{" + k + "}" + t;
    assert u[1..][..|k|] == k;
    assert u[1..][|k|] == '}';
    WordRunExact(u[1..], |k|);
    assert u[1..|k| + 1] == k;
    assert Leading(u) == Some(k);
    assert u[|k| + 2..] == t;
  }

  /** The substituted value is not scanned again: `{K}` yields K's value verbatim,
      even when that value itself looks like a placeholder. */
  lemma NoRescan(store: Store, k: string, v: string)
    requires IsKey(k) && Cfg(store, k, Infra, true) == Ok(v)
    ensures Interpolate(store, "{" + k + "}") == Ok(v)
  {
    LeadingPlaceholder(store, k, "");
    assert "{" + k + "}" + "" == "{" + k + "}";
    assert v + "" == v;
  }

  /** An embedded dotted placeholder `{A.B}` is not a `\{(\w+)\}` match. */
  lemma DottedIsLiteral(a: string, b: string)
    requires IsKey(a) && IsKey(b)
    ensures NoPlaceholder("{" + a + "." + b + "}")
    ensures Closed("{" + a + "." + b + "}")
  {
    var d := "{" + a + "." + b + "}";
    assert forall i :: 1 <= i <= |a| ==> d[i] == a[i - 1];
    assert d[|a| + 1] == '.';
    assert forall i :: |a| + 2 <= i < |d| - 1 ==> d[i] == b[i - |a| - 2];
    assert forall j :: 0 < j < |d| - 1 ==> d[j] != '}';
  }

  /** `interpolate` leaves an embedded `{A.B}` verbatim and looks nothing up for it. */
  lemma EmbeddedDottedVerbatim(store: Store, p: string, a: string, b: string, t: string)
    requires NoPlaceholder(p) && IsKey(a) && IsKey(b)
    ensures Interpolate(store, p + ("{" + a + "." + b + "}") + t)
            == Prefixed(p + ("{" + a + "." + b + "}"), Interpolate(store, t))
  {
    var d := "{" + a + "." + b + "}";
    DottedIsLiteral(a, b);
    InterpolateAppend(store, d, t);
    assert (d + t)[0] == '{';
    InterpolateAppend(store, p, d + t);
    assert p + d + t == p + (d + t);
    PrefixedTwice(p, d, Interpolate(store, t));
  }

  /** Placeholder-free text before a `{KEY}` is kept, whatever character it ends
      with (`v1{K}` included), and the placeholder is substituted after it. */
  lemma PlaceholderAfterLiteral(store: Store, p: string, k: string, t: string)
    requires NoPlaceholder(p) && IsKey(k)
    ensures var c := Cfg(store, k, Infra, true);
            Interpolate(store, p + ("{" + k + "}") + t) ==
              if c.Ok? then Prefixed(p + c.value, Interpolate(store, t)) else Exit(c.reason)
  {
    var u := "{" + k + "}" + t;
    assert p + ("{" + k + "}") + t == p + u;
    assert u[0] == '{';
    InterpolateAppend(store, p, u);
    LeadingPlaceholder(store, k, t);
    var c := Cfg(store, k, Infra, true);
    if c.Ok? {
      PrefixedTwice(p, c.value, Interpolate(store, t));
    }
  }

  /** `/subscriptions/{AZURE_SUBSCRIPTION_ID}/rg` with the subscription id `sub-1`. */
  lemma SubscriptionScenario(store: Store)
    requires ("AZURE_SUBSCRIPTION_ID", Infra) in store && store[("AZURE_SUBSCRIPTION_ID", Infra)] == "sub-1"
    ensures Interpolate(store, "/subscriptions/" + ("{" + "AZURE_SUBSCRIPTION_ID" + "}") + "/rg")
            == Ok("/subscriptions/" + "sub-1" + "/rg")
  {
    var p, k, s := "/subscriptions/", "AZURE_SUBSCRIPTION_ID", "/rg";
    ScenarioLiterals();
    assert Cfg(store, k, Infra, true) == Ok("sub-1");
    PlaceholderAfterLiteral(store, p, k, s);
    IdentityWithoutPlaceholders(store, s);
  }

  lemma ScenarioLiterals()
    ensures IsKey("AZURE_SUBSCRIPTION_ID") && NoPlaceholder("/subscriptions/") && NoPlaceholder("/rg")
  {
    var p, k, s := "/subscriptions/", "AZURE_SUBSCRIPTION_ID", "/rg";
    assert forall i :: 0 <= i < |k| ==> IsWordChar(k[i]);
    assert forall i :: 0 <= i < |p| ==> p[i] != '{';
    assert forall i :: 0 <= i < |s| ==> s[i] != '{';
  }

  // ---------------------------------------------------------------- resource ids

  /** The two keys when `raw` is exactly `{OUTER.INNER}` (`re.fullmatch(r"\{(\w+)\.(\w+)\}")`). */
  function DottedPair(raw: string): (r: Option<(string, string)>)
    ensures r.Some? ==> IsKey(r.value.0) && IsKey(r.value.1) && raw == "{" + r.value.0 + "." + r.value.1 + "}"
  {
    if |raw| < 5 || raw[0] != '{' || raw[|raw| - 1] != '}' then None
    else
      var mid := raw[1..|raw| - 1];
      var n := WordRun(mid);
      if 0 < n < |mid| && mid[n] == '.' && IsKey(mid[n + 1..]) then
        assert mid == mid[..n] + "." + mid[n + 1..];
        Some((mid[..n], mid[n + 1..]))
      else None
  }

  /** Every string of the form `{OUTER.INNER}` is recognised, with its two keys. */
  lemma DottedPairComplete(a: string, b: string)
    requires IsKey(a) && IsKey(b)
    ensures DottedPair("{" + a + "." + b + "}") == Some((a, b))
  {
    var raw := "{" + a + "." + b + "}";
    var mid := raw[1..|raw| - 1];
    assert mid == a + "." + b;
    assert mid[..|a|] == a;
    WordRunExact(mid, |a|);
    assert mid[|a| + 1..] == b;
  }

  /** Turns `json.loads` text into a value; None when the text is not valid JSON. */
  type Parser = string -> Option<Json>

  /** `resolve_resource_id(raw)`: for exactly `{OUTER.INNER}`, the INNER attribute of
      OUTER's JSON value; any other string goes through `interpolate`. */
  function ResolveResourceId(store: Store, parse: Parser, raw: string): (r: Result<Json>)
    ensures DottedPair(raw).None? ==> (r.Ok? <==> Interpolate(store, raw).Ok?)
    ensures DottedPair(raw).None? && r.Ok? ==> r.value == JString(Interpolate(store, raw).value)
  {
    match DottedPair(raw)
    case Some((outer, inner)) =>
      var text :- Cfg(store, outer, Infra, true);
      (match parse(text)
       case None => Exit(InvalidJson(outer))
       case Some(obj) => Member(obj, inner, MissingAttribute(outer, inner)))
    case None =>
      var s :- Interpolate(store, raw);
      Ok(JString(s))
  }

  /** `{OUTER.INNER}` exits like `cfg` when OUTER cannot be fetched, exits on text that
      is not JSON, exits when INNER is absent, and otherwise yields INNER's value. */
  lemma ResolveDotted(store: Store, parse: Parser, outer: string, inner: string)
    requires IsKey(outer) && IsKey(inner)
    ensures var r := ResolveResourceId(store, parse, "{" + outer + "." + inner + "}");
            var c := Cfg(store, outer, Infra, true);
            && (c.Exit? ==> r == Exit(c.reason))
            && (c.Ok? && parse(c.value).None? ==> r == Exit(InvalidJson(outer)))
            && (c.Ok? && parse(c.value).Some? && parse(c.value).value.JObject? ==>
                  var m := parse(c.value).value.members;
                  && (r.Ok? <==> inner in Keys(m))
                  && (r.Ok? ==> Get(m, inner) == Some(r.value))
                  && (inner !in Keys(m) ==> r == Exit(MissingAttribute(outer, inner))))
  {
    DottedPairComplete(outer, inner);
  }

  /** `{FOO.bar}` against `FOO = {"bar": "baz"}` yields `baz`; `{FOO.qux}` exits. */
  lemma FooBarScenario(store: Store, parse: Parser)
    requires ("FOO", Infra) in store && store[("FOO", Infra)] == "{\"bar\": \"baz\"}"
    requires parse("{\"bar\": \"baz\"}") == Some(JObject([("bar", JString("baz"))]))
    ensures ResolveResourceId(store, parse, "{FOO.bar}") == Ok(JString("baz"))
    ensures ResolveResourceId(store, parse, "{FOO.qux}") == Exit(MissingAttribute("FOO", "qux"))
  {
    assert IsKey("FOO") && IsKey("bar") && IsKey("qux") by {
      assert forall c :: c in "FOObarqux" ==> IsWordChar(c);
    }
    assert "{FOO.bar}" == "{" + "FOO" + "." + "bar" + "}";
    assert "{FOO.qux}" == "{" + "FOO" + "." + "qux" + "}";
    ResolveDotted(store, parse, "FOO", "bar");
    ResolveDotted(store, parse, "FOO", "qux");
    assert Keys([("bar", JString("baz"))]) == ["bar"];
  }
}
